=== FILE: README.md ===
# DS-Sheet catalog and viewer rules in Dafny

DS-Sheet serves a folder of PDF sheet music. The server keeps a SQLite
catalog of the PDFs under a note root, reconciles it with the disk on every
scan, guards file paths against traversal and answers the list, detail, file
(with byte ranges) and scan routes. The client has an offline catalog in
IndexedDB, a keyboard/foot-pedal binding and a page viewer. This project
models those rules as pure Dafny functions over immutable values and proves
what they promise.

Modules, one per concern:

- `Results`: `Option` and `Result`.
- `Text`: JavaScript string operations: `includes`, `startsWith`, `endsWith`, `split`, `join`, the first-match `replace`, `lastIndexOf`, ASCII `toLowerCase`. It also defines the two string orders in play. SQLite's BINARY collation compares code points. JavaScript's `sort` and IndexedDB's key order compare UTF-16 code units.
- `SqlLike`: SQLite's `LIKE` with `%`, `_` and ASCII case folding.
- `Numbers`: the 32-bit `ToInt32` wrap-around, `Number.prototype.toString(radix)`, and the global `parseInt` (white space, sign, `0x` prefix, longest digit run, `NaN`).
- `Ids`: the catalog's id generator, a 31-multiplier hash over UTF-16 code units, made absolute and written in base 36.
- `Paths`: POSIX `path.resolve` on segment lists, `sanitizePath`, `path.extname`, `path.basename`, `path.dirname`, and the MIME lookup.
- `Catalog`: the `scores` table as a map from relative path to row. It keeps both uniqueness keys: `id` is the primary key and `relative_path` is unique. It covers the upsert, lookup by id, the filtered and ordered listing, delete, count and the folder list.
- `Scanner`: the directory walk, per-file indexing, the full reconciling scan behind its busy flag, and the single-file watcher handlers.
- `Routes`: the decisions of the list, detail, file and scan routes, including the byte-range arithmetic and the status codes the error handler produces.
- `LocalDb`: the client's two object stores, with `add` vs `put`, and its listing and filters.
- `Keyboard`: the key lists and the `handleKeyDown` dispatch.
- `Viewer`: page navigation, touch zones, the Escape choice, the keys as the viewer wires them, and the `local-N` lookup.

The file system, the clock and the PDF parser are parameters:
- a directory tree `seq<Entry>`, whose `Unreadable` entries mark where `readdirSync` or `statSync` throws, with Node's message;
- `isFile` and `sizeOf` functions on absolute paths;
- a `now` string;
- a `pages` function from relative path to `Option<nat>`.

`pages` returns `None` where `extractPageCount` swallows a read or parse error, so a file the parser cannot read never aborts a scan. A file gone before `statSync` does abort it; it is an `Unreadable` entry.

## Model

| member | source | states |
|---|---|---|
| Numbers.Int32 | server/src/services/database.ts:157-158 | the result is the signed 32-bit value congruent to the input modulo 2^32 |
| Numbers.Int32Congruent | server/src/services/database.ts:157-158 | inputs congruent modulo 2^32 wrap to the same 32-bit value |
| Numbers.Int32Identity | server/src/services/database.ts:158 | `h & h` leaves a value already in 32-bit range unchanged |
| Numbers.DigitChar | server/src/services/database.ts:160 | the digit written for a value below 36 is a lower-case digit or letter that reads back as that value |
| Numbers.ToRadix | server/src/services/database.ts:160 | `toString(radix)` gives a non-empty string of digits of that radix with no leading zero unless the number is 0 |
| Numbers.RadixRoundTrip | server/src/services/database.ts:160 | reading the rendered digits back in the same radix gives the number |
| Numbers.RadixInjective | server/src/services/database.ts:160 | different numbers render differently in any radix 2..36 |
| Numbers.TrimStart | server/src/routes/scores.ts:91 | `parseInt` skips exactly the leading ECMAScript white space and line terminators |
| Numbers.DigitRun | server/src/routes/scores.ts:91 | the digit run `parseInt` reads is the longest prefix of digits of the radix |
| Numbers.DecimalRoundTrip | server/src/routes/scores.ts:91-92 | `parseInt` of a rendered integer, with radix 10 or none, returns that integer |
| Numbers.ParseDecimal | client/src/components/ViewerPage.tsx:28 | a decimal rendering parses back to its integer both with and without a radix |
| Numbers.ParseIntStopsAtNonDigit | server/src/routes/scores.ts:91-92 | `parseInt` stops at the first non-digit and ignores the rest |
| Numbers.DigitRunAll | server/src/routes/scores.ts:91 | on a string of digits the digit run is the whole string |
| Numbers.DigitRunPrefix | server/src/routes/scores.ts:91 | the digit run ends at the first non-digit |
| Numbers.ReadRendered | server/src/routes/scores.ts:91 | the decimal digits of `m` read back as `m` |
| Numbers.ParseInt | server/src/routes/scores.ts:91-92 | `parseInt`: white space, one sign, the `0x` prefix, the longest digit run, `NaN` without digits; its meaning is stated by Numbers.DecimalRoundTrip and Numbers.ParseIntStopsAtNonDigit |
| Text.LowerAppend | client/src/services/localDatabase.ts:153-158 | lower-casing distributes over concatenation |
| Text.LowerSlice | client/src/services/localDatabase.ts:153-158 | lower-casing commutes with slicing |
| Text.IndexOf | server/src/routes/scores.ts:90 | the first occurrence at or after `from`, or none when there is none |
| Text.RemoveFirst | server/src/routes/scores.ts:90 | `replace` with a plain pattern removes only the first occurrence, and returns the input when there is none |
| Text.RemoveFirstAtStart | client/src/components/ViewerPage.tsx:28 | removing a prefix's first occurrence from prefix + rest leaves rest |
| Text.ContainsInMiddle | server/src/routes/scores.ts:138 | a string contains any block written into its middle |
| Text.NotContainsByFirstChar | server/src/routes/scores.ts:138 | a text whose first character is absent from `s` does not occur in `s` |
| Text.ContainsEmpty | client/src/services/localDatabase.ts:156 | every string includes the empty string |
| Text.LastIndexOf | client/src/components/ViewerPage.tsx:31 | the last position of a character, none exactly when it is absent |
| Text.Split | server/src/routes/scores.ts:90 | `split` gives at least one piece and no piece holds the separator |
| Text.JoinSplit | server/src/routes/scores.ts:90 | joining the pieces of a split with the separator restores the string |
| Text.SplitJoin | server/src/routes/scores.ts:90 | splitting a join of separator-free pieces restores the pieces |
| Text.SplitNoSep | client/src/components/ViewerPage.tsx:31 | a string without the separator splits into itself |
| Text.SplitPrefix | server/src/routes/scores.ts:90 | a separator-free head splits off as the first piece |
| Text.LexReflexive | server/src/services/database.ts:119 | the lexicographic order is reflexive |
| Text.LexTotal | server/src/services/database.ts:119 | the lexicographic order is total |
| Text.LexTransitive | server/src/services/database.ts:119 | the lexicographic order is transitive |
| Text.LexAntisymmetric | server/src/services/database.ts:119 | the lexicographic order is antisymmetric |
| Text.CodePointsInjective | server/src/services/database.ts:119 | strings with the same code points are equal |
| Text.BinaryTotal | server/src/services/database.ts:119 | SQLite's BINARY collation orders any two strings |
| Text.BinaryTransitive | server/src/services/database.ts:119 | the BINARY collation is transitive |
| Text.BinaryAntisymmetric | server/src/services/database.ts:145 | strings the BINARY collation ranks both ways are equal, so DISTINCT values are strictly ordered |
| Text.BinaryReflexive | server/src/services/database.ts:119 | the BINARY collation is reflexive |
| Text.Utf16 | server/src/services/database.ts:156 | a character is one or two UTF-16 code units below 0x10000 |
| Text.CodeUnits | server/src/services/database.ts:155-156 | the UTF-16 code units of a string, between one and two per character |
| Text.CodeUnitsAppend | server/src/services/database.ts:155-156 | code units distribute over concatenation |
| Text.CodeUnitsInjective | client/src/services/localDatabase.ts:175 | strings with the same UTF-16 code units are equal |
| Text.Utf16Total | client/src/services/localDatabase.ts:175 | JavaScript's default string order ranks any two strings |
| Text.Utf16Transitive | client/src/services/localDatabase.ts:175 | the default string order is transitive |
| Text.Utf16Antisymmetric | client/src/services/localDatabase.ts:175 | strings the default order ranks both ways are equal |
| Text.Utf16Reflexive | client/src/services/localDatabase.ts:175 | the default string order is reflexive |
| SqlLike.PercentMatchesAll | server/src/services/database.ts:110 | the pattern `%` matches every string |
| SqlLike.LiteralThenPercent | server/src/services/database.ts:114-117 | for wildcard-free text `t`, `t%` matches exactly the strings starting with `t` up to ASCII case |
| SqlLike.PercentThen | server/src/services/database.ts:110 | a leading `%` matches when the rest matches some suffix |
| SqlLike.SearchPatternIsSubstring | server/src/services/database.ts:108-112 | for wildcard-free text `t`, `%t%` matches exactly the strings containing `t` up to ASCII case |
| SqlLike.UnderscoreIsWildcard | server/src/services/database.ts:110 | an unescaped `_` in a search term matches any character, so the search is not a plain substring test |
| SqlLike.Like | server/src/services/database.ts:108-117 | a pattern without `%` matches only strings of its own length: `_` and every other character match exactly one character |
| Ids.HashStepIsTimes31 | server/src/services/database.ts:157-158 | `((h << 5) - h) + c` then `h & h` is 31h + c wrapped to 32 bits |
| Ids.Hash | server/src/services/database.ts:154-159 | the hash stays in the signed 32-bit range |
| Ids.ComputeId | server/src/services/database.ts:152-161 | the `charCodeAt` loop computes `GenerateId`; what the id means is stated by Ids.HashStepIsTimes31, Ids.PairHash, Ids.IdShape and Ids.IdCollision |
| Ids.IdShape | server/src/services/database.ts:160 | an id is a non-empty base-36 string of 0-9a-z without a leading zero, worth at most 2^31 |
| Ids.HashExtend | server/src/services/database.ts:154-159 | two prefixes with equal hashes keep equal hashes under any common suffix |
| Ids.IdCollision | server/src/services/database.ts:152-161 | the different paths "Aa.pdf" and "BB.pdf" get the same id |
| Ids.PairHash | server/src/services/database.ts:154-159 | the hash of two ASCII characters is 31a + b |
| Ids.GenerateId | server/src/services/database.ts:152-161 | an id is a non-empty string of digits and lower-case letters |
| Paths.NormalizeKeepsNames | server/src/services/file.ts:14 | resolving yields segments that are plain names |
| Paths.Resolve | server/src/services/file.ts:14 | resolving against a root of plain names yields plain names |
| Paths.NormalizeWithoutParent | server/src/services/file.ts:14 | without ".." segments resolution only appends to the root |
| Paths.StripLeadingSeparators | server/src/services/file.ts:11 | exactly the leading run of "/" and "\\" is removed |
| Paths.StripIdempotent | server/src/services/file.ts:11 | stripping twice is stripping once |
| Paths.SanitizePath | server/src/services/file.ts:9-22 | an accepted path is the resolution of the stripped input against the root and starts with the root's text |
| Paths.SlashedAppend | server/src/services/file.ts:14 | rendering distributes over appending segments |
| Paths.InsideIsAccepted | server/src/services/file.ts:17 | a path below the root passes the prefix test |
| Paths.NoParentNeverThrows | server/src/services/file.ts:11-17 | an input without ".." segments resolves below the root and is accepted |
| Paths.PrefixAt | server/src/services/file.ts:17 | a prefix agrees with the string at every one of its positions |
| Paths.HeadSegmentsEqual | server/src/services/file.ts:17 | if one rendered path starts with another, their first segments are equal |
| Paths.LastSegmentPrefix | server/src/services/file.ts:17 | the prefix test on the root's last segment reduces to a prefix test on names |
| Paths.SlashedStartsWithSlash | server/src/services/file.ts:14 | a rendered non-empty path starts with "/" |
| Paths.PrefixTestMeans | server/src/services/file.ts:17 | the raw prefix test holds exactly when the path lies below the root's parent and shares all of the root except a prefix of its last name |
| Paths.PrefixTestSound | server/src/services/file.ts:17 | a path passing the prefix test is near the root in that sense |
| Paths.DropSlash | server/src/services/file.ts:17 | a common leading "/" can be dropped from a prefix test |
| Paths.SlashedPrefix | server/src/services/file.ts:17 | the segment-wise reading of the prefix test, by induction on the root |
| Paths.AcceptedIsNearRoot | server/src/services/file.ts:14-21 | every accepted input resolves near the root |
| Paths.SplitUp | server/src/services/file.ts:14 | "../" splits off a ".." segment |
| Paths.NormalizeUp | server/src/services/file.ts:14 | ".." drops the last segment |
| Paths.NormalizeName | server/src/services/file.ts:14 | a name is appended |
| Paths.ResolveSibling | server/src/services/file.ts:14 | "../x" and "a/../../x" resolve beside the root |
| Paths.ParentEscapeRejected | server/src/services/file.ts:14-19 | "../x" and "a/../../x" are rejected unless x starts with the root's last name |
| Paths.SiblingPrefixAccepted | server/src/services/file.ts:17 | with root "/notes", "../notesX/a.pdf" is accepted and resolves to "/notesX/a.pdf", outside the root |
| Paths.Extname | server/src/services/file.ts:53 | the extension is empty or a "." followed by text without another "." |
| Paths.MimeType | server/src/services/file.ts:52-60 | the type is application/pdf or application/octet-stream; Paths.MimeTypeIsPdf says which |
| Paths.MimeTypeIsPdf | server/src/services/file.ts:52-60 | the type is application/pdf exactly when the last component, lower-cased, ends in ".pdf" after at least one character |
| Paths.PdfExtensionSound | server/src/services/file.ts:53 | a ".pdf" extension means the component ends in ".pdf" with something before the dot |
| Paths.PdfExtensionComplete | server/src/services/file.ts:53 | a component ending in ".pdf" with something before the dot has the ".pdf" extension |
| Paths.ParentFolder | server/src/services/scanner.ts:82-96 | a path without "/" lies in the folder ""; otherwise the folder is a proper prefix of the path followed by "/" |
| Paths.BaseName | server/src/services/scanner.ts:81 | the base name holds no "/" and ends the path; a path without "/" is its own base name |
| Paths.FolderAndBaseName | server/src/services/scanner.ts:81-82 | a relative path is its folder joined with its base name |
| Paths.FolderOfChild | server/src/services/scanner.ts:82-96 | a file found in a directory has that directory as its folder, "" at the root, and its own name as base name |
| Catalog.Upsert | server/src/services/database.ts:43-71 | insert or update on the relative path; other rows unchanged; the stored id is never rewritten; a new path whose id is taken is a primary-key error |
| Catalog.UpsertKeepsValid | server/src/services/database.ts:25-71 | an upsert keeps both uniqueness keys and the id derivation |
| Catalog.UpsertExistingKeepsId | server/src/services/database.ts:44-70 | re-inserting a catalogued path succeeds and returns and keeps the stored id |
| Catalog.UpsertIdempotent | server/src/services/database.ts:47-57 | repeating an upsert changes nothing more |
| Catalog.CollidingInsertFails | server/src/services/database.ts:25-50 | inserting "BB.pdf" beside "Aa.pdf" fails with a primary-key error |
| Catalog.GetById | server/src/services/database.ts:73-89 | finds a row exactly when some row has the id, and it is that row |
| Catalog.GetAfterUpsert | server/src/services/database.ts:43-89 | looking up the returned id yields the upserted row |
| Catalog.Delete | server/src/services/database.ts:125-128 | the path is gone, the others unchanged, absence is a no-op, validity kept |
| Catalog.DeleteUndoesInsert | server/src/services/database.ts:43-128 | deleting a freshly inserted path restores the catalog |
| Catalog.UpsertCount | server/src/services/database.ts:134-138 | the count rises by one exactly when the path was new |
| Catalog.Count | server/src/services/database.ts:134-138 | the count is 0 exactly for the empty catalog |
| Catalog.DeleteCount | server/src/services/database.ts:125-138 | the count falls by one exactly when the path was present |
| Catalog.FiltersOnLiteralText | server/src/services/database.ts:108-117 | without wildcards the search is a case-insensitive substring test on filename or path, and the folder filter a prefix test |
| Catalog.ScoreLeTotal | server/src/services/database.ts:119 | ORDER BY folder, filename ranks any two rows |
| Catalog.ScoreLeTransitive | server/src/services/database.ts:119 | ORDER BY folder, filename is transitive |
| Catalog.InsertScore | server/src/services/database.ts:119 | placing a row keeps the list ordered and adds exactly that row |
| Catalog.SelectSorted | server/src/services/database.ts:91-123 | the rows satisfying a filter, each once, ordered by folder then filename |
| Catalog.ListScores | server/src/services/database.ts:91-123 | exactly the rows passing the search and folder filters, each once, ordered by folder then filename |
| Catalog.InsertFolder | server/src/services/database.ts:140-150 | adding a folder keeps the list strictly ascending and adds exactly it |
| Catalog.Folders | server/src/services/database.ts:140-150 | exactly the distinct non-empty folders, strictly ascending |
| Scanner.HoldsPdfWitness | server/src/services/scanner.ts:59-68 | a PDF below a directory is below one of its entries |
| Scanner.IsPdfName | server/src/services/scanner.ts:65 | a PDF name has at least four characters, a "." among them |
| Scanner.Walk | server/src/services/scanner.ts:52-70 | every file the walk reports has a PDF name, tested on its relative path; Scanner.WalkFindsExactlyPdfs states which files those are |
| Scanner.FailsExactlyWhenUnreadable | server/src/services/scanner.ts:57-80 | the walk meets an error exactly when some entry of the tree, at any depth, cannot be listed or read |
| Scanner.WalkFindsExactlyPdfs | server/src/services/scanner.ts:52-70 | the walk yields only regular files with a ".pdf" name, any case, that the tree holds; when it meets no error it yields all of them, recursing into directories and ignoring other entries |
| Scanner.WalkSound | server/src/services/scanner.ts:59-68 | every file the walk yields, up to an error, is a PDF file the tree holds |
| Scanner.WalkComplete | server/src/services/scanner.ts:57-68 | a walk that meets no error yields every PDF file the tree holds |
| Scanner.HoldsPdfCons | server/src/services/scanner.ts:59 | a listing holds a file exactly when its first entry or the rest does |
| Scanner.PathsOf | server/src/services/scanner.ts:32-78 | the set of found relative paths |
| Scanner.PathsOfCons | server/src/services/scanner.ts:78 | the found set grows one path per file |
| Scanner.WellFormedTail | server/src/services/scanner.ts:57 | the rest of a directory listing is well formed |
| Scanner.DirPrefix | server/src/services/scanner.ts:60-77 | the relative path of an entry is its directory's prefix followed by its name |
| Scanner.SegmentAfter | server/src/services/scanner.ts:60-77 | a path below an entry carries the entry's name as the next segment |
| Scanner.BelowChildOfChild | server/src/services/scanner.ts:60-64 | below a subdirectory's entry is below the subdirectory |
| Scanner.WalkUnfold | server/src/services/scanner.ts:57-69 | the walk is the first entry's finds followed by the rest's, or the first entry's finds alone when the walk throws there |
| Scanner.EntryBelow | server/src/services/scanner.ts:60-67 | everything an entry yields lies below that entry |
| Scanner.WalkBelow | server/src/services/scanner.ts:59-69 | everything the walk yields lies below one of the entries |
| Scanner.DistinctAppend | server/src/services/scanner.ts:78 | joining path-disjoint lists of distinct paths keeps them distinct |
| Scanner.WalkPathsDistinct | server/src/services/scanner.ts:52-70 | in a real directory tree the walk meets each relative path once |
| Scanner.RowFor | server/src/services/scanner.ts:77-100 | the row written for a file: its base name, its relative path, its folder ("" at the root), size, mtime and page count; Scanner.IndexFileKeepsInvariants states the derivation it keeps |
| Scanner.IndexFile | server/src/services/scanner.ts:72-110 | a file whose stored mtime matches is left alone; otherwise it is upserted and counts as added when new and updated otherwise; only its own row changes |
| Scanner.IndexFileKeepsInvariants | server/src/services/scanner.ts:81-100 | indexing keeps the key invariants and every row's folder and filename derived from its path |
| Scanner.IndexAll | server/src/services/scanner.ts:59-108 | added + updated never exceeds the files indexed; no row is removed; without an error the keys grow by exactly the found paths; other rows unchanged |
| Scanner.IndexAllKeepsInvariants | server/src/services/scanner.ts:72-110 | indexing a run of files keeps the invariants |
| Scanner.RemoveMissing | server/src/services/scanner.ts:36-43 | the rows kept are exactly those whose path was found, unchanged |
| Scanner.Reconcile | server/src/services/scanner.ts:23-49 | success only when the walk met no error; after success the keys are exactly the found paths and removed counts the rows dropped; a failure removes no row and a read failure carries the walk's error; the flag is cleared either way |
| Scanner.Completed | server/src/services/scanner.ts:35-46 | the removal phase leaves exactly the found paths and counts the rows dropped |
| Scanner.ScanDirectory | server/src/services/scanner.ts:10-80 | busy: error without touching anything; otherwise the flag ends cleared; success needs a tree the walk can read; on success the keys equal the PDFs on disk, scanned counts them, removed counts the dropped rows, added + updated <= scanned; a failed scan keeps every row it had, and a read failure rethrows the first file-system error of the walk |
| Scanner.ScanKeepsInvariants | server/src/services/scanner.ts:10-50 | a scan, successful or not, keeps the catalog invariants |
| Scanner.ReconcileKeepsInvariants | server/src/services/scanner.ts:36-43 | the end of a scan keeps the catalog invariants |
| Scanner.SubCatalogKeepsInvariants | server/src/services/scanner.ts:36-43 | removing rows keeps the invariants of the rows that stay |
| Scanner.IndexAllRecordsTimes | server/src/services/scanner.ts:90-100 | after indexing, every file's row records its mtime |
| Scanner.IndexAllCurrent | server/src/services/scanner.ts:85-90 | files whose rows already record their mtime cause no write and no count |
| Scanner.RescanIsIdempotent | server/src/services/scanner.ts:36-90 | scanning an unchanged tree again gives added = updated = removed = 0 and the identical catalog |
| Scanner.ScanOfCurrentCatalog | server/src/services/scanner.ts:10-80 | a catalog already matching the disk is left as is, with zero counters, or with the walk's first file-system error when it meets one |
| Scanner.ScanRecordsTimes | server/src/services/scanner.ts:10-100 | after a successful scan every found file's row records its mtime |
| Scanner.PdfTestOnRelativePath | server/src/services/scanner.ts:65-124 | the ".pdf" test gives the same answer on the full path and on the relative path |
| Scanner.FileAddedOrChanged | server/src/services/scanner.ts:123-147 | non-PDF paths and unreadable files leave the catalog alone; a PDF ends up recording its mtime, or nothing changes on a primary-key error; other rows unchanged |
| Scanner.FileRemoved | server/src/services/scanner.ts:149-157 | a PDF path loses its row, other paths are ignored, other rows unchanged |
| Scanner.AddThenRemove | server/src/services/scanner.ts:123-157 | adding then removing a file is the same as removing it |
| Routes.ListRoute | server/src/routes/scores.ts:23-37 | the listing is the filtered, ordered catalog and `total` is its length |
| Routes.DetailOf | server/src/routes/scores.ts:43-62 | 404 exactly when there is no row; otherwise the row with `exists` set to the disk check, or 500 when the guard rejects the stored path |
| Routes.DetailRoute | server/src/routes/scores.ts:43-62 | 404 exactly when no row has the id; a detail answer is that row |
| Routes.DetailOfStaleRow | server/src/routes/scores.ts:52-59 | a row whose file is gone is returned with `exists` false, never 404 |
| Routes.RangeHead | server/src/routes/scores.ts:93-101 | the 206 head for parsed bounds carries a Content-Range and, as Content-Length, end - start + 1 (`NaN` when either bound is); when the read stream accepts the bounds that length is at least one byte |
| Routes.ServeFile | server/src/routes/scores.ts:77-111 | 500 for a rejected path, 404 for a missing file; a non-empty Range header gets the answer for the bounds it parses to (206 or a dropped connection), no Range header gets 200 with the whole size; every file body accepts ranges and carries the MIME type of the file name |
| Routes.FileOf | server/src/routes/scores.ts:68-116 | 404 for no row before any file access; otherwise the stored path is guarded and served |
| Routes.FileRoute | server/src/routes/scores.ts:68-75 | an unknown id is 404; a file body belongs to a catalogued id |
| Routes.FileGoneIsNotFound | server/src/routes/scores.ts:77-81 | a row whose file is gone gets 404 on the file route |
| Routes.NumTextReadsBack | server/src/routes/scores.ts:91-96 | a number written into the Content-Range header reads back with `parseInt(_, 10)` as the same number, `NaN` included |
| Routes.ParseRange | server/src/routes/scores.ts:90-92 | a header without "-" asks for everything up to the last byte of the file |
| Routes.PartialContentOf | server/src/routes/scores.ts:93-101 | the integer bounds S and E give Content-Range "bytes S-E/size" and Content-Length E-S+1 |
| Routes.RangeAnswer | server/src/routes/scores.ts:94-104 | after the 206 head the read stream opens the parsed bounds: the 206 head of those bounds, at least one byte long, when both are integers in 0..2^53-1 and start <= end; a dropped connection otherwise |
| Routes.NoDashInDecimal | server/src/routes/scores.ts:90 | a natural number's decimal text holds no "-" |
| Routes.RangePieces | server/src/routes/scores.ts:90 | "bytes=a-b" splits into a and the pieces of b |
| Routes.ClosedRangeParsing | server/src/routes/scores.ts:90-92 | "bytes=S-E" parses to start S and end E |
| Routes.OpenRangeParsing | server/src/routes/scores.ts:90-92 | "bytes=S-" parses to start S and end size - 1 |
| Routes.RangeResponse | server/src/routes/scores.ts:89-104 | "bytes=S-E" gives 206 with Content-Range "bytes S-E/size" and Content-Length E-S+1 when S <= E <= 2^53-1, whatever the file size; a reversed or oversized range drops the connection |
| Routes.OpenRangeResponse | server/src/routes/scores.ts:89-104 | "bytes=S-" gives 206 with Content-Range "bytes S-(size-1)/size" and Content-Length size-S when S lies inside a file of at most 2^53 bytes; a start at or past the end drops the connection |
| Routes.SuffixRangeHasNoStart | server/src/routes/scores.ts:90-104 | a suffix range "bytes=-N" has a `NaN` start and a `NaN` length, and the connection drops |
| Routes.ScanRoute | server/src/routes/scores.ts:123-143 | a successful scan returns its counters; a failure carries the error's message and is 409 exactly when that message contains "bereits in Bearbeitung" |
| Routes.BusyMessageMatches | server/src/services/scanner.ts:17 | the busy message contains "bereits in Bearbeitung" |
| Routes.ConflictMeansBusy | server/src/routes/scores.ts:137-142 | 409 comes exactly from the busy error, or from a file-system error whose message contains "bereits in Bearbeitung" |
| Routes.UnlistableFolderAnswersConflict | server/src/routes/scores.ts:123-142 | a scanner that is not busy answers 409 when it cannot list a folder named "Scan bereits in Bearbeitung", because Node's message names the folder |
| Routes.ScanWhileBusy | server/src/services/scanner.ts:16-18 | a scan while one runs answers 409 with the busy message and changes nothing |
| Routes.ScanErrorMessage | server/src/routes/scores.ts:137-141 | a file-system error passes Node's message on; the message contains "bereits in Bearbeitung" exactly for the busy error and for a file-system error whose message does |
| LocalDb.GetScore | client/src/services/localDatabase.ts:67-78 | null exactly for an unknown id, else the record with that id |
| LocalDb.AddScore | client/src/services/localDatabase.ts:80-91 | `add` fails exactly when the id exists; otherwise it stores the record and nothing else changes |
| LocalDb.UpdateScore | client/src/services/localDatabase.ts:93-104 | `put` inserts or overwrites the record under its id; nothing else changes |
| LocalDb.DeleteScore | client/src/services/localDatabase.ts:106-120 | the score and its file are both removed; others unchanged |
| LocalDb.SaveFile | client/src/services/localDatabase.ts:122-133 | exactly the given bytes are stored under the id; other files and all scores unchanged |
| LocalDb.GetFile | client/src/services/localDatabase.ts:135-149 | null exactly for an unknown id, else the bytes stored under that id |
| LocalDb.OtherFilesUntouched | client/src/services/localDatabase.ts:106-133 | saving or deleting under one id leaves every other id's file as `getFile` read it; deleting an id leaves no file under it |
| LocalDb.OperationsKeepKeyed | client/src/services/localDatabase.ts:39-133 | every store operation keeps records keyed by their id |
| LocalDb.StoreRoundTrips | client/src/services/localDatabase.ts:75-145 | a saved file and a put or added record read back as written |
| LocalDb.AddVersusPut | client/src/services/localDatabase.ts:86-99 | `add` equals `put` for a new id and fails for an existing one, where `put` overwrites |
| LocalDb.AddTwiceFails | client/src/services/localDatabase.ts:86 | adding the same record twice fails the second time |
| LocalDb.UpdateIdempotent | client/src/services/localDatabase.ts:99 | `put` twice is `put` once |
| LocalDb.DeleteUndoes | client/src/services/localDatabase.ts:110-117 | deleting an absent id is a no-op and deleting undoes add, put and save |
| LocalDb.InsertById | client/src/services/localDatabase.ts:60 | placing a record keeps the listing in ascending key order |
| LocalDb.GetAllScores | client/src/services/localDatabase.ts:54-65 | every stored record once, in ascending key order |
| LocalDb.DistinctIdsCount | client/src/services/localDatabase.ts:60 | a listing with distinct ids covering the key set has its size |
| LocalDb.Filter | client/src/services/localDatabase.ts:155-164 | `filter` keeps exactly the passing elements, each as often as before, in order |
| LocalDb.FilterKeepsAll | client/src/services/localDatabase.ts:155 | a filter everything passes returns the list |
| LocalDb.SearchScores | client/src/services/localDatabase.ts:151-160 | exactly the scores whose title, composer or a tag contains the query up to case, in their order |
| LocalDb.EmptySearchKeepsAll | client/src/services/localDatabase.ts:151-160 | an empty query keeps every score |
| LocalDb.SearchIgnoresQueryCase | client/src/services/localDatabase.ts:153 | the query's case does not matter |
| LocalDb.LowerIdempotent | client/src/services/localDatabase.ts:153 | lower-casing twice is lower-casing once |
| LocalDb.ScoresByFolder | client/src/services/localDatabase.ts:162-165 | exactly the scores whose folder equals the argument, in order |
| LocalDb.FolderIsNotPrefixMatch | client/src/services/localDatabase.ts:164 | a score in "A/B" is not listed for "A" |
| LocalDb.AddFolder | client/src/services/localDatabase.ts:169-175 | adding to the set keeps the list ascending and adds exactly that folder |
| LocalDb.GetFolders | client/src/services/localDatabase.ts:167-176 | exactly the distinct non-empty folders, in the default sort order, no "" |
| Keyboard.HandleKeyDown | client/src/hooks/useKeyboardNavigation.ts:25-52 | disabled does nothing; enabled prevents exactly the next, prev and fullscreen keys; a fired callback is supplied and bound to the key |
| Keyboard.KeyListsDisjoint | client/src/hooks/useKeyboardNavigation.ts:13-16 | no key is in two lists |
| Keyboard.Binding | client/src/hooks/useKeyboardNavigation.ts:13-16 | the list a key belongs to, or none when no list holds it |
| Keyboard.DispatchFollowsBinding | client/src/hooks/useKeyboardNavigation.ts:30-49 | a key fires its own list's callback if supplied and nothing otherwise, and is prevented exactly when bound to something other than Escape |
| Keyboard.BindingTable | client/src/hooks/useKeyboardNavigation.ts:13-16 | the bindings key by key, case-sensitive |
| Viewer.GoToNextPage | client/src/components/ViewerPage.tsx:45-49 | one page on exactly when the count is known, non-zero and not reached |
| Viewer.GoToPrevPage | client/src/components/ViewerPage.tsx:51-55 | one page back exactly when past page 1 |
| Viewer.TouchZone | client/src/components/ViewerPage.tsx:71-79 | left is back, right is on, centre toggles the controls and keeps the page |
| Viewer.Loaded | client/src/components/ViewerPage.tsx:140 | the loaded count is recorded and the page kept |
| Viewer.Run | client/src/components/ViewerPage.tsx:45-79 | navigation never changes the page count |
| Viewer.ApplyKeepsInRange | client/src/components/ViewerPage.tsx:45-79 | one input keeps the page between 1 and max(1, count) |
| Viewer.RunKeepsInRange | client/src/components/ViewerPage.tsx:45-79 | any input sequence keeps the page between 1 and max(1, count) |
| Viewer.OpenedPageStaysInRange | client/src/components/ViewerPage.tsx:38-55 | from the initial page 1 the page stays in range before and after the count arrives |
| Viewer.NothingMovesBeforeLoad | client/src/components/ViewerPage.tsx:38-46 | before the count is known the page stays 1 |
| Viewer.NextThenPrev | client/src/components/ViewerPage.tsx:45-55 | back after a successful next returns to the same page |
| Viewer.EscapeAction | client/src/components/ViewerPage.tsx:66 | Escape toggles fullscreen exactly when in fullscreen, else goes back |
| Viewer.ViewerKeyDown | client/src/components/ViewerPage.tsx:62-68 | while loading or failed, keys change nothing; keys never change the page count |
| Viewer.ViewerKeys | client/src/components/ViewerPage.tsx:62-68 | bound keys turn the page and toggle fullscreen, unbound keys do nothing, Escape leaves fullscreen first and the viewer second |
| Viewer.LocalFileFor | client/src/components/ViewerPage.tsx:23-37 | a local file is chosen only in local mode, for a "local-" id, with a stored list, at the index `parseInt` reads after "local-" |
| Viewer.LocalIdSelects | client/src/components/ViewerPage.tsx:28-34 | "local-N" selects the N-th stored path exactly when N is an index of the list |
| Viewer.BaseNameAt | client/src/components/ViewerPage.tsx:31 | the text after the last "/" is the base name |
| Viewer.LastPieceIsBaseName | client/src/components/ViewerPage.tsx:31 | `split('/').pop()` is the base name |
| Viewer.DisplayName | client/src/components/ViewerPage.tsx:31 | the displayed name is non-empty and holds no "/" |
| Viewer.DisplayNameIsBaseName | client/src/components/ViewerPage.tsx:31 | the displayed name is the base name, or "Unknown" when that is empty, and holds no "/" |

## Left out

- The real file system, `readdirSync`, `statSync`, `createReadStream` and the piping of file bodies: the tree, the `isFile` and `sizeOf` functions and the response descriptor stand in for them. Where `readdirSync` or `statSync` throws is part of the tree (`Unreadable` entries), with the message as an opaque string; the model does not derive Node's message text from the error code and path. The read stream's check of its `start` and `end` options is modelled as Routes.Streamable. A range it rejects throws after the 206 head is out, and the error handler's 500 then fails. That outcome is `ConnectionDropped`, since Express closes the socket when a response has already started.
- pdf-parse: `extractPageCount` is the `pages` parameter, whose `None` is the null it returns on any read or parse error.
- The wall clock: `indexedAt` and the modification-time strings are parameters.
- The file watcher in server/src/services/watcher.ts is not part of this model; only the handlers it calls are.
- Concurrency: the busy flag is a sequential flag. The interleaving of the watcher's fire-and-forget indexing with a running scan is not modelled.
- `clearAll`, the database connection and the IndexedDB open/upgrade are left out as plumbing. The folders route only forwards `getFolders`, which is modelled as `Catalog.Folders`.
- The Content-Disposition header and `encodeURIComponent` of the filename are left out; the other headers are modelled.
- Routes.ScanRoute, Routes.ConflictMeansBusy and Routes.ScanWhileBusy: both scan failures, the 409 and the 500, are modelled as `errorHandler` answers them. The scan handler is `async`, so this assumes that its rejections reach the error handler, as Express 5 or `express-async-errors` arrange; Express 4 alone leaves the request unanswered.
- Routes.DetailOf and Routes.ServeFile: the traversal 500 carries the error's message, as `errorHandler` answers outside production. These handlers are synchronous, so their throws reach the error handler. In production the message is "Ein interner Fehler ist aufgetreten", and that variant is not modelled.
- The error response bodies are reduced to status and message.
- `toLowerCase` is modelled on ASCII letters only. Scanner.IsPdfName, Paths.MimeType, LocalDb.SearchScores and Text.Lower therefore do not fold non-ASCII letters as JavaScript does. SQLite's LIKE folds only ASCII, so it is exact.
- `getScore`'s `|| null` turns a falsy stored record into null; stored records are objects and never falsy, so it is read as a plain lookup.
- `getAll`'s key order is the UTF-16 code-unit order, as IndexedDB compares string keys. Non-string keys cannot occur because ids are strings.
- Numbers are unbounded integers. Counters and page numbers never reach the 2^53 limit of JavaScript numbers. Where the limit matters, in the bounds of a byte range, Routes.Streamable applies `Number.MAX_SAFE_INTEGER` as the read stream does. `parseInt` reads digits exactly here. In JavaScript it rounds a number of more than about 16 digits to the nearest double, and a number of 309 or more digits becomes `Infinity`. Rounding never moves a bound across 2^53-1, so a rounded bound is rejected by the read stream in both and the connection drops. The `Infinity` case is different, as the next line says. The 32-bit hash wrap-around is modelled exactly.
- Routes.RangeAnswer and Routes.RangeResponse: an end bound of 309 or more digits parses to `Infinity` in JavaScript. The read stream checks `end` only when it is not `Infinity`, so the source serves such a range: a 206 head with Content-Range "bytes S-Infinity/size" and Content-Length `Infinity`, then the file from S to its end. The model reads the end exactly, finds it above 2^53-1 and answers `ConnectionDropped`. The model does not promise the source's answer for that input. A start of 309 or more digits is `Infinity` too, and the read stream rejects it as the model does.
- Keyboard: attaching and detaching the listener in `useEffect` is modelled as the handler doing nothing while disabled.
- Viewer.ViewerKeyDown: the fullscreen toggle is modelled as flipping the flag, since the browser's Fullscreen API is outside the model.
- The page changes PDFViewer reports through `onPageChange`, its touch-zone geometry and the rendering are left out (floating point, DOM).
- Viewer.LocalFileFor: the JSON in localStorage is taken as already parsed to a list of strings. A missing or empty entry is `None`, and malformed JSON, which throws, is not modelled.
- Scanner.WalkPathsDistinct and Scanner.RescanIsIdempotent assume a well-formed tree: distinct, non-empty, slash-free names in each directory, as every file system lists them.
- Paths: the root is an already normalised, non-empty list of names, as `path.resolve` produces it in the configuration. Backslashes inside names are ordinary characters, as on POSIX.

=== FILE: catalog.dfy ===
/** The server's score catalog: the `scores` table, modelled as a finite map
    from relative path to record. The table has two uniqueness keys: `id`
    is the primary key and `relative_path` is unique. Inserts are upserts
    whose conflict clause names only `relative_path`, so an existing path
    is updated in place (keeping its id), while a new path whose hashed id
    is already taken by another record violates the primary key and the
    statement fails without changing the table. */
module Catalog {
  import opened Results
  import opened Text
  import opened SqlLike
  import opened Ids

  /** One row of the table. */
  datatype Score = Score(
    id: string,
    filename: string,
    relativePath: string,
    folder: string,
    fileSize: nat,
    modifiedAt: string,
    pages: Option<nat>,
    indexedAt: string)

  /** What a caller of `insertScore` supplies: a row without id and index time. */
  datatype NewScore = NewScore(
    filename: string,
    relativePath: string,
    folder: string,
    fileSize: nat,
    modifiedAt: string,
    pages: Option<nat>)

  /** The failure SQLite reports when the primary key on `id` is violated
      ("UNIQUE constraint failed: scores.id"). */
  datatype DbError = IdTaken(id: string)

  type Catalog = map<string, Score>

  /** The table invariants: every row is stored under its own path, its id is
      the hash of that path, and no two rows share an id. */
  predicate Valid(c: Catalog) {
    KeyedByPath(c)
    && (forall p :: p in c ==> c[p].id == GenerateId(p))
    && (forall p, q :: p in c && q in c && c[p].id == c[q].id ==> p == q)
  }

  /** Every row is stored under its own relative path. */
  predicate KeyedByPath(c: Catalog) {
    forall p :: p in c ==> c[p].relativePath == p
  }

  /** Some row other than the one for `p` already carries `id`. */
  predicate IdUsedElsewhere(c: Catalog, p: string, id: string) {
    exists q :: q in c && q != p && c[q].id == id
  }

  // ---------------------------------------------------------------------------
  // insertScore

  /** `insertScore(score)` at time `now`: the catalog afterwards and the id
      returned, or the primary-key error. */
  function Upsert(c: Catalog, s: NewScore, now: string): (r: Result<(Catalog, string), DbError>)
    ensures r.Err? <==> s.relativePath !in c && IdUsedElsewhere(c, s.relativePath, GenerateId(s.relativePath))
    ensures r.Ok? ==> r.value.1 == GenerateId(s.relativePath)
    ensures r.Ok? ==> var c' := r.value.0; var p := s.relativePath;
              p in c'
              && c'[p].relativePath == (if p in c then c[p].relativePath else p)
              && c'[p].id == (if p in c then c[p].id else GenerateId(p))
              && c'[p].filename == s.filename && c'[p].folder == s.folder
              && c'[p].fileSize == s.fileSize && c'[p].modifiedAt == s.modifiedAt
              && c'[p].pages == s.pages && c'[p].indexedAt == now
              && (forall q :: q != p ==> (q in c' <==> q in c))
              && (forall q :: q != p && q in c ==> c'[q] == c[q])
  {
    var p := s.relativePath;
    var id := GenerateId(p);
    if p in c then
      var prior := c[p];
      Ok((c[p := prior.(filename := s.filename, folder := s.folder, fileSize := s.fileSize,
                      modifiedAt := s.modifiedAt, pages := s.pages, indexedAt := now)], id))
    else if exists q :: q in c && c[q].id == id then
      Err(IdTaken(id))
    else
      Ok((c[p := Score(id, s.filename, p, s.folder, s.fileSize, s.modifiedAt, s.pages, now)], id))
  }

  /** A successful upsert keeps the table invariants. */
  lemma UpsertKeepsValid(c: Catalog, s: NewScore, now: string)
    requires Valid(c) && Upsert(c, s, now).Ok?
    ensures Valid(Upsert(c, s, now).value.0)
  {
    var c' := Upsert(c, s, now).value.0;
    var p := s.relativePath;
    assert !IdUsedElsewhere(c, p, GenerateId(p));
    PointUpdateValid(c, c', p);
  }

  /** Changing or adding the row for `p` keeps the invariants when the new
      row is keyed by `p`, carries the id of `p`, and no other row has it. */
  lemma PointUpdateValid(c: Catalog, c': Catalog, p: string)
    requires Valid(c) && !IdUsedElsewhere(c, p, GenerateId(p))
    requires p in c' && c'[p].relativePath == p && c'[p].id == GenerateId(p)
    requires forall q :: q != p ==> (q in c' <==> q in c)
    requires forall q :: q != p && q in c ==> c'[q] == c[q]
    ensures Valid(c')
  {
    forall q | q in c'
      ensures c'[q].relativePath == q && c'[q].id == GenerateId(q)
    {
      if q != p {
        assert c'[q] == c[q];
      }
    }
    assert forall q :: q in c && q != p ==> c[q].id != GenerateId(p);
    forall q1, q2 | q1 in c' && q2 in c' && c'[q1].id == c'[q2].id
      ensures q1 == q2
    {
      if q1 != p && q2 != p {
        assert c[q1].id == c[q2].id;
      }
    }
  }

  /** Upserting a path that is already stored never fails and keeps the
      stored id, which is the returned one. */
  lemma UpsertExistingKeepsId(c: Catalog, s: NewScore, now: string)
    requires Valid(c) && s.relativePath in c
    ensures Upsert(c, s, now).Ok?
    ensures Upsert(c, s, now).value.0[s.relativePath].id == c[s.relativePath].id == Upsert(c, s, now).value.1
  {
  }

  /** Repeating the same upsert changes nothing more. */
  lemma UpsertIdempotent(c: Catalog, s: NewScore, now: string)
    requires Upsert(c, s, now).Ok?
    ensures Upsert(Upsert(c, s, now).value.0, s, now) == Upsert(c, s, now)
  {
    var c' := Upsert(c, s, now).value.0;
    var p := s.relativePath;
    assert c'[p := c'[p]] == c';
  }

  /** The hash collision between "Aa.pdf" and "BB.pdf" makes the second
      insert fail once the first is catalogued, and the table stays as it was. */
  lemma CollidingInsertFails(c: Catalog, s: NewScore, now: string)
    requires Valid(c) && "Aa.pdf" in c
    requires s.relativePath == "BB.pdf" && "BB.pdf" !in c
    ensures Upsert(c, s, now) == Err(IdTaken(GenerateId("Aa.pdf")))
  {
    IdCollision();
    assert c["Aa.pdf"].id == GenerateId("BB.pdf");
  }

  // ---------------------------------------------------------------------------
  // getScoreById, deleteScore, getCount

  /** `getScoreById(id)`: the row carrying `id`, if any. */
  function GetById(c: Catalog, id: string): (r: Option<Score>)
    requires Valid(c)
    ensures r.Some? <==> exists p :: p in c && c[p].id == id
    ensures r.Some? ==> r.value.id == id && r.value.relativePath in c && c[r.value.relativePath] == r.value
  {
    if exists p :: p in c && c[p].id == id then
      var p :| p in c && c[p].id == id;
      Some(c[p])
    else
      None
  }

  /** After a successful upsert, the returned id finds the upserted row. */
  lemma GetAfterUpsert(c: Catalog, s: NewScore, now: string)
    requires Valid(c) && Upsert(c, s, now).Ok?
    ensures GetById(Upsert(c, s, now).value.0, Upsert(c, s, now).value.1)
              == Some(Upsert(c, s, now).value.0[s.relativePath])
  {
    var c' := Upsert(c, s, now).value.0;
    assert c'[s.relativePath].id == Upsert(c, s, now).value.1;
  }

  /** `deleteScore(relativePath)`. */
  function Delete(c: Catalog, p: string): (r: Catalog)
    ensures p !in r
    ensures forall q :: q != p ==> (q in r <==> q in c)
    ensures forall q :: q != p && q in c ==> r[q] == c[q]
    ensures Valid(c) ==> Valid(r)
  {
    c - {p}
  }

  /** Inserting a new path and deleting it again restores the catalog;
      deleting an absent path changes nothing. */
  lemma DeleteUndoesInsert(c: Catalog, s: NewScore, now: string)
    requires s.relativePath !in c && Upsert(c, s, now).Ok?
    ensures Delete(Upsert(c, s, now).value.0, s.relativePath) == c
    ensures Delete(c, s.relativePath) == c
  {
  }

  /** `getCount()`: the number of rows. */
  function Count(c: Catalog): (n: nat)
    ensures n == 0 <==> c == map[]
    ensures forall p :: p in c ==> n >= 1
  {
    |c|
  }

  /** An upsert adds one row exactly when the path is new. */
  lemma UpsertCount(c: Catalog, s: NewScore, now: string)
    requires Upsert(c, s, now).Ok?
    ensures Count(Upsert(c, s, now).value.0) == Count(c) + (if s.relativePath in c then 0 else 1)
  {
    var c' := Upsert(c, s, now).value.0;
    if s.relativePath in c {
      assert c'.Keys == c.Keys;
    } else {
      assert c'.Keys == c.Keys + {s.relativePath};
    }
  }

  /** A delete removes one row exactly when the path is present. */
  lemma DeleteCount(c: Catalog, p: string)
    ensures Count(Delete(c, p)) == Count(c) - (if p in c then 1 else 0)
  {
    var d := Delete(c, p);
    assert Count(d) == |d.Keys| && Count(c) == |c.Keys|;
    if p in c {
      assert d.Keys == c.Keys - {p};
      assert |d.Keys| == |c.Keys| - 1;
    } else {
      assert d.Keys == c.Keys;
    }
  }

  // ---------------------------------------------------------------------------
  // getAllScores

  /** The search filter: absent or empty text keeps everything; otherwise
      `%text%` must match the file name or the relative path. */
  predicate SearchMatches(s: Score, search: Option<string>) {
    search.None? || search.value == ""
    || Like("%" + search.value + "%", s.filename)
    || Like("%" + search.value + "%", s.relativePath)
  }

  /** The folder filter: absent or empty keeps everything; otherwise
      `folder%` must match the record's folder. */
  predicate FolderMatches(s: Score, folder: Option<string>) {
    folder.None? || folder.value == "" || Like(folder.value + "%", s.folder)
  }

  predicate Selected(s: Score, search: Option<string>, folder: Option<string>) {
    SearchMatches(s, search) && FolderMatches(s, folder)
  }

  /** For text without wildcard characters the filters are a
      case-insensitive substring test and a case-insensitive prefix test. */
  lemma FiltersOnLiteralText(s: Score, t: string, f: string)
    requires Literal(t) && Literal(f)
    ensures SearchMatches(s, Some(t)) <==>
              t == "" || ContainsNoCase(s.filename, t) || ContainsNoCase(s.relativePath, t)
    ensures FolderMatches(s, Some(f)) <==> f == "" || PrefixNoCase(f, s.folder)
  {
    SearchPatternIsSubstring(t, s.filename);
    SearchPatternIsSubstring(t, s.relativePath);
    LiteralThenPercent(f, s.folder);
  }

  /** `ORDER BY folder, filename` under SQLite's BINARY collation. */
  predicate ScoreLe(a: Score, b: Score) {
    if a.folder != b.folder then BinaryLe(a.folder, b.folder) else BinaryLe(a.filename, b.filename)
  }

  lemma ScoreLeTotal(a: Score, b: Score)
    ensures ScoreLe(a, b) || ScoreLe(b, a)
  {
    BinaryTotal(a.folder, b.folder);
    BinaryTotal(a.filename, b.filename);
  }

  lemma ScoreLeTransitive(a: Score, b: Score, c: Score)
    requires ScoreLe(a, b) && ScoreLe(b, c)
    ensures ScoreLe(a, c)
  {
    if a.folder == b.folder && b.folder == c.folder {
      BinaryTransitive(a.filename, b.filename, c.filename);
    } else if a.folder == b.folder || b.folder == c.folder {
    } else {
      BinaryTransitive(a.folder, b.folder, c.folder);
      if a.folder == c.folder {
        BinaryAntisymmetric(a.folder, b.folder);
      }
    }
  }

  predicate Sorted(r: seq<Score>) {
    forall i, j :: 0 <= i < j < |r| ==> ScoreLe(r[i], r[j])
  }

  predicate Distinct<T(==)>(r: seq<T>) {
    forall i, j :: 0 <= i < j < |r| ==> r[i] != r[j]
  }

  /** Places `s` into the ordered list `r`. */
  function InsertScore(r: seq<Score>, s: Score): (q: seq<Score>)
    requires Sorted(r)
    ensures Sorted(q)
    ensures |q| == |r| + 1
    ensures forall x :: x in q <==> x == s || x in r
    ensures Distinct(r) && s !in r ==> Distinct(q)
  {
    if |r| == 0 then [s]
    else if ScoreLe(s, r[0]) then
      forall j | 0 <= j < |r|
        ensures ScoreLe(s, r[j])
      {
        if j > 0 {
          ScoreLeTransitive(s, r[0], r[j]);
        }
      }
      assert forall x :: x in r ==> ScoreLe(s, x);
      ConsSorted(s, r);
      ConsDistinct(s, r);
      [s] + r
    else
      var rest := InsertScore(r[1..], s);
      ScoreLeTotal(s, r[0]);
      assert forall x :: x in rest ==> ScoreLe(r[0], x) by {
        forall x | x in rest
          ensures ScoreLe(r[0], x)
        {
          if x != s {
            var j :| 0 <= j < |r[1..]| && r[1..][j] == x;
            assert r[j + 1] == x;
          }
        }
      }
      assert r[0] !in r[1..] ==> r[0] !in rest;
      ConsSorted(r[0], rest);
      ConsDistinct(r[0], rest);
      [r[0]] + rest
  }

  lemma ConsSorted(a: Score, r: seq<Score>)
    requires Sorted(r) && forall x :: x in r ==> ScoreLe(a, x)
    ensures Sorted([a] + r)
  {
    forall i, j | 0 <= i < j < |[a] + r|
      ensures ScoreLe(([a] + r)[i], ([a] + r)[j])
    {
      assert ([a] + r)[j] == r[j - 1];
      if i > 0 {
        assert ([a] + r)[i] == r[i - 1];
      }
    }
  }

  lemma ConsDistinct<T>(a: T, r: seq<T>)
    ensures Distinct(r) && a !in r ==> Distinct([a] + r)
  {
    if Distinct(r) && a !in r {
      forall i, j | 0 <= i < j < |[a] + r|
        ensures ([a] + r)[i] != ([a] + r)[j]
      {
        assert ([a] + r)[j] == r[j - 1];
        if i > 0 {
          assert ([a] + r)[i] == r[i - 1];
        }
      }
    }
  }

  /** `getAllScores(search, folder)`: the selected rows, each once, ordered
      by folder and then file name. */
  method ListScores(c: Catalog, search: Option<string>, folder: Option<string>) returns (r: seq<Score>)
    requires KeyedByPath(c)
    ensures Sorted(r)
    ensures Distinct(r)
    ensures forall s :: s in r <==> s.relativePath in c && c[s.relativePath] == s && Selected(s, search, folder)
  {
    r := SelectSorted(c, s => Selected(s, search, folder));
  }

  /** The rows satisfying `keep`, each once, in `ScoreLe` order. */
  method SelectSorted(c: Catalog, keep: Score -> bool) returns (r: seq<Score>)
    requires KeyedByPath(c)
    ensures Sorted(r)
    ensures Distinct(r)
    ensures forall s :: s in r <==> s.relativePath in c && c[s.relativePath] == s && keep(s)
  {
    r := [];
    var remaining := c.Keys;
    while remaining != {}
      invariant remaining <= c.Keys
      invariant Sorted(r) && Distinct(r)
      invariant forall s :: s in r ==>
                  s.relativePath in c.Keys - remaining && c[s.relativePath] == s && keep(s)
      invariant forall p :: p in c.Keys - remaining && keep(c[p]) ==> c[p] in r
      decreases |remaining|
    {
      var p :| p in remaining;
      remaining := remaining - {p};
      if keep(c[p]) {
        assert c[p] !in r;
        r := InsertScore(r, c[p]);
      }
    }
  }

  // ---------------------------------------------------------------------------
  // getFolders

  predicate BinaryLt(a: string, b: string) {
    BinaryLe(a, b) && a != b
  }

  predicate StrictlySorted(fs: seq<string>) {
    forall i, j :: 0 <= i < j < |fs| ==> BinaryLt(fs[i], fs[j])
  }

  /** Adds `f` to the strictly ascending list `fs` unless it is already there. */
  function InsertFolder(fs: seq<string>, f: string): (q: seq<string>)
    requires StrictlySorted(fs)
    ensures StrictlySorted(q)
    ensures forall x :: x in q <==> x == f || x in fs
  {
    if |fs| == 0 then [f]
    else if f == fs[0] then fs
    else if BinaryLe(f, fs[0]) then
      forall j | 0 <= j < |fs|
        ensures BinaryLt(f, fs[j])
      {
        if j > 0 {
          BinaryTransitive(f, fs[0], fs[j]);
          if f == fs[j] {
            BinaryAntisymmetric(fs[0], fs[j]);
          }
        }
      }
      [f] + fs
    else
      var rest := InsertFolder(fs[1..], f);
      BinaryTotal(f, fs[0]);
      assert forall x :: x in rest ==> BinaryLt(fs[0], x) by {
        forall x | x in rest
          ensures BinaryLt(fs[0], x)
        {
          if x != f {
            var j :| 0 <= j < |fs[1..]| && fs[1..][j] == x;
            assert fs[j + 1] == x;
          }
        }
      }
      [fs[0]] + rest
  }

  /** A non-empty folder some row is filed under. */
  predicate IsFolderOf(c: Catalog, f: string) {
    f != "" && exists p :: p in c && c[p].folder == f
  }

  /** `getFolders()`: the distinct non-empty folders in ascending order. */
  method Folders(c: Catalog) returns (fs: seq<string>)
    ensures StrictlySorted(fs)
    ensures forall f :: f in fs <==> IsFolderOf(c, f)
  {
    fs := [];
    var remaining := c.Keys;
    while remaining != {}
      invariant remaining <= c.Keys
      invariant StrictlySorted(fs)
      invariant forall f :: f in fs ==> f != "" && exists p :: p in c.Keys - remaining && c[p].folder == f
      invariant forall p :: p in c.Keys - remaining && c[p].folder != "" ==> c[p].folder in fs
      decreases |remaining|
    {
      var p :| p in remaining;
      remaining := remaining - {p};
      if c[p].folder != "" {
        fs := InsertFolder(fs, c[p].folder);
      }
    }
  }
}

=== FILE: ids.dfy ===
/** The catalog's record identifier: a 32-bit string hash of the relative
    path (the `h * 31 + c` scheme over UTF-16 code units), made non-negative
    and written in base 36. */
module Ids {
  import opened Text
  import opened Numbers

  /** One pass of the hashing loop body exactly as written in JavaScript:
      `hash = ((hash << 5) - hash) + char; hash = hash & hash`. The shift
      converts its operand to a 32-bit integer and wraps the result; the
      subtraction and addition are exact in double precision because every
      operand is below 2^33 in magnitude; `hash & hash` is ToInt32. */
  function HashStep(h: int, unit: int): int {
    var shifted := Int32(Int32(h) * 32);
    Int32((shifted - h) + unit)
  }

  /** The shift-and-subtract step is multiplication by 31 with 32-bit wrap-around. */
  lemma HashStepIsTimes31(h: int, unit: int)
    requires -TWO_31 <= h < TWO_31
    ensures HashStep(h, unit) == Int32(31 * h + unit)
  {
    Int32Identity(h);
    var shifted := Int32(h * 32);
    assert (h * 32 - shifted) % TWO_32 == 0;
    assert ((shifted - h + unit) - (31 * h + unit)) == -(h * 32 - shifted);
    Int32Congruent(shifted - h + unit, 31 * h + unit);
  }

  /** The hash of a sequence of UTF-16 code units, folding from the left
      starting at 0. */
  function Hash(units: seq<int>): (h: int)
    ensures -TWO_31 <= h < TWO_31
  {
    if |units| == 0 then 0 else HashStep(Hash(units[..|units| - 1]), units[|units| - 1])
  }

  function Abs(x: int): nat {
    if x < 0 then -x else x
  }

  /** `generateId(relativePath)`: `Math.abs(hash).toString(36)`. */
  function GenerateId(path: string): (id: string)
    ensures |id| > 0
    ensures forall i :: 0 <= i < |id| ==> '0' <= id[i] <= '9' || 'a' <= id[i] <= 'z'
  {
    ToRadix(Abs(Hash(CodeUnits(path))), 36)
  }

  /** The loop of `generateId`, run over the string's code units as
      `charCodeAt` yields them; it computes `GenerateId`. */
  method ComputeId(path: string) returns (id: string)
    ensures id == GenerateId(path)
    ensures |id| > 0
  {
    var units := CodeUnits(path);
    var hash := 0;
    var i := 0;
    while i < |units|
      invariant 0 <= i <= |units|
      invariant hash == Hash(units[..i])
    {
      assert units[..i + 1][..i] == units[..i];
      hash := HashStep(hash, units[i]);
      i := i + 1;
    }
    assert units[..i] == units;
    id := ToRadix(Abs(hash), 36);
  }

  /** What an identifier looks like: a non-empty string of digits and
      lower-case letters without leading zeros, denoting the magnitude of a
      32-bit value, at most 2^31. */
  lemma IdShape(path: string)
    ensures |GenerateId(path)| > 0
    ensures forall i :: 0 <= i < |GenerateId(path)| ==>
              '0' <= GenerateId(path)[i] <= '9' || 'a' <= GenerateId(path)[i] <= 'z'
    ensures GenerateId(path)[0] == '0' ==> GenerateId(path) == "0"
    ensures FromRadix(GenerateId(path), 36) <= TWO_31
  {
    var n := Abs(Hash(CodeUnits(path)));
    RadixRoundTrip(n, 36);
    if GenerateId(path)[0] == '0' {
      assert n == 0;
    }
  }

  /** Two code-unit sequences with equal hashes keep equal hashes when the
      same text is appended to both. */
  lemma {:induction false} HashExtend(u: seq<int>, v: seq<int>, w: seq<int>)
    requires Hash(u) == Hash(v)
    ensures Hash(u + w) == Hash(v + w)
  {
    if |w| == 0 {
      assert u + w == u;
      assert v + w == v;
    } else {
      var w' := w[..|w| - 1];
      HashExtend(u, v, w');
      assert (u + w)[..|u + w| - 1] == u + w';
      assert (v + w)[..|v + w| - 1] == v + w';
    }
  }

  /** Distinct relative paths can share an identifier: "Aa.pdf" and
      "BB.pdf" both hash to 2112 before the suffix and so collide. */
  lemma IdCollision()
    ensures "Aa.pdf" != "BB.pdf"
    ensures GenerateId("Aa.pdf") == GenerateId("BB.pdf")
  {
    PairHash('A', 'a');
    assert "Aa" == ['A', 'a'];
    PairHash('B', 'B');
    assert "BB" == ['B', 'B'];
    CodeUnitsAppend("Aa", ".pdf");
    CodeUnitsAppend("BB", ".pdf");
    assert "Aa" + ".pdf" == "Aa.pdf";
    assert "BB" + ".pdf" == "BB.pdf";
    HashExtend(CodeUnits("Aa"), CodeUnits("BB"), CodeUnits(".pdf"));
  }

  /** The hash of a two-character ASCII string. */
  lemma PairHash(a: char, b: char)
    requires a as int < 128 && b as int < 128
    ensures Hash(CodeUnits([a, b])) == 31 * (a as int) + b as int
  {
    var x, y := a as int, b as int;
    assert [a, b][1..] == [b];
    assert CodeUnits([b]) == [y];
    assert CodeUnits([a, b]) == [x, y];
    var units := [x, y];
    assert units[..1] == [x];
    assert [x][..0] == [];
    assert Hash([x]) == HashStep(0, x);
    HashStepIsTimes31(0, x);
    Int32Identity(x);
    assert Hash([x]) == x;
    assert Hash(units) == HashStep(x, y);
    HashStepIsTimes31(x, y);
    Int32Identity(31 * x + y);
  }
}

=== FILE: keyboard.dfy ===
/** The viewer's keyboard and foot-pedal bindings: which keys suppress the
    browser default and which callback a key event fires. */
module Keyboard {
  import opened Results

  const NEXT_PAGE_KEYS: seq<string> := ["ArrowRight", "PageDown", " ", "Enter"]
  const PREV_PAGE_KEYS: seq<string> := ["ArrowLeft", "PageUp", "Backspace"]
  const FULLSCREEN_KEYS: seq<string> := ["F11", "f"]
  const ESCAPE_KEYS: seq<string> := ["Escape"]

  datatype Action = Next | Prev | Fullscreen | Escape

  /** Which of the optional callbacks the caller supplied. */
  datatype Callbacks = Callbacks(onNext: bool, onPrev: bool, onFullscreen: bool, onEscape: bool)

  /** What one key event does: whether `preventDefault` is called and which
      callback, if any, runs. */
  datatype Reaction = Reaction(prevented: bool, fired: Option<Action>)

  const IGNORED := Reaction(false, None)

  function KeysOf(a: Action): seq<string> {
    match a
    case Next => NEXT_PAGE_KEYS
    case Prev => PREV_PAGE_KEYS
    case Fullscreen => FULLSCREEN_KEYS
    case Escape => ESCAPE_KEYS
  }

  function Supplied(cb: Callbacks, a: Action): bool {
    match a
    case Next => cb.onNext
    case Prev => cb.onPrev
    case Fullscreen => cb.onFullscreen
    case Escape => cb.onEscape
  }

  /** `handleKeyDown`: nothing while disabled; otherwise the navigation and
      fullscreen keys are prevented, and an else-if chain fires the first
      list's callback whose list holds the key and whose callback exists. */
  function HandleKeyDown(enabled: bool, cb: Callbacks, key: string): (r: Reaction)
    ensures !enabled ==> r == IGNORED
    ensures enabled ==> (r.prevented <==> key in NEXT_PAGE_KEYS + PREV_PAGE_KEYS + FULLSCREEN_KEYS)
    ensures r.fired.Some? ==> enabled && key in KeysOf(r.fired.value) && Supplied(cb, r.fired.value)
  {
    if !enabled then IGNORED
    else
      var prevented := key in NEXT_PAGE_KEYS + PREV_PAGE_KEYS + FULLSCREEN_KEYS;
      var fired :=
        if key in NEXT_PAGE_KEYS && cb.onNext then Some(Next)
        else if key in PREV_PAGE_KEYS && cb.onPrev then Some(Prev)
        else if key in FULLSCREEN_KEYS && cb.onFullscreen then Some(Fullscreen)
        else if key in ESCAPE_KEYS && cb.onEscape then Some(Escape)
        else None;
      Reaction(prevented, fired)
  }

  /** No key is bound to two actions. */
  lemma KeyListsDisjoint(a: Action, b: Action, key: string)
    requires key in KeysOf(a) && key in KeysOf(b)
    ensures a == b
  {
  }

  /** The action a key is bound to, looked up independently of the chain. */
  function Binding(key: string): (r: Option<Action>)
    ensures r.Some? ==> key in KeysOf(r.value)
    ensures r.None? ==> forall a: Action :: key !in KeysOf(a)
  {
    if key in NEXT_PAGE_KEYS then Some(Next)
    else if key in PREV_PAGE_KEYS then Some(Prev)
    else if key in FULLSCREEN_KEYS then Some(Fullscreen)
    else if key in ESCAPE_KEYS then Some(Escape)
    else None
  }

  /** While enabled, a key fires exactly its bound action's callback when
      that callback exists, and nothing otherwise: a missing callback does
      not let the key fall through to another list. Only Escape among the
      bound keys is left to the browser. */
  lemma DispatchFollowsBinding(cb: Callbacks, key: string)
    ensures HandleKeyDown(true, cb, key).fired ==
              if Binding(key).Some? && Supplied(cb, Binding(key).value) then Binding(key) else None
    ensures HandleKeyDown(true, cb, key).prevented <==> Binding(key).Some? && Binding(key) != Some(Escape)
  {
    var r := HandleKeyDown(true, cb, key);
    if r.fired.Some? {
      KeyListsDisjoint(r.fired.value, Binding(key).value, key);
    }
  }

  /** The concrete bindings, key by key. */
  lemma BindingTable()
    ensures Binding("ArrowRight") == Some(Next) && Binding("PageDown") == Some(Next)
    ensures Binding(" ") == Some(Next) && Binding("Enter") == Some(Next)
    ensures Binding("ArrowLeft") == Some(Prev) && Binding("PageUp") == Some(Prev)
    ensures Binding("Backspace") == Some(Prev)
    ensures Binding("F11") == Some(Fullscreen) && Binding("f") == Some(Fullscreen)
    ensures Binding("Escape") == Some(Escape)
    ensures Binding("F") == None && Binding("ArrowUp") == None
  {
    NextKeysBound();
    PrevKeysBound();
    OtherKeysBound();
    UnboundKeys();
  }

  lemma NextKeysBound()
    ensures Binding("ArrowRight") == Some(Next) && Binding("PageDown") == Some(Next)
    ensures Binding(" ") == Some(Next) && Binding("Enter") == Some(Next)
  {
  }

  lemma PrevKeysBound()
    ensures Binding("ArrowLeft") == Some(Prev) && Binding("PageUp") == Some(Prev)
    ensures Binding("Backspace") == Some(Prev)
  {
  }

  lemma OtherKeysBound()
    ensures Binding("F11") == Some(Fullscreen) && Binding("f") == Some(Fullscreen)
    ensures Binding("Escape") == Some(Escape)
  {
  }

  lemma UnboundKeys()
    ensures Binding("F") == None && Binding("ArrowUp") == None
  {
  }
}

=== FILE: like.dfy ===
/** SQLite's `LIKE` operator with its default settings: `%` matches any run of
    characters, `_` matches exactly one character, every other pattern
    character matches itself up to ASCII case, and no escape character is
    configured. The catalog's search and folder filters build their patterns
    by pasting user text between `%` signs, so the user's own `%` and `_` act
    as wildcards. */
module SqlLike {
  import opened Text

  predicate Like(pattern: string, s: string)
    ensures Like(pattern, s) && '%' !in pattern ==> |s| == |pattern|
    decreases |pattern| + |s|
  {
    if |pattern| == 0 then |s| == 0
    else if pattern[0] == '%' then Like(pattern[1..], s) || (|s| > 0 && Like(pattern, s[1..]))
    else if |s| == 0 then false
    else if pattern[0] == '_' then Like(pattern[1..], s[1..])
    else LowerChar(pattern[0]) == LowerChar(s[0]) && Like(pattern[1..], s[1..])
  }

  /** Text with no wildcard characters in it. */
  predicate Literal(t: string) {
    '%' !in t && '_' !in t
  }

  /** `t` is a prefix of `s` up to ASCII case. */
  predicate PrefixNoCase(t: string, s: string) {
    |t| <= |s| && Lower(t) == Lower(s[..|t|])
  }

  /** `t` occurs in `s` up to ASCII case. */
  predicate ContainsNoCase(s: string, t: string) {
    Contains(Lower(s), Lower(t))
  }

  /** A lone `%` matches every string. */
  lemma {:induction false} PercentMatchesAll(s: string)
    ensures Like("%", s)
  {
    if |s| > 0 {
      PercentMatchesAll(s[1..]);
    }
  }

  /** `t%` for literal `t` is a case-insensitive prefix test; this is the
      catalog's folder filter. */
  lemma {:induction false} LiteralThenPercent(t: string, s: string)
    requires Literal(t)
    ensures Like(t + "%", s) <==> PrefixNoCase(t, s)
  {
    if |t| == 0 {
      assert t + "%" == "%";
      PercentMatchesAll(s);
    } else if |s| == 0 {
    } else {
      assert (t + "%")[1..] == t[1..] + "%";
      LiteralThenPercent(t[1..], s[1..]);
      assert Lower(t) == [LowerChar(t[0])] + Lower(t[1..]);
      if |t| <= |s| {
        assert s[..|t|][1..] == s[1..][..|t[1..]|];
        assert Lower(s[..|t|]) == [LowerChar(s[0])] + Lower(s[1..][..|t[1..]|]);
      }
    }
  }

  /** A leading `%` lets the rest of the pattern match any suffix. */
  lemma {:induction false} PercentThen(q: string, s: string)
    ensures Like("%" + q, s) <==> exists k :: 0 <= k <= |s| && Like(q, s[k..])
  {
    var p := "%" + q;
    assert p[1..] == q;
    if |s| == 0 {
      assert s[0..] == s;
    } else {
      PercentThen(q, s[1..]);
      if Like(p, s) {
        if Like(q, s) {
          assert s[0..] == s;
        } else {
          var k :| 0 <= k <= |s[1..]| && Like(q, s[1..][k..]);
          assert s[1..][k..] == s[k + 1..];
        }
      }
      if exists k :: 0 <= k <= |s| && Like(q, s[k..]) {
        var k :| 0 <= k <= |s| && Like(q, s[k..]);
        if k == 0 {
          assert s[0..] == s;
        } else {
          assert s[1..][k - 1..] == s[k..];
        }
      }
    }
  }

  /** The pattern `%t%` built around literal search text `t` is exactly a
      case-insensitive substring test. */
  lemma SearchPatternIsSubstring(t: string, s: string)
    requires Literal(t)
    ensures Like("%" + t + "%", s) <==> ContainsNoCase(s, t)
  {
    assert "%" + t + "%" == "%" + (t + "%");
    PercentThen(t + "%", s);
    forall k | 0 <= k <= |s|
      ensures Like(t + "%", s[k..]) <==> OccursAt(Lower(s), Lower(t), k)
    {
      MatchesAt(t, s, k);
    }
    if ContainsNoCase(s, t) {
      var k :| 0 <= k <= |Lower(s)| && OccursAt(Lower(s), Lower(t), k);
      assert Like(t + "%", s[k..]);
    }
  }

  /** `t%` matches the text from position `k` on exactly when `t` occurs
      there, ignoring case. */
  lemma MatchesAt(t: string, s: string, k: nat)
    requires Literal(t) && k <= |s|
    ensures Like(t + "%", s[k..]) <==> OccursAt(Lower(s), Lower(t), k)
  {
    LiteralThenPercent(t, s[k..]);
    if k + |t| <= |s| {
      assert s[k..][..|t|] == s[k..k + |t|];
      LowerSlice(s, k, k + |t|);
    }
  }

  /** Because the search text is not escaped, a `_` in it matches any one
      character: searching for "a_c" finds "abc". */
  lemma UnderscoreIsWildcard()
    ensures Like("%a_c%", "abc")
    ensures !ContainsNoCase("abc", "a_c")
  {
    assert Like("%", []);
    assert Like("c%", "c");
    assert Like("_c%", "bc");
    assert Like("a_c%", "abc");
    assert "%a_c%"[1..] == "a_c%";
    assert Lower("a_c")[1] == '_';
    assert '_' !in Lower("abc");
  }
}

=== FILE: localdb.dfy ===
/** The standalone client's offline catalog: two IndexedDB object stores,
    `scores` and `files`, both keyed by the score id, and the filters the
    library view runs over the listing. The stores are maps; a request that
    IndexedDB rejects is an `Err`. */
module LocalDb {
  import opened Results
  import opened Text

  /** A score kept on the device; optional fields are `Option`s. */
  datatype LocalScore = LocalScore(
    id: string,
    title: string,
    composer: Option<string>,
    folder: Option<string>,
    tags: seq<string>,
    createdAt: string,
    updatedAt: string,
    fileData: Option<string>,
    fileSize: Option<nat>,
    pageCount: Option<nat>)

  /** The bytes of a stored PDF. */
  type Blob = seq<bv8>

  datatype Stores = Stores(scores: map<string, LocalScore>, files: map<string, Blob>)

  /** IndexedDB's answer to `add` with a key that is already stored. */
  datatype StoreError = ConstraintError(key: string)

  /** The `scores` store keeps each record under its own id (its key path). */
  predicate Keyed(db: Stores) {
    forall k :: k in db.scores ==> db.scores[k].id == k
  }

  const Empty := Stores(map[], map[])

  // ---------------------------------------------------------------------------
  // The two stores

  /** `getScore(id)`: the stored record, or nothing for an unknown id. */
  function GetScore(db: Stores, id: string): (r: Option<LocalScore>)
    requires Keyed(db)
    ensures r.None? <==> id !in db.scores
    ensures r.Some? ==> r.value.id == id && r.value in db.scores.Values
  {
    if id in db.scores then Some(db.scores[id]) else None
  }

  /** `addScore(score)`: IndexedDB `add`, which refuses a key that is taken. */
  function AddScore(db: Stores, s: LocalScore): (r: Result<Stores, StoreError>)
    ensures r.Err? <==> s.id in db.scores
    ensures r.Err? ==> r.error == ConstraintError(s.id)
    ensures r.Ok? ==> r.value.scores.Keys == db.scores.Keys + {s.id}
                      && r.value.scores[s.id] == s
                      && r.value.files == db.files
    ensures r.Ok? ==> forall k :: k in db.scores ==> r.value.scores[k] == db.scores[k]
  {
    if s.id in db.scores then Err(ConstraintError(s.id))
    else Ok(db.(scores := db.scores[s.id := s]))
  }

  /** `updateScore(score)`: IndexedDB `put`, which inserts or overwrites. */
  function UpdateScore(db: Stores, s: LocalScore): (r: Stores)
    ensures r.scores.Keys == db.scores.Keys + {s.id}
    ensures r.scores[s.id] == s
    ensures forall k :: k in db.scores && k != s.id ==> r.scores[k] == db.scores[k]
    ensures r.files == db.files
  {
    db.(scores := db.scores[s.id := s])
  }

  /** `deleteScore(id)`: one transaction deleting the record and its file. */
  function DeleteScore(db: Stores, id: string): (r: Stores)
    ensures r.scores.Keys == db.scores.Keys - {id}
    ensures r.files.Keys == db.files.Keys - {id}
    ensures forall k :: k in r.scores ==> r.scores[k] == db.scores[k]
    ensures forall k :: k in r.files ==> r.files[k] == db.files[k]
  {
    Stores(db.scores - {id}, db.files - {id})
  }

  /** `saveFile(id, data)`: `put` of the record `{id, data}` into `files`. */
  function SaveFile(db: Stores, id: string, data: Blob): (r: Stores)
    ensures r.files.Keys == db.files.Keys + {id}
    ensures r.files[id] == data
    ensures forall k :: k in db.files && k != id ==> r.files[k] == db.files[k]
    ensures r.scores == db.scores
  {
    db.(files := db.files[id := data])
  }

  /** `getFile(id)`: the stored bytes, or nothing for an unknown id. */
  function GetFile(db: Stores, id: string): (r: Option<Blob>)
    ensures r.None? <==> id !in db.files
    ensures r.Some? ==> id in db.files && r.value == db.files[id]
  {
    if id in db.files then Some(db.files[id]) else None
  }

  /** Every store operation keeps records under their own ids. */
  lemma OperationsKeepKeyed(db: Stores, s: LocalScore, id: string, data: Blob)
    requires Keyed(db)
    ensures AddScore(db, s).Ok? ==> Keyed(AddScore(db, s).value)
    ensures Keyed(UpdateScore(db, s))
    ensures Keyed(DeleteScore(db, id))
    ensures Keyed(SaveFile(db, id, data))
  {
  }

  /** `getFile` returns what `saveFile` stored, and `getScore` what `updateScore` wrote. */
  lemma StoreRoundTrips(db: Stores, s: LocalScore, id: string, data: Blob)
    requires Keyed(db)
    ensures GetFile(SaveFile(db, id, data), id) == Some(data)
    ensures GetScore(UpdateScore(db, s), s.id) == Some(s)
    ensures AddScore(db, s).Ok? ==> GetScore(AddScore(db, s).value, s.id) == Some(s)
  {
  }

  /** Saving or deleting under one id leaves the file stored under any
      other id as it was; deleting an id leaves no file under it. */
  lemma OtherFilesUntouched(db: Stores, k: string, id: string, data: Blob)
    ensures k != id ==> GetFile(SaveFile(db, k, data), id) == GetFile(db, id)
    ensures k != id ==> GetFile(DeleteScore(db, k), id) == GetFile(db, id)
    ensures GetFile(DeleteScore(db, id), id) == None
  {
  }

  /** `add` and `put` agree on a new id; on a taken id `add` fails and `put`
      replaces the record. */
  lemma AddVersusPut(db: Stores, s: LocalScore)
    ensures s.id !in db.scores ==> AddScore(db, s) == Ok(UpdateScore(db, s))
    ensures s.id in db.scores ==> AddScore(db, s).Err? && UpdateScore(db, s).scores[s.id] == s
  {
  }

  /** Adding the same score twice fails the second time and changes nothing
      more. */
  lemma AddTwiceFails(db: Stores, s: LocalScore)
    requires AddScore(db, s).Ok?
    ensures AddScore(AddScore(db, s).value, s) == Err(ConstraintError(s.id))
  {
  }

  /** Putting the same record twice is the same as putting it once. */
  lemma UpdateIdempotent(db: Stores, s: LocalScore)
    ensures UpdateScore(UpdateScore(db, s), s) == UpdateScore(db, s)
  {
  }

  /** Deleting an id neither store holds changes nothing; deleting after an
      add or a file save leaves the stores as deleting before would. */
  lemma DeleteUndoes(db: Stores, s: LocalScore, data: Blob)
    ensures s.id !in db.scores && s.id !in db.files ==> DeleteScore(db, s.id) == db
    ensures AddScore(db, s).Ok? ==> DeleteScore(AddScore(db, s).value, s.id) == DeleteScore(db, s.id)
    ensures DeleteScore(SaveFile(UpdateScore(db, s), s.id, data), s.id) == DeleteScore(db, s.id)
  {
    if s.id !in db.scores && s.id !in db.files {
      assert db.scores - {s.id} == db.scores;
      assert db.files - {s.id} == db.files;
    }
    assert (db.scores[s.id := s]) - {s.id} == db.scores - {s.id};
    assert (db.files[s.id := data]) - {s.id} == db.files - {s.id};
  }

  // ---------------------------------------------------------------------------
  // getAllScores: the records in key order

  /** IndexedDB orders string keys by their UTF-16 code units. */
  predicate IdsAscending(r: seq<LocalScore>) {
    forall i, j :: 0 <= i < j < |r| ==> Utf16Le(r[i].id, r[j].id) && r[i].id != r[j].id
  }

  function InsertById(r: seq<LocalScore>, s: LocalScore): (q: seq<LocalScore>)
    requires IdsAscending(r)
    requires forall x :: x in r ==> x.id != s.id
    ensures IdsAscending(q)
    ensures forall x :: x in q <==> x == s || x in r
  {
    if |r| == 0 then [s]
    else if Utf16Le(s.id, r[0].id) then
      forall j | 0 <= j < |r|
        ensures Utf16Le(s.id, r[j].id)
      {
        if j > 0 {
          Utf16Transitive(s.id, r[0].id, r[j].id);
        }
      }
      assert forall x :: x in r ==> Utf16Le(s.id, x.id) && s.id != x.id;
      ConsAscending(s, r);
      [s] + r
    else
      var rest := InsertById(r[1..], s);
      Utf16Total(s.id, r[0].id);
      assert forall x :: x in rest ==> Utf16Le(r[0].id, x.id) && r[0].id != x.id by {
        forall x | x in rest
          ensures Utf16Le(r[0].id, x.id) && r[0].id != x.id
        {
          if x != s {
            var j :| 0 <= j < |r[1..]| && r[1..][j] == x;
            assert r[j + 1] == x;
          }
        }
      }
      ConsAscending(r[0], rest);
      [r[0]] + rest
  }

  lemma ConsAscending(a: LocalScore, r: seq<LocalScore>)
    requires IdsAscending(r)
    requires forall x :: x in r ==> Utf16Le(a.id, x.id) && a.id != x.id
    ensures IdsAscending([a] + r)
  {
    var q := [a] + r;
    forall i, j | 0 <= i < j < |q|
      ensures Utf16Le(q[i].id, q[j].id) && q[i].id != q[j].id
    {
      var y := r[j - 1];
      assert q[j] == y;
      if i == 0 {
        assert y in r;
      } else {
        assert q[i] == r[i - 1];
      }
    }
  }

  /** `getAllScores()`: every record once, in ascending key order. */
  method GetAllScores(db: Stores) returns (r: seq<LocalScore>)
    requires Keyed(db)
    ensures IdsAscending(r)
    ensures forall x :: x in r <==> x in db.scores.Values
    ensures |r| == |db.scores|
  {
    r := [];
    var remaining := db.scores.Keys;
    ghost var done: set<string> := {};
    while remaining != {}
      invariant done !! remaining && done + remaining == db.scores.Keys
      invariant Collected(db, r, done)
      decreases remaining
    {
      var k :| k in remaining;
      r := CollectStep(db, r, done, k);
      MoveKey(done, remaining, db.scores.Keys, k);
      remaining := remaining - {k};
      done := done + {k};
    }
    CollectedAll(db, r);
  }

  /** Moving one key from the keys still to visit to the keys visited keeps
      the two a partition of all keys. */
  lemma MoveKey(done: set<string>, remaining: set<string>, all: set<string>, k: string)
    requires done !! remaining && done + remaining == all && k in remaining
    ensures done + {k} !! remaining - {k} && (done + {k}) + (remaining - {k}) == all
    ensures k !in done
  {
  }

  /** `r` lists, in ascending id order, exactly the records stored under the
      keys in `done`, one per key. */
  ghost predicate Collected(db: Stores, r: seq<LocalScore>, done: set<string>) {
    done <= db.scores.Keys && IdsAscending(r) && |r| == |done|
    && forall x :: x in r <==> x.id in done && db.scores[x.id] == x
  }

  /** A list holding the record stored under every key holds exactly the
      stored records, one per key. */
  lemma CollectedAll(db: Stores, r: seq<LocalScore>)
    requires Keyed(db)
    requires Collected(db, r, db.scores.Keys)
    ensures forall x :: x in r <==> x in db.scores.Values
    ensures |r| == |db.scores|
  {
    forall x
      ensures x in r <==> x in db.scores.Values
    {
      if x in db.scores.Values {
        var k :| k in db.scores && db.scores[k] == x;
      }
    }
  }

  /** One step of collecting the records: inserting the record of a key not
      yet collected keeps the list ascending, adds exactly that record and
      grows the list by one. */
  method CollectStep(db: Stores, r: seq<LocalScore>, ghost done: set<string>, k: string)
    returns (q: seq<LocalScore>)
    requires Keyed(db)
    requires Collected(db, r, done)
    requires k in db.scores && k !in done
    ensures Collected(db, q, done + {k})
  {
    q := InsertById(r, db.scores[k]);
    forall x
      ensures x in q <==> x.id in done + {k} && db.scores[x.id] == x
    {
      if x.id == k {
        assert x in q <==> x == db.scores[k];
      }
    }
    forall id | id in done + {k}
      ensures exists x :: x in q && x.id == id
    {
      assert db.scores[id] in q;
    }
    DistinctIdsCount(q, done + {k});
  }

  /** A list with pairwise different ids, whose ids are exactly `ids`, has
      one element per id. */
  lemma {:induction false} DistinctIdsCount(r: seq<LocalScore>, ids: set<string>)
    requires IdsAscending(r)
    requires forall x :: x in r ==> x.id in ids
    requires forall k :: k in ids ==> exists x :: x in r && x.id == k
    ensures |r| == |ids|
  {
    if |r| > 0 {
      var rest := ids - {r[0].id};
      DistinctIdsTail(r, ids);
      DistinctIdsCount(r[1..], rest);
      assert |rest| == |ids| - 1;
    } else {
      assert forall k :: k !in ids;
      assert ids == {};
    }
  }

  /** Dropping the first record of such a list leaves a list of the same
      kind for the remaining ids. */
  lemma DistinctIdsTail(r: seq<LocalScore>, ids: set<string>)
    requires |r| > 0 && IdsAscending(r)
    requires forall x :: x in r ==> x.id in ids
    requires forall k :: k in ids ==> exists x :: x in r && x.id == k
    ensures r[0].id in ids
    ensures IdsAscending(r[1..])
    ensures forall x :: x in r[1..] ==> x.id in ids - {r[0].id}
    ensures forall k :: k in ids - {r[0].id} ==> exists x :: x in r[1..] && x.id == k
  {
    var rest := ids - {r[0].id};
    forall x | x in r[1..]
      ensures x.id in rest
    {
      var j :| 0 <= j < |r[1..]| && r[1..][j] == x;
      assert r[j + 1] == x;
    }
    forall k | k in rest
      ensures exists x :: x in r[1..] && x.id == k
    {
      var x :| x in r && x.id == k;
      var j :| 0 <= j < |r| && r[j] == x;
      assert j != 0;
      assert r[1..][j - 1] == x;
    }
  }

  // ---------------------------------------------------------------------------
  // Filters over the listing

  /** `r` is `xs` with some elements dropped and the rest in their order. */
  predicate SubsequenceOf<T(==,!new)>(r: seq<T>, xs: seq<T>)
    decreases |xs|
  {
    |r| == 0 || (|xs| > 0 && if r[0] == xs[0] then SubsequenceOf(r[1..], xs[1..]) else SubsequenceOf(r, xs[1..]))
  }

  /** `Array.prototype.filter`: the elements `keep` accepts, in order, with
      their multiplicities. */
  function Filter<T(==,!new)>(xs: seq<T>, keep: T -> bool): (r: seq<T>)
    ensures forall x :: x in r <==> x in xs && keep(x)
    ensures forall x :: multiset(r)[x] == if keep(x) then multiset(xs)[x] else 0
    ensures SubsequenceOf(r, xs)
  {
    if |xs| == 0 then []
    else
      var rest := Filter(xs[1..], keep);
      assert xs == [xs[0]] + xs[1..];
      assert multiset(xs) == multiset{xs[0]} + multiset(xs[1..]);
      if keep(xs[0]) then
        assert ([xs[0]] + rest)[1..] == rest;
        [xs[0]] + rest
      else
        assert |rest| > 0 ==> rest[0] in rest;
        rest
  }

  /** A filter that keeps everything returns the list unchanged. */
  lemma {:induction false} FilterKeepsAll<T(!new)>(xs: seq<T>, keep: T -> bool)
    requires forall x :: x in xs ==> keep(x)
    ensures Filter(xs, keep) == xs
  {
    if |xs| > 0 {
      KeptSplit(xs, keep);
      FilterKeepsHead(xs, keep);
      FilterKeepsAll(xs[1..], keep);
    }
  }

  lemma FilterKeepsHead<T(!new)>(xs: seq<T>, keep: T -> bool)
    requires |xs| > 0 && keep(xs[0])
    ensures Filter(xs, keep) == [xs[0]] + Filter(xs[1..], keep)
  {
  }

  /** When every element is kept, the head is kept and so is every element
      of the tail. */
  lemma KeptSplit<T>(xs: seq<T>, keep: T -> bool)
    requires |xs| > 0 && forall x :: x in xs ==> keep(x)
    ensures keep(xs[0]) && forall x :: x in xs[1..] ==> keep(x)
    ensures xs == [xs[0]] + xs[1..]
  {
    assert forall x :: x in xs[1..] ==> x in xs;
  }

  /** The search test: the lower-cased query occurs in the lower-cased title,
      in the composer when there is one, or in one of the tags. */
  predicate MatchesQuery(s: LocalScore, lowerQuery: string) {
    Contains(Lower(s.title), lowerQuery)
    || (s.composer.Some? && Contains(Lower(s.composer.value), lowerQuery))
    || exists t :: t in s.tags && Contains(Lower(t), lowerQuery)
  }

  /** `searchScores(query)` over the listing `all`. */
  function SearchScores(all: seq<LocalScore>, query: string): (r: seq<LocalScore>)
    ensures forall s :: s in r <==> s in all && MatchesQuery(s, Lower(query))
    ensures SubsequenceOf(r, all)
  {
    Filter(all, (s: LocalScore) => MatchesQuery(s, Lower(query)))
  }

  /** The empty query matches every score, through its title. */
  lemma EmptySearchKeepsAll(all: seq<LocalScore>)
    ensures SearchScores(all, "") == all
  {
    forall s | s in all
      ensures MatchesQuery(s, Lower(""))
    {
      ContainsEmpty(Lower(s.title));
    }
    FilterKeepsAll(all, (s: LocalScore) => MatchesQuery(s, Lower("")));
  }

  /** The query's case does not matter: an upper-case query finds what its
      lower-case form finds. */
  lemma SearchIgnoresQueryCase(all: seq<LocalScore>, query: string)
    ensures SearchScores(all, query) == SearchScores(all, Lower(query))
  {
    LowerIdempotent(query);
  }

  lemma LowerIdempotent(s: string)
    ensures Lower(Lower(s)) == Lower(s)
  {
    assert forall i :: 0 <= i < |s| ==> LowerChar(LowerChar(s[i])) == LowerChar(s[i]);
  }

  /** `getScoresByFolder(folder)` over the listing `all`: exact equality. */
  function ScoresByFolder(all: seq<LocalScore>, folder: string): (r: seq<LocalScore>)
    ensures forall s :: s in r <==> s in all && s.folder == Some(folder)
    ensures SubsequenceOf(r, all)
  {
    Filter(all, (s: LocalScore) => s.folder == Some(folder))
  }

  /** Folder selection is not a prefix match: a score in "A/B" is not listed
      under "A". */
  lemma FolderIsNotPrefixMatch(s: LocalScore)
    requires s.folder == Some("A/B")
    ensures ScoresByFolder([s], "A") == []
  {
    assert s !in ScoresByFolder([s], "A");
  }

  // ---------------------------------------------------------------------------
  // getFolders

  predicate FoldersAscending(fs: seq<string>) {
    forall i, j :: 0 <= i < j < |fs| ==> Utf16Le(fs[i], fs[j]) && fs[i] != fs[j]
  }

  /** Adds `f` to the ascending list `fs` unless it is already there (a `Set`). */
  function AddFolder(fs: seq<string>, f: string): (q: seq<string>)
    requires FoldersAscending(fs)
    ensures FoldersAscending(q)
    ensures forall x :: x in q <==> x == f || x in fs
  {
    if |fs| == 0 then [f]
    else if f == fs[0] then fs
    else if Utf16Le(f, fs[0]) then
      forall j | 0 <= j < |fs|
        ensures Utf16Le(f, fs[j]) && f != fs[j]
      {
        if j > 0 {
          Utf16Transitive(f, fs[0], fs[j]);
          if f == fs[j] {
            Utf16Antisymmetric(fs[0], fs[j]);
          }
        }
      }
      assert forall x :: x in fs ==> Utf16Le(f, x) && f != x;
      ConsFolders(f, fs);
      [f] + fs
    else
      var rest := AddFolder(fs[1..], f);
      Utf16Total(f, fs[0]);
      assert forall x :: x in rest ==> Utf16Le(fs[0], x) && fs[0] != x by {
        forall x | x in rest
          ensures Utf16Le(fs[0], x) && fs[0] != x
        {
          if x != f {
            var j :| 0 <= j < |fs[1..]| && fs[1..][j] == x;
            assert fs[j + 1] == x;
          }
        }
      }
      ConsFolders(fs[0], rest);
      [fs[0]] + rest
  }

  lemma ConsFolders(f: string, fs: seq<string>)
    requires FoldersAscending(fs)
    requires forall x :: x in fs ==> Utf16Le(f, x) && f != x
    ensures FoldersAscending([f] + fs)
  {
    forall i, j | 0 <= i < j < |[f] + fs|
      ensures Utf16Le(([f] + fs)[i], ([f] + fs)[j]) && ([f] + fs)[i] != ([f] + fs)[j]
    {
      assert ([f] + fs)[j] == fs[j - 1];
      if i > 0 {
        assert ([f] + fs)[i] == fs[i - 1];
      }
    }
  }

  /** A folder value that JavaScript treats as true: present and non-empty. */
  predicate IsListedFolder(all: seq<LocalScore>, f: string) {
    f != "" && exists s :: s in all && s.folder == Some(f)
  }

  /** `getFolders()` over the listing `all`: the distinct non-empty folders,
      sorted as the default `sort` orders strings. */
  method GetFolders(all: seq<LocalScore>) returns (fs: seq<string>)
    ensures FoldersAscending(fs)
    ensures forall f :: f in fs <==> IsListedFolder(all, f)
    ensures "" !in fs
  {
    fs := [];
    var i := 0;
    while i < |all|
      invariant 0 <= i <= |all|
      invariant FoldersAscending(fs)
      invariant forall f :: f in fs <==> f != "" && exists j :: 0 <= j < i && all[j].folder == Some(f)
    {
      var folder := all[i].folder;
      if folder.Some? && folder.value != "" {
        fs := AddFolder(fs, folder.value);
      }
      i := i + 1;
    }
    forall f | IsListedFolder(all, f)
      ensures f in fs
    {
      var s :| s in all && s.folder == Some(f);
      var j :| 0 <= j < |all| && all[j] == s;
    }
  }
}

=== FILE: numbers.dfy ===
/** The JavaScript number conversions the modelled code relies on: 32-bit
    wrap-around (`ToInt32`, used by the bitwise operators), rendering an
    integer in a radix (`Number.prototype.toString`), and the global
    `parseInt`. Numbers are modelled as unbounded integers plus `NaN`; the
    code only ever handles integral values. */
module Numbers {
  import opened Results

  const TWO_31: int := 0x8000_0000
  const TWO_32: int := 0x1_0000_0000

  /** ECMAScript ToInt32: the unique value in [-2^31, 2^31) that is congruent
      to `x` modulo 2^32. */
  function Int32(x: int): (r: int)
    ensures -TWO_31 <= r < TWO_31
    ensures (x - r) % TWO_32 == 0
  {
    var m := x % TWO_32;
    if m < TWO_31 then m else m - TWO_32
  }

  /** ToInt32 only depends on its argument modulo 2^32. */
  lemma Int32Congruent(a: int, b: int)
    requires (a - b) % TWO_32 == 0
    ensures Int32(a) == Int32(b)
  {
    var q := (a - b) / TWO_32;
    assert a == b + q * TWO_32;
    assert a % TWO_32 == b % TWO_32;
  }

  /** ToInt32 leaves 32-bit values alone. */
  lemma Int32Identity(x: int)
    requires -TWO_31 <= x < TWO_31
    ensures Int32(x) == x
  {
  }

  // ---------------------------------------------------------------------------
  // Digits

  /** The value of an alphanumeric character as a digit (36 for anything else). */
  function CharValue(c: char): (v: nat)
    ensures v <= 36
  {
    if '0' <= c <= '9' then c as int - '0' as int
    else if 'a' <= c <= 'z' then c as int - 'a' as int + 10
    else if 'A' <= c <= 'Z' then c as int - 'A' as int + 10
    else 36
  }

  predicate IsDigitOf(c: char, radix: nat) {
    CharValue(c) < radix
  }

  /** The lower-case digit `toString` writes for the value `d`. */
  function DigitChar(d: nat): (c: char)
    requires d < 36
    ensures CharValue(c) == d
    ensures '0' <= c <= '9' || 'a' <= c <= 'z'
  {
    if d < 10 then ('0' as int + d) as char else ('a' as int + d - 10) as char
  }

  /** `n.toString(radix)` for a non-negative integer: most significant digit
      first, lower-case letters, no leading zeros. */
  function ToRadix(n: nat, radix: nat): (s: string)
    requires 2 <= radix <= 36
    ensures |s| > 0
    ensures forall i :: 0 <= i < |s| ==> IsDigitOf(s[i], radix) && ('0' <= s[i] <= '9' || 'a' <= s[i] <= 'z')
    ensures s[0] == '0' ==> n == 0
    decreases n
  {
    if n < radix then [DigitChar(n)]
    else
      DivMod(n, radix);
      ToRadix(n / radix, radix) + [DigitChar(n % radix)]
  }

  lemma DivMod(n: nat, radix: nat)
    requires 2 <= radix <= n
    ensures 1 <= n / radix < n
    ensures 0 <= n % radix < radix
    ensures (n / radix) * radix + n % radix == n
  {
    var q := n / radix;
    var r := n % radix;
    assert n == q * radix + r && 0 <= r < radix;
    assert q >= 1 by {
      if q <= 0 {
        MulMonotone(q, 0, radix);
      }
    }
    assert q < n by {
      MulMonotone(2, radix, q);
    }
  }

  lemma MulMonotone(a: int, b: int, c: nat)
    requires a <= b
    ensures a * c <= b * c
  {
    assert b * c - a * c == (b - a) * c;
  }

  /** The value of a string of digits in the given radix. */
  function FromRadix(s: string, radix: nat): nat
    requires forall i :: 0 <= i < |s| ==> IsDigitOf(s[i], radix)
  {
    if |s| == 0 then 0
    else
      var high := FromRadix(s[..|s| - 1], radix);
      MulMonotone(0, high, radix);
      high * radix + CharValue(s[|s| - 1])
  }

  /** Reading back the digits `toString(radix)` writes gives the number. */
  lemma {:induction false} RadixRoundTrip(n: nat, radix: nat)
    requires 2 <= radix <= 36
    ensures FromRadix(ToRadix(n, radix), radix) == n
    decreases n
  {
    var s := ToRadix(n, radix);
    if n >= radix {
      DivMod(n, radix);
      RadixRoundTrip(n / radix, radix);
      assert s[..|s| - 1] == ToRadix(n / radix, radix);
    }
  }

  /** Distinct numbers have distinct renderings. */
  lemma RadixInjective(m: nat, n: nat, radix: nat)
    requires 2 <= radix <= 36
    requires ToRadix(m, radix) == ToRadix(n, radix)
    ensures m == n
  {
    RadixRoundTrip(m, radix);
    RadixRoundTrip(n, radix);
  }

  /** Template-literal rendering of an integer: decimal digits, with a minus
      sign when negative. */
  function Decimal(n: int): string {
    if n < 0 then "-" + ToRadix(-n, 10) else ToRadix(n, 10)
  }

  // ---------------------------------------------------------------------------
  // parseInt

  /** A JavaScript number as far as these conversions produce one. */
  datatype Num = Int(value: int) | NaN

  /** The characters `parseInt` skips at the start: ECMAScript's white space
      (tab, vertical tab, form feed, the byte order mark and every space
      separator) and line terminators. */
  predicate IsJsSpace(c: char) {
    var v := c as int;
    v == 0x09 || v == 0x0A || v == 0x0B || v == 0x0C || v == 0x0D || v == 0x20
    || v == 0xA0 || v == 0x1680 || (0x2000 <= v <= 0x200A) || v == 0x2028
    || v == 0x2029 || v == 0x202F || v == 0x205F || v == 0x3000 || v == 0xFEFF
  }

  function TrimStart(s: string): (r: string)
    ensures |r| <= |s| && r == s[|s| - |r|..]
    ensures |r| > 0 ==> !IsJsSpace(r[0])
    ensures forall i :: 0 <= i < |s| - |r| ==> IsJsSpace(s[i])
  {
    if |s| > 0 && IsJsSpace(s[0]) then TrimStart(s[1..]) else s
  }

  /** The length of the longest prefix of `s` made of digits of `radix`. */
  function DigitRun(s: string, radix: nat): (k: nat)
    ensures k <= |s|
    ensures forall i :: 0 <= i < k ==> IsDigitOf(s[i], radix)
    ensures k < |s| ==> !IsDigitOf(s[k], radix)
  {
    if |s| == 0 || !IsDigitOf(s[0], radix) then 0 else 1 + DigitRun(s[1..], radix)
  }

  /** The number written by the longest run of digits at the start of `s`,
      or `NaN` when `s` does not start with a digit. */
  function ReadDigits(s: string, radix: nat): Num {
    var k := DigitRun(s, radix);
    if k == 0 then NaN else Int(FromRadix(s[..k], radix))
  }

  function Negate(x: Num): Num {
    match x
    case Int(v) => Int(-v)
    case NaN => NaN
  }

  /** The global `parseInt(input, radix)`; `radix` is `None` when the call
      passes none. Leading white space and one sign are skipped; without a
      radix (or with 16) a `0x`/`0X` prefix selects hexadecimal; the longest
      run of digits is read and the rest ignored; no digits gives `NaN`. */
  function ParseInt(input: string, radix: Option<int>): Num {
    var s := TrimStart(input);
    var negative := |s| > 0 && s[0] == '-';
    var unsigned := if |s| > 0 && (s[0] == '-' || s[0] == '+') then s[1..] else s;
    var r := if radix.Some? then Int32(radix.value) else 0;
    if r != 0 && (r < 2 || r > 36) then NaN
    else
      var hex := (r == 0 || r == 16) && |unsigned| >= 2 && unsigned[0] == '0'
                 && (unsigned[1] == 'x' || unsigned[1] == 'X');
      var v := if hex then ReadDigits(unsigned[2..], 16)
               else ReadDigits(unsigned, if r == 0 then 10 else r);
      if negative then Negate(v) else v
  }

  /** Reading back a rendered integer gives the integer, with radix 10 and
      with no radix at all. */
  lemma DecimalRoundTrip(n: int)
    ensures ParseInt(Decimal(n), Some(10)) == Int(n)
    ensures ParseInt(Decimal(n), None) == Int(n)
  {
    ParseDecimal(n, Some(10));
    ParseDecimal(n, None);
  }

  lemma ParseDecimal(n: int, radix: Option<int>)
    requires radix == Some(10) || radix == None
    ensures ParseInt(Decimal(n), radix) == Int(n)
  {
    if n < 0 {
      ParseNegative(n, radix);
    } else {
      ParseUnsigned(n, radix);
    }
  }

  /** The digits of a non-negative number read back as that number. */
  lemma ParseUnsigned(n: int, radix: Option<int>)
    requires n >= 0
    requires radix == Some(10) || radix == None
    ensures ParseInt(Decimal(n), radix) == Int(n)
  {
    assert Decimal(n) == ToRadix(n, 10);
    ParseRendered(n, radix);
  }

  lemma ParseRendered(m: nat, radix: Option<int>)
    requires radix == Some(10) || radix == None
    ensures ParseInt(ToRadix(m, 10), radix) == Int(m)
  {
    var digits := ToRadix(m, 10);
    assert !IsJsSpace(digits[0]);
    assert TrimStart(digits) == digits;
    assert digits[0] != '-' && digits[0] != '+';
    assert !(|digits| >= 2 && digits[0] == '0');
    ReadRendered(m);
    assert ParseInt(digits, radix) == ReadDigits(digits, 10);
  }

  /** A minus sign before the digits of a negative number's magnitude reads
      back as the number. */
  lemma ParseNegative(n: int, radix: Option<int>)
    requires n < 0
    requires radix == Some(10) || radix == None
    ensures ParseInt(Decimal(n), radix) == Int(n)
  {
    var m: nat := -n;
    var digits := ToRadix(m, 10);
    assert Decimal(n) == "-" + digits;
    ParseMinus(digits, radix);
    ParseRendered(m, radix);
  }

  /** A minus sign in front of text that starts with neither white space
      nor a sign negates what the text reads as. */
  lemma ParseMinus(t: string, radix: Option<int>)
    requires |t| > 0 && !IsJsSpace(t[0]) && t[0] != '-' && t[0] != '+'
    ensures ParseInt("-" + t, radix) == Negate(ParseInt(t, radix))
  {
    var s := "-" + t;
    assert !IsJsSpace(s[0]);
    assert TrimStart(s) == s;
    assert TrimStart(t) == t;
    assert s[1..] == t;
  }

  lemma ReadRendered(m: nat)
    ensures ReadDigits(ToRadix(m, 10), 10) == Int(m)
  {
    var digits := ToRadix(m, 10);
    DigitRunAll(digits, 10);
    assert digits[..|digits|] == digits;
    RadixRoundTrip(m, 10);
  }

  lemma {:induction false} DigitRunAll(s: string, radix: nat)
    requires forall i :: 0 <= i < |s| ==> IsDigitOf(s[i], radix)
    ensures DigitRun(s, radix) == |s|
  {
    if |s| > 0 {
      DigitRunAll(s[1..], radix);
    }
  }

  /** `parseInt` stops at the first character that is not a digit. */
  lemma ParseIntStopsAtNonDigit(m: nat, rest: string)
    requires |rest| > 0 && !IsDigitOf(rest[0], 10)
    ensures ParseInt(ToRadix(m, 10) + rest, Some(10)) == Int(m)
  {
    var digits := ToRadix(m, 10);
    var s := digits + rest;
    assert s[0] == digits[0];
    assert TrimStart(s) == s;
    assert s[|digits|] == rest[0];
    DigitRunPrefix(digits, rest, 10);
    assert s[..|digits|] == digits;
    RadixRoundTrip(m, 10);
  }

  lemma {:induction false} DigitRunPrefix(s: string, rest: string, radix: nat)
    requires forall i :: 0 <= i < |s| ==> IsDigitOf(s[i], radix)
    requires |rest| > 0 && !IsDigitOf(rest[0], radix)
    ensures DigitRun(s + rest, radix) == |s|
  {
    if |s| > 0 {
      assert (s + rest)[1..] == s[1..] + rest;
      DigitRunPrefix(s[1..], rest, radix);
    }
  }
}

=== FILE: paths.dfy ===
/** The path guard and the path helpers of the file service and scanner.

    An absolute POSIX path is modelled by its list of segments and rendered
    as a string; the indexed root is such a list, already normalised (it was
    produced by `path.resolve` at start-up). `SanitizePath` strips leading
    separators from a stored relative path, resolves it against the root the
    way `path.resolve` does, and then accepts it when the root's rendering is
    a string prefix of the result. The lemmas below state both what that
    test guarantees and where it is weaker than containment: a sibling
    directory whose name extends the root's last segment passes. */
module Paths {
  import opened Results
  import opened Text

  /** A segment as `path.resolve` leaves it: non-empty, without '/', and
      neither "." nor "..". */
  predicate IsName(s: string) {
    |s| > 0 && '/' !in s && s != "." && s != ".."
  }

  predicate AllNames(segs: seq<string>) {
    forall i :: 0 <= i < |segs| ==> IsName(segs[i])
  }

  /** Each segment preceded by a '/'. */
  function Slashed(segs: seq<string>): string {
    if |segs| == 0 then "" else "/" + segs[0] + Slashed(segs[1..])
  }

  /** The string form of an absolute path; the file-system root is "/". */
  function Render(segs: seq<string>): string {
    if |segs| == 0 then "/" else Slashed(segs)
  }

  // ---------------------------------------------------------------------------
  // path.resolve

  /** One segment of the normalisation `path.resolve` performs: empty and "."
      segments vanish, ".." removes the last segment (and is ignored at the
      file-system root), anything else is appended. */
  function Step(acc: seq<string>, part: string): seq<string> {
    if part == "" || part == "." then acc
    else if part == ".." then (if |acc| == 0 then acc else acc[..|acc| - 1])
    else acc + [part]
  }

  function Normalize(acc: seq<string>, parts: seq<string>): seq<string>
    decreases |parts|
  {
    if |parts| == 0 then acc else Normalize(Step(acc, parts[0]), parts[1..])
  }

  /** `path.resolve(root, rel)` for a relative `rel`, as segments. */
  function Resolve(root: seq<string>, rel: string): (r: seq<string>)
    ensures AllNames(root) ==> AllNames(r)
  {
    if AllNames(root) then
      NormalizeKeepsNames(root, Split(rel, '/'));
      Normalize(root, Split(rel, '/'))
    else Normalize(root, Split(rel, '/'))
  }

  /** Normalisation yields well-formed segments. */
  lemma {:induction false} NormalizeKeepsNames(acc: seq<string>, parts: seq<string>)
    requires AllNames(acc)
    requires forall i :: 0 <= i < |parts| ==> '/' !in parts[i]
    ensures AllNames(Normalize(acc, parts))
    decreases |parts|
  {
    if |parts| > 0 {
      NormalizeKeepsNames(Step(acc, parts[0]), parts[1..]);
    }
  }

  /** Without ".." segments normalisation only appends: the starting
      segments stay a prefix of the result. */
  lemma {:induction false} NormalizeWithoutParent(acc: seq<string>, parts: seq<string>)
    requires forall i :: 0 <= i < |parts| ==> parts[i] != ".."
    ensures acc <= Normalize(acc, parts)
    decreases |parts|
  {
    if |parts| > 0 {
      NormalizeWithoutParent(Step(acc, parts[0]), parts[1..]);
    }
  }

  // ---------------------------------------------------------------------------
  // The guard

  /** `relativePath.replace(/^[\/\\]+/, '')`: drops every leading '/' and '\'. */
  function StripLeadingSeparators(s: string): (r: string)
    ensures |r| <= |s| && r == s[|s| - |r|..]
    ensures |r| > 0 ==> r[0] != '/' && r[0] != '\\'
    ensures forall i :: 0 <= i < |s| - |r| ==> s[i] == '/' || s[i] == '\\'
  {
    if |s| > 0 && (s[0] == '/' || s[0] == '\\') then StripLeadingSeparators(s[1..]) else s
  }

  lemma StripIdempotent(s: string)
    ensures StripLeadingSeparators(StripLeadingSeparators(s)) == StripLeadingSeparators(s)
  {
  }

  datatype PathError = PathTraversal

  /** `sanitizePath`: the absolute path a stored relative path names, or
      `PathTraversal` ("Path traversal detected") when the root's rendering
      is not a string prefix of it. */
  function SanitizePath(root: seq<string>, input: string): (r: Result<string, PathError>)
    requires AllNames(root)
    ensures r.Ok? ==> StartsWith(r.value, Render(root))
    ensures r.Ok? ==> r.value == Render(Resolve(root, StripLeadingSeparators(input)))
  {
    var absolute := Render(Resolve(root, StripLeadingSeparators(input)));
    if StartsWith(absolute, Render(root)) then Ok(absolute) else Err(PathTraversal)
  }

  lemma {:induction false} SlashedAppend(a: seq<string>, b: seq<string>)
    ensures Slashed(a + b) == Slashed(a) + Slashed(b)
  {
    if |a| > 0 {
      assert (a + b)[1..] == a[1..] + b;
      SlashedAppend(a[1..], b);
    } else {
      assert a + b == b;
    }
  }

  /** A path whose segments extend the root's always passes the test. */
  lemma InsideIsAccepted(root: seq<string>, segs: seq<string>)
    requires root <= segs
    ensures StartsWith(Render(segs), Render(root))
  {
    if |root| == 0 {
      if |segs| > 0 {
        assert Render(segs)[0] == '/';
      }
    } else {
      assert segs == root + segs[|root|..];
      SlashedAppend(root, segs[|root|..]);
    }
  }

  /** An input without ".." segments never throws: its resolution stays
      under the root. */
  lemma NoParentNeverThrows(root: seq<string>, input: string)
    requires AllNames(root)
    requires forall i :: 0 <= i < |Split(StripLeadingSeparators(input), '/')| ==>
               Split(StripLeadingSeparators(input), '/')[i] != ".."
    ensures root <= Resolve(root, StripLeadingSeparators(input))
    ensures SanitizePath(root, input).Ok?
  {
    var parts := Split(StripLeadingSeparators(input), '/');
    NormalizeWithoutParent(root, parts);
    InsideIsAccepted(root, Resolve(root, StripLeadingSeparators(input)));
  }

  /** A prefix agrees with the whole string at each of its positions. */
  lemma PrefixAt(p: string, s: string, i: int)
    ensures p <= s && 0 <= i < |p| ==> i < |s| && p[i] == s[i]
  {
  }

  /** If `a + x` is a prefix of `b + y`, where `a` and `b` hold no '/' and
      `x` (non-empty) and `y` start with one, then `a` and `b` are equal. */
  lemma HeadSegmentsEqual(a: string, x: string, b: string, y: string)
    requires '/' !in a && '/' !in b
    requires |x| > 0 && x[0] == '/'
    requires |y| == 0 || y[0] == '/'
    requires StartsWith(b + y, a + x)
    ensures a == b && StartsWith(y, x)
  {
    PrefixAt(a + x, b + y, |a|);
    PrefixAt(a + x, b + y, |b|);
    assert |a| == |b|;
    assert a == (a + x)[..|a|] == (b + y)[..|b|] == b;
    assert (a + x)[|a|..] == x;
    assert (b + y)[|b|..] == y;
  }

  /** If a segment `a` is a prefix of `b + y`, with `y` empty or starting
      with '/', then it is a prefix of the segment `b`. */
  lemma LastSegmentPrefix(a: string, b: string, y: string)
    requires '/' !in a
    requires |y| == 0 || y[0] == '/'
    requires StartsWith(b + y, a)
    ensures StartsWith(b, a)
  {
    PrefixAt(a, b + y, |b|);
    assert |a| <= |b|;
    assert a == (b + y)[..|a|] == b[..|a|];
  }

  lemma SlashedStartsWithSlash(segs: seq<string>)
    ensures |Slashed(segs)| == 0 || Slashed(segs)[0] == '/'
    ensures |segs| > 0 ==> |Slashed(segs)| > 0
  {
  }

  /** What the prefix test actually establishes for a root other than "/":
      the resolved path keeps all of the root's segments but the last, and
      its next segment merely starts with the root's last segment. */
  predicate NearRoot(root: seq<string>, segs: seq<string>)
    requires |root| > 0
  {
    var n := |root|;
    |segs| >= n && segs[..n - 1] == root[..n - 1] && StartsWith(segs[n - 1], root[n - 1])
  }

  /** The raw prefix test, characterised on segments: it passes exactly
      when the path is near the root in the sense above. */
  lemma PrefixTestMeans(root: seq<string>, segs: seq<string>)
    requires AllNames(root) && AllNames(segs)
    requires |root| > 0
    ensures StartsWith(Render(segs), Render(root)) <==> NearRoot(root, segs)
  {
    if StartsWith(Render(segs), Render(root)) {
      PrefixTestSound(root, segs);
    }
    if NearRoot(root, segs) {
      var n := |root|;
      var head := root[..n - 1];
      assert root == head + [root[n - 1]];
      assert segs == head + [segs[n - 1]] + segs[n..];
      SlashedAppend(head, [root[n - 1]]);
      SlashedAppend(head + [segs[n - 1]], segs[n..]);
      SlashedAppend(head, [segs[n - 1]]);
      assert Slashed([root[n - 1]]) == "/" + root[n - 1];
      assert Slashed([segs[n - 1]]) == "/" + segs[n - 1];
      assert segs[n - 1] == root[n - 1] + segs[n - 1][|root[n - 1]|..];
    }
  }

  lemma PrefixTestSound(root: seq<string>, segs: seq<string>)
    requires AllNames(root) && AllNames(segs)
    requires |root| > 0
    requires StartsWith(Render(segs), Render(root))
    ensures NearRoot(root, segs)
  {
    SlashedStartsWithSlash(root);
    assert |segs| > 0;
    SlashedPrefix(root, segs);
  }

  /** `segs` holds no segment containing '/'. */
  predicate NoSlash(segs: seq<string>) {
    forall i :: 0 <= i < |segs| ==> '/' !in segs[i]
  }

  lemma DropSlash(u: string, v: string)
    requires StartsWith("/" + u, "/" + v)
    ensures StartsWith(u, v)
  {
    assert ("/" + u)[1..] == u;
    assert ("/" + v)[1..] == v;
  }

  lemma {:induction false} SlashedPrefix(root: seq<string>, segs: seq<string>)
    requires NoSlash(root) && NoSlash(segs)
    requires |root| > 0 && |segs| > 0
    requires StartsWith(Slashed(segs), Slashed(root))
    ensures NearRoot(root, segs)
    decreases |root|
  {
    var sr := Slashed(root[1..]);
    var ss := Slashed(segs[1..]);
    SlashedStartsWithSlash(root[1..]);
    SlashedStartsWithSlash(segs[1..]);
    assert Slashed(root) == "/" + (root[0] + sr);
    assert Slashed(segs) == "/" + (segs[0] + ss);
    DropSlash(segs[0] + ss, root[0] + sr);
    if |root| == 1 {
      assert root[0] + sr == root[0];
      LastSegmentPrefix(root[0], segs[0], ss);
    } else {
      HeadSegmentsEqual(root[0], sr, segs[0], ss);
      assert |segs[1..]| > 0;
      SlashedPrefix(root[1..], segs[1..]);
      assert root[..|root| - 1] == [root[0]] + root[1..][..|root| - 2];
      assert segs[..|root| - 1] == [segs[0]] + segs[1..][..|root| - 2];
    }
  }

  /** Whatever the guard accepts keeps the root's segments but the last and
      only extends its last one. */
  lemma AcceptedIsNearRoot(root: seq<string>, input: string)
    requires AllNames(root) && |root| > 0
    requires SanitizePath(root, input).Ok?
    ensures NearRoot(root, Resolve(root, StripLeadingSeparators(input)))
  {
    var cleaned := StripLeadingSeparators(input);
    NormalizeKeepsNames(root, Split(cleaned, '/'));
    PrefixTestMeans(root, Resolve(root, cleaned));
  }

  lemma SplitUp(rest: string)
    ensures Split("../" + rest, '/') == [".."] + Split(rest, '/')
  {
    assert "../" + rest == ".." + ['/'] + rest;
    SplitPrefix("..", rest, '/');
  }

  lemma NormalizeUp(acc: seq<string>, parts: seq<string>)
    requires |acc| > 0
    ensures Normalize(acc, [".."] + parts) == Normalize(acc[..|acc| - 1], parts)
  {
    assert ([".."] + parts)[1..] == parts;
  }

  lemma NormalizeName(acc: seq<string>, name: string, parts: seq<string>)
    requires IsName(name)
    ensures Normalize(acc, [name] + parts) == Normalize(acc + [name], parts)
  {
    assert ([name] + parts)[1..] == parts;
  }

  /** "../x" leaves the root for its sibling `x`, and so does "a/../../x". */
  lemma ResolveSibling(root: seq<string>, a: string, x: string)
    requires |root| > 0 && IsName(a) && IsName(x)
    ensures Resolve(root, "../" + x) == root[..|root| - 1] + [x]
    ensures Resolve(root, a + "/../../" + x) == root[..|root| - 1] + [x]
  {
    var n := |root|;
    SplitUp(x);
    SplitNoSep(x, '/');
    NormalizeUp(root, [x]);
    NormalizeName(root[..n - 1], x, []);
    assert a + "/../../" + x == a + ['/'] + ("../" + ("../" + x));
    SplitPrefix(a, "../" + ("../" + x), '/');
    SplitUp("../" + x);
    NormalizeName(root, a, [".."] + ([".."] + [x]));
    NormalizeUp(root + [a], [".."] + [x]);
    assert (root + [a])[..n] == root;
  }

  /** Climbing one level out of the root to a name that does not start with
      the root's last segment throws, also by way of a detour through a
      subdirectory. */
  lemma ParentEscapeRejected(root: seq<string>, a: string, x: string)
    requires AllNames(root) && |root| > 0
    requires IsName(a) && IsName(x) && a[0] != '\\'
    requires !StartsWith(x, root[|root| - 1])
    ensures SanitizePath(root, "../" + x).Err?
    ensures SanitizePath(root, a + "/../../" + x).Err?
  {
    var up := root[..|root| - 1] + [x];
    assert StripLeadingSeparators("../" + x) == "../" + x;
    assert (a + "/../../" + x)[0] == a[0];
    assert StripLeadingSeparators(a + "/../../" + x) == a + "/../../" + x;
    ResolveSibling(root, a, x);
    PrefixTestMeans(root, up);
  }

  /** The weakness of the raw prefix test: a sibling whose name extends the
      root's last segment is accepted although it lies outside the root
      (with root "/notes", "../notesX/a.pdf" gives "/notesX/a.pdf"). */
  lemma SiblingPrefixAccepted(root: seq<string>, x: string, file: string)
    requires AllNames(root) && |root| > 0
    requires IsName(x) && IsName(file)
    requires StartsWith(x, root[|root| - 1]) && x != root[|root| - 1]
    ensures SanitizePath(root, "../" + x + "/" + file) == Ok(Render(root[..|root| - 1] + [x, file]))
    ensures !(root <= Resolve(root, "../" + x + "/" + file))
  {
    var n := |root|;
    var input := "../" + x + "/" + file;
    assert input == "../" + (x + ['/'] + file);
    assert StripLeadingSeparators(input) == input;
    SplitUp(x + ['/'] + file);
    SplitPrefix(x, file, '/');
    SplitNoSep(file, '/');
    assert Split(input, '/') == [".."] + ([x] + [file]);
    NormalizeUp(root, [x] + [file]);
    NormalizeName(root[..n - 1], x, [file]);
    NormalizeName(root[..n - 1] + [x], file, []);
    var segs := root[..n - 1] + [x, file];
    assert Resolve(root, input) == segs;
    assert segs[..n - 1] == root[..n - 1];
    PrefixTestMeans(root, segs);
    assert segs[n - 1] == x;
  }

  // ---------------------------------------------------------------------------
  // path.extname and the MIME lookup

  /** The last component of a path once trailing separators are dropped,
      the part `path.extname` looks at. */
  function LastComponent(p: string): string {
    if |p| > 0 && p[|p| - 1] == '/' then LastComponent(p[..|p| - 1])
    else
      match LastIndexOf(p, '/')
      case None => p
      case Some(i) => p[i + 1..]
  }

  /** `path.extname`: from the last '.' of the last component, unless that
      dot is the component's first character or the component is "..". */
  function Extname(p: string): (r: string)
    ensures r == "" || (r[0] == '.' && '.' !in r[1..])
  {
    ExtensionOf(LastComponent(p))
  }

  /** The extension of a single path component. */
  function ExtensionOf(part: string): (r: string)
    ensures r == "" || (r[0] == '.' && '.' !in r[1..])
  {
    match LastIndexOf(part, '.')
    case None => ""
    case Some(i) =>
      if i == 0 || part == ".." then ""
      else assert part[i..][1..] == part[i + 1..]; part[i..]
  }

  const PDF_MIME := "application/pdf"
  const OCTET_MIME := "application/octet-stream"

  /** `getMimeType`: only the ".pdf" extension is recognised. */
  function MimeType(filename: string): (r: string)
    ensures r == PDF_MIME || r == OCTET_MIME
  {
    if Lower(Extname(filename)) == ".pdf" then PDF_MIME else OCTET_MIME
  }

  /** The lookup yields the PDF type exactly when the last component, case
      folded, ends in ".pdf" with something in front of the dot. */
  lemma MimeTypeIsPdf(filename: string)
    ensures MimeType(filename) == PDF_MIME <==>
              |LastComponent(filename)| > 4 && EndsWith(Lower(LastComponent(filename)), ".pdf")
  {
    var part := LastComponent(filename);
    if MimeType(filename) == PDF_MIME {
      PdfExtensionSound(part);
    }
    if |part| > 4 && EndsWith(Lower(part), ".pdf") {
      PdfExtensionComplete(part);
    }
  }

  lemma PdfExtensionSound(part: string)
    requires Lower(ExtensionOf(part)) == ".pdf"
    ensures |part| > 4 && EndsWith(Lower(part), ".pdf")
  {
    var n := |part|;
    var e := ExtensionOf(part);
    assert |e| == 4;
    var li := LastIndexOf(part, '.');
    assert li.Some?;
    var i := li.value;
    assert i != 0 && e == part[i..];
    assert i == n - 4;
    LowerSlice(part, i, n);
  }

  lemma PdfExtensionComplete(part: string)
    requires |part| > 4 && EndsWith(Lower(part), ".pdf")
    ensures Lower(ExtensionOf(part)) == ".pdf"
  {
    var n := |part|;
    LowerSlice(part, n - 4, n);
    assert Lower(part[n - 4..]) == ".pdf";
    assert part[n - 4] == '.' by {
      assert Lower(part[n - 4..])[0] == '.';
    }
    forall j | n - 4 < j < n
      ensures part[j] != '.'
    {
      assert Lower(part[n - 4..])[j - (n - 4)] != '.';
    }
    var li := LastIndexOf(part, '.');
    assert li.value == n - 4;
    assert part != "..";
  }

  /** `path.dirname(relativePath)`, with "." (a file at the root) read as
      the empty folder. Stated for the relative paths the scanner builds,
      which have no leading, trailing or doubled separators. */
  function ParentFolder(rel: string): (r: string)
    ensures '/' !in rel ==> r == ""
    ensures r == "" || (|r| < |rel| && rel[..|r|] == r && rel[|r|] == '/')
  {
    match LastIndexOf(rel, '/')
    case None => ""
    case Some(i) => rel[..i]
  }

  /** `path.basename(relativePath)`: the text after the last '/'. */
  function BaseName(rel: string): (r: string)
    ensures '/' !in r
    ensures EndsWith(rel, r)
    ensures '/' !in rel ==> r == rel
  {
    match LastIndexOf(rel, '/')
    case None => rel
    case Some(i) => rel[i + 1..]
  }

  /** A relative path is its folder joined with its base name. */
  lemma FolderAndBaseName(rel: string)
    requires |rel| == 0 || rel[0] != '/'
    ensures Child(ParentFolder(rel), BaseName(rel)) == rel
  {
    match LastIndexOf(rel, '/')
    case None =>
    case Some(i) =>
      assert i > 0;
      assert rel == rel[..i] + "/" + rel[i + 1..];
  }

  /** The relative path of the entry `name` in the directory `dir` ("" for
      the root): what `path.relative(root, path.join(dir, name))` yields. */
  function Child(dir: string, name: string): string {
    if dir == "" then name else dir + "/" + name
  }

  /** A file's folder is the directory it was found in. */
  lemma FolderOfChild(dir: string, name: string)
    requires '/' !in name
    ensures ParentFolder(Child(dir, name)) == dir
    ensures BaseName(Child(dir, name)) == name
  {
    if dir != "" {
      var rel := dir + "/" + name;
      assert rel[|dir|] == '/';
      assert rel[|dir| + 1..] == name;
      var li := LastIndexOf(rel, '/');
      assert li.value == |dir|;
      assert rel[..|dir|] == dir;
    } else {
      assert '/' !in Child(dir, name);
    }
  }
}

=== FILE: results.dfy ===
/** Optional values and success-or-error results, used wherever the modelled
    TypeScript code returns `null`, throws, or rejects a promise. */
module Results {

  /** A value that may be absent (`null` / `undefined` in the source). */
  datatype Option<+T> = None | Some(value: T) {

    /** The carried value, or `default` when absent. */
    function GetOr(default: T): T {
      match this
      case Some(v) => v
      case None => default
    }
  }

  /** The outcome of an operation that either produces a value or fails with an error. */
  datatype Result<+T, +E> = Ok(value: T) | Err(error: E) {

    predicate IsFailure() {
      Err?
    }

    function PropagateFailure<U>(): Result<U, E>
      requires Err?
    {
      Err(error)
    }

    function Extract(): T
      requires Ok?
    {
      value
    }
  }
}

=== FILE: routes.dfy ===
/** The decisions of the score routes, without the HTTP plumbing and the
    streaming: which status a request gets, what the JSON body holds, and
    which headers a file response carries. The file system is reduced to
    two parameters, `isFile` (the existence check of the file service) and
    `sizeOf` (the size `statSync` reports); a thrown error is represented by
    the status the error handler answers it with. */
module Routes {
  import opened Results
  import opened Text
  import opened Numbers
  import opened Paths
  import opened Catalog
  import opened Scanner

  /** The headers of a file response that the model tracks. */
  datatype FileHeaders = FileHeaders(
    contentRange: Option<string>,
    contentLength: Num,
    contentType: string,
    acceptRanges: string)

  datatype Response =
    | ScoreList(scores: seq<Score>, total: nat)
    | ScoreDetail(score: Score, onDisk: bool)
    | FileBody(status: nat, headers: FileHeaders)
    | ScanCompleted(stats: ScanStats)
    | Failure(status: nat, message: string)
    | ConnectionDropped

  /* `ConnectionDropped` is what a client gets when the file route has
     already written its 206 head and `createReadStream` then throws on the
     range: the error handler's 500 cannot be sent once the head is out, and
     the connection is closed without an answer. */

  const NOT_FOUND := "Noten-Datei nicht gefunden"
  const GONE_FROM_DISK := "Datei existiert nicht mehr im Dateisystem"
  const TRAVERSAL := "Path traversal detected"

  // ---------------------------------------------------------------------------
  // GET /api/scores

  /** The list route: the catalog's listing and its length. */
  method ListRoute(c: Catalog, search: Option<string>, folder: Option<string>) returns (r: Response)
    requires KeyedByPath(c)
    ensures r.ScoreList?
    ensures r.total == |r.scores|
    ensures Sorted(r.scores) && Distinct(r.scores)
    ensures forall s :: s in r.scores <==> s.relativePath in c && c[s.relativePath] == s && Selected(s, search, folder)
  {
    var scores := ListScores(c, search, folder);
    r := ScoreList(scores, |scores|);
  }

  // ---------------------------------------------------------------------------
  // GET /api/scores/:id

  /** The detail decision once the id has been looked up: 404 for no row;
      otherwise the row with a flag telling whether its file is still on
      disk. A stored path that the guard rejects surfaces as an internal
      error. */
  function DetailOf(found: Option<Score>, root: seq<string>, isFile: string -> bool): (r: Response)
    requires AllNames(root)
    ensures found.None? <==> r == Failure(404, NOT_FOUND)
    ensures r.ScoreDetail? <==> found.Some? && SanitizePath(root, found.value.relativePath).Ok?
    ensures r.ScoreDetail? ==> r.score == found.value
                               && r.onDisk == isFile(SanitizePath(root, found.value.relativePath).value)
    ensures r.Failure? && r.status != 404 ==> r == Failure(500, TRAVERSAL)
  {
    match found
    case None => Failure(404, NOT_FOUND)
    case Some(score) =>
      match SanitizePath(root, score.relativePath)
      case Err(_) => Failure(500, TRAVERSAL)
      case Ok(absolute) => ScoreDetail(score, isFile(absolute))
  }

  /** The detail route: the row the id names, looked up in the catalog. */
  function DetailRoute(c: Catalog, root: seq<string>, isFile: string -> bool, id: string): (r: Response)
    requires Valid(c) && AllNames(root)
    ensures r == Failure(404, NOT_FOUND) <==> !exists p :: p in c && c[p].id == id
    ensures r.ScoreDetail? ==> r.score.id == id && r.score.relativePath in c
                               && c[r.score.relativePath] == r.score
  {
    DetailOf(GetById(c, id), root, isFile)
  }

  /** A row whose file is gone is still described, never answered with 404. */
  lemma DetailOfStaleRow(score: Score, root: seq<string>, isFile: string -> bool)
    requires AllNames(root)
    requires SanitizePath(root, score.relativePath).Ok?
    requires !isFile(SanitizePath(root, score.relativePath).value)
    ensures DetailOf(Some(score), root, isFile) == ScoreDetail(score, false)
  {
  }

  // ---------------------------------------------------------------------------
  // GET /api/scores/:id/file

  /** The decimal rendering of a number as a template literal writes it. */
  function NumText(n: Num): (r: string)
    ensures n.Int? ==> r == Decimal(n.value)
    ensures n.NaN? ==> r == "NaN"
  {
    match n
    case Int(v) => Decimal(v)
    case NaN => "NaN"
  }

  /** A number written into a header reads back with `parseInt(_, 10)` as
      the same number, `NaN` included. */
  lemma NumTextReadsBack(n: Num)
    ensures ParseInt(NumText(n), Some(10)) == n
  {
    match n
    case Int(v) => DecimalRoundTrip(v);
    case NaN => assert DigitRun("NaN", 10) == 0;
  }

  /** `end - start + 1`, which is `NaN` as soon as one side is. */
  function ChunkSize(start: Num, end: Num): (r: Num)
    ensures r.Int? <==> start.Int? && end.Int?
    ensures r.Int? ==> r.value == end.value - start.value + 1
  {
    if start.Int? && end.Int? then Int(end.value - start.value + 1) else NaN
  }

  /** What the handler makes of a Range header: the start and end it reads. */
  datatype ByteRange = ByteRange(start: Num, end: Num)

  /** `Number.MAX_SAFE_INTEGER`, the largest bound a read stream accepts. */
  const MAX_SAFE_INTEGER: int := 9007199254740991

  /** A bound `createReadStream` accepts: an integer from 0 to
      `Number.MAX_SAFE_INTEGER`. */
  predicate StreamBound(n: Num) {
    n.Int? && 0 <= n.value <= MAX_SAFE_INTEGER
  }

  /** The ranges `createReadStream` opens without throwing: both bounds
      acceptable and the start not after the end. */
  predicate Streamable(b: ByteRange) {
    StreamBound(b.start) && StreamBound(b.end) && b.start.value <= b.end.value
  }

  /** Drops the first "bytes=", splits at '-', reads the start from the
      first piece and the end from the second, which defaults to the last
      byte when it is missing or empty: a header without a dash asks for
      everything up to the last byte. */
  function ParseRange(header: string, size: nat): (r: ByteRange)
    ensures '-' !in header ==> r.end == Int(size - 1)
  {
    var rest := RemoveFirst(header, "bytes=");
    var parts := Split(rest, '-');
    assert '-' !in header ==> |parts| == 1 by {
      if '-' !in header {
        RemoveFirstKeepsAbsent(header, "bytes=", '-');
        SplitNoSep(rest, '-');
      }
    }
    var start := ParseInt(parts[0], Some(10));
    var end := if |parts| > 1 && parts[1] != "" then ParseInt(parts[1], Some(10)) else Int(size - 1);
    ByteRange(start, end)
  }

  /** The 206 head for the bounds `br` on a file of `size` bytes: start and
      end go into Content-Range and their difference plus one into
      Content-Length; neither bound is compared with the size. For a range a
      read stream accepts, the length is at least one byte. */
  function RangeHead(br: ByteRange, size: nat, mime: string): (r: Response)
    ensures r.FileBody? && r.status == 206 && r.headers.contentRange.Some?
    ensures r.headers.contentLength == ChunkSize(br.start, br.end)
    ensures Streamable(br) ==> r.headers.contentLength.Int? && r.headers.contentLength.value >= 1
  {
    var contentRange := "bytes " + NumText(br.start) + "-" + NumText(br.end) + "/" + Decimal(size);
    FileBody(206, FileHeaders(Some(contentRange), ChunkSize(br.start, br.end), mime, "bytes"))
  }

  /** The answer to a non-empty Range header whose bounds parse to `br`:
      the handler writes the 206 head and then opens the read stream; when
      the stream rejects the bounds the connection drops. A served range
      always covers at least one byte. */
  function RangeAnswer(br: ByteRange, size: nat, mime: string): (r: Response)
    ensures r.FileBody? || r.ConnectionDropped?
    ensures r.ConnectionDropped? <==> !Streamable(br)
    ensures r.FileBody? ==> r == RangeHead(br, size, mime)
    ensures r.FileBody? ==> r.headers.contentLength.Int? && r.headers.contentLength.value >= 1
  {
    if Streamable(br) then RangeHead(br, size, mime) else ConnectionDropped
  }

  /** Serving a located file: 500 when the guard rejected the stored path,
      404 when the file is gone from disk; for a non-empty Range header 206
      with Content-Range and Content-Length when the read stream accepts the
      parsed range and a dropped connection when it throws; 200 with the
      whole length without a Range header. Every file response accepts
      ranges and carries the MIME type of the file name. */
  function ServeFile(located: Result<string, PathError>, isFile: string -> bool, sizeOf: string -> nat,
                     filename: string, range: Option<string>): (r: Response)
    ensures located.Err? ==> r == Failure(500, TRAVERSAL)
    ensures located.Ok? && !isFile(located.value) ==> r == Failure(404, GONE_FROM_DISK)
    ensures r.FileBody? || r.ConnectionDropped? <==> located.Ok? && isFile(located.value)
    ensures located.Ok? && isFile(located.value) && range.Some? && range.value != "" ==>
              r == RangeAnswer(ParseRange(range.value, sizeOf(located.value)), sizeOf(located.value), MimeType(filename))
    ensures r.FileBody? ==> r.headers.acceptRanges == "bytes" && r.headers.contentType == MimeType(filename)
    ensures r.FileBody? ==> (r.status == 206 <==> range.Some? && range.value != "")
    ensures r.FileBody? ==> r.status == 200 || r.status == 206
    ensures r.FileBody? && r.status == 200 ==>
              r.headers.contentRange.None? && r.headers.contentLength == Int(sizeOf(located.value))
  {
    match located
    case Err(_) => Failure(500, TRAVERSAL)
    case Ok(absolute) =>
      if !isFile(absolute) then Failure(404, GONE_FROM_DISK)
      else
        var size := sizeOf(absolute);
        var mime := MimeType(filename);
        if range.Some? && range.value != "" then RangeAnswer(ParseRange(range.value, size), size, mime)
        else FileBody(200, FileHeaders(None, Int(size), mime, "bytes"))
  }

  /** The file decision once the id has been looked up: 404 for no row,
      before the file system is consulted; otherwise the stored path is
      guarded and the file served. */
  function FileOf(found: Option<Score>, root: seq<string>, isFile: string -> bool, sizeOf: string -> nat,
                  range: Option<string>): (r: Response)
    requires AllNames(root)
    ensures found.None? ==> r == Failure(404, NOT_FOUND)
    ensures found.Some? ==> r == ServeFile(SanitizePath(root, found.value.relativePath), isFile, sizeOf,
                                           found.value.filename, range)
    ensures r.FileBody? ==> found.Some? && SanitizePath(root, found.value.relativePath).Ok?
                            && isFile(SanitizePath(root, found.value.relativePath).value)
  {
    match found
    case None => Failure(404, NOT_FOUND)
    case Some(score) => ServeFile(SanitizePath(root, score.relativePath), isFile, sizeOf, score.filename, range)
  }

  /** The file route: the row the id names, looked up in the catalog. */
  function FileRoute(c: Catalog, root: seq<string>, isFile: string -> bool, sizeOf: string -> nat,
                     id: string, range: Option<string>): (r: Response)
    requires Valid(c) && AllNames(root)
    ensures (!exists p :: p in c && c[p].id == id) ==> r == Failure(404, NOT_FOUND)
    ensures r.FileBody? ==> exists p :: p in c && c[p].id == id
  {
    FileOf(GetById(c, id), root, isFile, sizeOf, range)
  }

  /** A catalogued file that is no longer on disk gets 404. */
  lemma FileGoneIsNotFound(score: Score, root: seq<string>, isFile: string -> bool, sizeOf: string -> nat,
                           range: Option<string>)
    requires AllNames(root)
    requires SanitizePath(root, score.relativePath).Ok?
    requires !isFile(SanitizePath(root, score.relativePath).value)
    ensures FileOf(Some(score), root, isFile, sizeOf, range) == Failure(404, GONE_FROM_DISK)
  {
  }

  lemma NoDashInDecimal(n: nat)
    ensures '-' !in Decimal(n)
  {
    var d := Decimal(n);
    forall i | 0 <= i < |d|
      ensures d[i] != '-'
    {
    }
  }

  /** The pieces of a Range header "bytes=A-B" with no dash in A. */
  lemma RangePieces(a: string, b: string)
    requires '-' !in a
    ensures Split(RemoveFirst("bytes=" + a + "-" + b, "bytes="), '-') == [a] + Split(b, '-')
  {
    assert "bytes=" + a + "-" + b == "bytes=" + (a + ['-'] + b);
    RemoveFirstAtStart("bytes=", a + ['-'] + b);
    SplitPrefix(a, b, '-');
  }

  /** "bytes=S-E" is read back as S and E. */
  lemma ClosedRangeParsing(s: nat, e: nat, size: nat)
    ensures ParseRange("bytes=" + Decimal(s) + "-" + Decimal(e), size) == ByteRange(Int(s), Int(e))
  {
    NoDashInDecimal(s);
    NoDashInDecimal(e);
    var header := "bytes=" + Decimal(s) + "-" + Decimal(e);
    RangePieces(Decimal(s), Decimal(e));
    SplitNoSep(Decimal(e), '-');
    assert Split(RemoveFirst(header, "bytes="), '-') == [Decimal(s), Decimal(e)];
    assert Decimal(e) != "";
    DecimalRoundTrip(s);
    DecimalRoundTrip(e);
  }

  /** "bytes=S-" is read back as S and the last byte of the file. */
  lemma OpenRangeParsing(s: nat, size: nat)
    ensures ParseRange("bytes=" + Decimal(s) + "-", size) == ByteRange(Int(s), Int(size - 1))
  {
    NoDashInDecimal(s);
    RangePieces(Decimal(s), "");
    assert "bytes=" + Decimal(s) + "-" + "" == "bytes=" + Decimal(s) + "-";
    DecimalRoundTrip(s);
  }

  /** The 206 head for the integer bounds S and E. */
  lemma PartialContentOf(s: int, e: int, size: nat, mime: string)
    ensures RangeHead(ByteRange(Int(s), Int(e)), size, mime)
              == FileBody(206, FileHeaders(Some("bytes " + Decimal(s) + "-" + Decimal(e) + "/" + Decimal(size)),
                                           Int(e - s + 1), mime, "bytes"))
  {
  }

  /** Bounds S <= E that are safe integers are served with the head for S and E. */
  lemma ServedAnswer(s: int, e: int, size: nat, mime: string)
    requires 0 <= s <= e <= MAX_SAFE_INTEGER
    ensures RangeAnswer(ByteRange(Int(s), Int(e)), size, mime)
              == FileBody(206, FileHeaders(Some("bytes " + Decimal(s) + "-" + Decimal(e) + "/" + Decimal(size)),
                                           Int(e - s + 1), mime, "bytes"))
  {
    PartialContentOf(s, e, size, mime);
  }

  /** With a Range header "bytes=S-E" the answer is 206 with Content-Range
      "bytes S-E/size" and Content-Length E-S+1 when S <= E and E is a safe
      integer; neither bound is checked against the file size. A reversed
      range, or one past `Number.MAX_SAFE_INTEGER`, makes the read stream
      throw after the 206 head is written, and the connection drops. */
  lemma RangeResponse(s: nat, e: nat, size: nat, mime: string)
    ensures RangeAnswer(ParseRange("bytes=" + Decimal(s) + "-" + Decimal(e), size), size, mime)
              == if s <= e <= MAX_SAFE_INTEGER then
                   FileBody(206, FileHeaders(Some("bytes " + Decimal(s) + "-" + Decimal(e) + "/" + Decimal(size)),
                                             Int(e - s + 1), mime, "bytes"))
                 else ConnectionDropped
  {
    ClosedRangeParsing(s, e, size);
    if s <= e <= MAX_SAFE_INTEGER {
      ServedAnswer(s, e, size, mime);
    }
  }

  /** An open-ended range "bytes=S-" runs to the last byte of the file; it
      is served when S lies inside the file, and drops the connection when
      S is at or past the end (the end bound, size-1, is then below S) or
      the last byte lies past `Number.MAX_SAFE_INTEGER`. */
  lemma OpenRangeResponse(s: nat, size: nat, mime: string)
    ensures RangeAnswer(ParseRange("bytes=" + Decimal(s) + "-", size), size, mime)
              == if s < size <= MAX_SAFE_INTEGER + 1 then
                   FileBody(206, FileHeaders(Some("bytes " + Decimal(s) + "-" + Decimal(size - 1) + "/" + Decimal(size)),
                                             Int(size - s), mime, "bytes"))
                 else ConnectionDropped
  {
    OpenRangeParsing(s, size);
    if s < size <= MAX_SAFE_INTEGER + 1 {
      ServedToEnd(s, size, mime);
    }
  }

  /** A start inside the file, with the last byte as the end, is served
      with the rest of the file. */
  lemma ServedToEnd(s: nat, size: nat, mime: string)
    requires s < size <= MAX_SAFE_INTEGER + 1
    ensures RangeAnswer(ByteRange(Int(s), Int(size - 1)), size, mime)
              == FileBody(206, FileHeaders(Some("bytes " + Decimal(s) + "-" + Decimal(size - 1) + "/" + Decimal(size)),
                                           Int(size - s), mime, "bytes"))
  {
    ServedAnswer(s, size - 1, size, mime);
    assert size - 1 - s + 1 == size - s;
  }

  /** A suffix range "bytes=-N" has no start digits: the start is NaN, and
      so is the Content-Length; the read stream rejects the NaN start, so
      the connection drops. */
  lemma SuffixRangeHasNoStart(n: nat, size: nat, mime: string)
    ensures ParseRange("bytes=-" + Decimal(n), size).start == NaN
    ensures ChunkSize(ParseRange("bytes=-" + Decimal(n), size).start,
                      ParseRange("bytes=-" + Decimal(n), size).end) == NaN
    ensures RangeAnswer(ParseRange("bytes=-" + Decimal(n), size), size, mime) == ConnectionDropped
  {
    RangePieces("", Decimal(n));
    assert "bytes=" + "" + "-" + Decimal(n) == "bytes=-" + Decimal(n);
    assert ParseInt("", Some(10)) == NaN;
  }

  // ---------------------------------------------------------------------------
  // POST /api/scores/scan

  /** The message a failed scan throws with. The busy message holds the
      text the route looks for, a store error's message does not, and a
      file-system error carries Node's message, which names the path. */
  function ScanErrorMessage(e: ScanError): (m: string)
    ensures e.ReadFailed? ==> m == e.message
    ensures Contains(m, "bereits in Bearbeitung") <==>
              e == ScanBusy || (e.ReadFailed? && Contains(e.message, "bereits in Bearbeitung"))
  {
    match e
    case ScanBusy => BusyMessageMatches(); BUSY_MESSAGE
    case StoreFailed(_) =>
      NotContainsByFirstChar("UNIQUE constraint failed: scores.id", "bereits in Bearbeitung");
      "UNIQUE constraint failed: scores.id"
    case ReadFailed(message) => message
  }

  /** The scan route: the counters on success; an error whose message
      contains "bereits in Bearbeitung" becomes 409, any other is rethrown
      and answered with 500. */
  function ScanRoute(outcome: Result<ScanStats, ScanError>): (r: Response)
    ensures outcome.Ok? <==> r.ScanCompleted?
    ensures outcome.Ok? ==> r == ScanCompleted(outcome.value)
    ensures r.Failure? ==> r.message == ScanErrorMessage(outcome.error)
    ensures r.Failure? ==> (r.status == 409 <==> Contains(r.message, "bereits in Bearbeitung"))
  {
    match outcome
    case Ok(stats) => ScanCompleted(stats)
    case Err(e) =>
      var message := ScanErrorMessage(e);
      if Contains(message, "bereits in Bearbeitung") then Failure(409, message) else Failure(500, message)
  }

  lemma BusyMessageMatches()
    ensures Contains(BUSY_MESSAGE, "bereits in Bearbeitung")
  {
    assert BUSY_MESSAGE[5..] == "bereits in Bearbeitung";
    assert OccursAt(BUSY_MESSAGE, "bereits in Bearbeitung", 5);
  }

  /** 409 is answered exactly when the scanner was already busy, or when a
      file-system error's message happens to hold the busy text. */
  lemma ConflictMeansBusy(outcome: Result<ScanStats, ScanError>)
    ensures (ScanRoute(outcome).Failure? && ScanRoute(outcome).status == 409)
              <==> (outcome == Err(ScanBusy)
                    || (outcome.Err? && outcome.error.ReadFailed?
                        && Contains(outcome.error.message, "bereits in Bearbeitung")))
  {
    BusyMessageMatches();
    NotContainsByFirstChar("UNIQUE constraint failed: scores.id", "bereits in Bearbeitung");
  }

  /** Node's message for a folder that cannot be listed names the folder. */
  const UNLISTABLE_MESSAGE := "EACCES: permission denied, scandir '/notes/Scan " + "bereits in Bearbeitung" + "'"

  /** A scanner that is not busy still answers 409 when the folder it cannot
      list is called "Scan bereits in Bearbeitung". */
  lemma UnlistableFolderAnswersConflict(c: Catalog, pages: string -> Option<nat>, now: string)
    ensures var r := ScanDirectory(false, [Unreadable("Scan bereits in Bearbeitung", UNLISTABLE_MESSAGE)], c, pages, now);
            !r.isScanning && r.catalog == c
            && ScanRoute(r.outcome) == Failure(409, UNLISTABLE_MESSAGE)
  {
    ContainsInMiddle("EACCES: permission denied, scandir '/notes/Scan ", "bereits in Bearbeitung", "'");
  }

  /** The scan request as a whole: a second request while a scan runs gets
      409 and leaves the catalog and the flag as they were. */
  lemma ScanWhileBusy(root: seq<Entry>, c: Catalog, pages: string -> Option<nat>, now: string)
    ensures var r := ScanDirectory(true, root, c, pages, now);
            ScanRoute(r.outcome) == Failure(409, BUSY_MESSAGE) && r.catalog == c && r.isScanning
  {
    ConflictMeansBusy(Err(ScanBusy));
  }
}

=== FILE: scanner.dfy ===
/** The reconciliation scanner. The directory tree under the indexed root
    is an input value, the PDF page counter is a function parameter, and the
    clock reading used for `indexedAt` is a parameter too. A scan walks the
    tree depth-first in directory order, indexes every regular file whose
    name ends in ".pdf" (ignoring case), and finally deletes the rows of
    files it did not see. The `isScanning` guard is a plain flag passed in
    and handed back. */
module Scanner {
  import opened Results
  import opened Text
  import opened Paths
  import opened Catalog

  /** A directory entry as `readdirSync(..., { withFileTypes: true })`
      reports it; `Other` stands for anything neither a directory nor a
      regular file (symbolic links, sockets, ...). `mtime` is the
      modification time as `toISOString` renders it. `Unreadable` is an
      entry at which the file system throws once the walk reaches it: a
      directory `readdirSync` cannot list, or a PDF file gone before
      `statSync`; `message` is the message Node gives the error, built from
      the error code, the call and the path. A root that cannot be listed
      is a tree whose first entry is `Unreadable`. */
  datatype Entry =
    | File(name: string, size: nat, mtime: string)
    | Dir(name: string, entries: seq<Entry>)
    | Other(name: string)
    | Unreadable(name: string, message: string)

  /** `name.toLowerCase().endsWith('.pdf')`. */
  predicate IsPdfName(name: string)
    ensures IsPdfName(name) ==> |name| >= 4 && '.' in name
  {
    EndsWith(Lower(name), ".pdf") && assert Lower(name)[|name| - 4] == '.'; true
  }

  /** A PDF file met by the walk: its path relative to the root, its size
      and its modification time. */
  datatype Found = Found(rel: string, size: nat, mtime: string)

  /** The message of the first error the walk of `entries` meets, in walk
      order, or `None` when it meets none. */
  function FirstFailure(entries: seq<Entry>): (r: Option<string>)
    decreases entries
  {
    if |entries| == 0 then None
    else
      match entries[0]
      case Unreadable(_, message) => Some(message)
      case Dir(_, children) =>
        if FirstFailure(children).Some? then FirstFailure(children) else FirstFailure(entries[1..])
      case _ => FirstFailure(entries[1..])
  }

  /** The walk throws at this entry or somewhere below it. */
  predicate Throws(e: Entry) {
    e.Unreadable? || (e.Dir? && FirstFailure(e.entries).Some?)
  }

  /** Independent description of a tree the walk gets through: no entry
      anywhere in it is unreadable. */
  predicate Readable(entries: seq<Entry>)
    decreases entries
  {
    forall i :: 0 <= i < |entries| ==>
      !entries[i].Unreadable? && (entries[i].Dir? ==> Readable(entries[i].entries))
  }

  /** The walk meets an error exactly when the tree holds an unreadable
      entry. */
  lemma {:induction false} FailsExactlyWhenUnreadable(entries: seq<Entry>)
    ensures FirstFailure(entries).None? <==> Readable(entries)
    decreases entries
  {
    if |entries| > 0 {
      var e := entries[0];
      FailsExactlyWhenUnreadable(entries[1..]);
      if e.Dir? {
        FailsExactlyWhenUnreadable(e.entries);
      }
      ReadableCons(entries);
    }
  }

  lemma ReadableCons(entries: seq<Entry>)
    requires |entries| > 0
    ensures Readable(entries) <==>
              !entries[0].Unreadable? && (entries[0].Dir? ==> Readable(entries[0].entries))
              && Readable(entries[1..])
  {
    assert forall k :: 0 <= k < |entries[1..]| ==> entries[1..][k] == entries[k + 1];
  }

  /** `scanRecursive`: the PDF files below `entries`, which lie in the
      directory `dir` (relative to the root), in the order they are met.
      An error thrown at an entry ends the walk there, so only the files
      met before it are reported. */
  function Walk(entries: seq<Entry>, dir: string): (r: seq<Found>)
    ensures forall f :: f in r ==> IsPdfName(f.rel)
    decreases entries
  {
    if |entries| == 0 then []
    else
      var here :=
        match entries[0]
        case Dir(name, children) => Walk(children, Child(dir, name))
        case File(name, size, mtime) =>
          (PdfTestOnRelativePath(dir, name);
           if IsPdfName(name) then [Found(Child(dir, name), size, mtime)] else [])
        case Other(_) => []
        case Unreadable(_, _) => [];
      if Throws(entries[0]) then here else here + Walk(entries[1..], dir)
  }

  /** Independent description of the walk's findings: the tree holds, at
      relative path `rel`, a regular file with a PDF name, this size and
      this modification time. */
  predicate HoldsPdf(entries: seq<Entry>, dir: string, f: Found)
    decreases entries
  {
    exists i :: 0 <= i < |entries| && HoldsPdfAt(entries, i, dir, f)
  }

  predicate HoldsPdfAt(entries: seq<Entry>, i: int, dir: string, f: Found)
    requires 0 <= i < |entries|
    decreases entries, 0
  {
    match entries[i]
    case File(name, size, mtime) =>
      IsPdfName(name) && f == Found(Child(dir, name), size, mtime)
    case Dir(name, children) => HoldsPdf(children, Child(dir, name), f)
    case Other(_) => false
    case Unreadable(_, _) => false
  }

  lemma HoldsPdfWitness(entries: seq<Entry>, dir: string, f: Found)
    requires HoldsPdf(entries, dir, f)
    ensures exists i :: 0 <= i < |entries| && HoldsPdfAt(entries, i, dir, f)
  {
  }

  /** The walk reports only PDF files the tree holds, and, when it meets no
      error, all of them. */
  lemma WalkFindsExactlyPdfs(entries: seq<Entry>, dir: string, f: Found)
    ensures f in Walk(entries, dir) ==> HoldsPdf(entries, dir, f)
    ensures FirstFailure(entries).None? ==> (f in Walk(entries, dir) <==> HoldsPdf(entries, dir, f))
  {
    WalkSound(entries, dir, f);
    WalkComplete(entries, dir, f);
  }

  lemma {:induction false} WalkSound(entries: seq<Entry>, dir: string, f: Found)
    ensures f in Walk(entries, dir) ==> HoldsPdf(entries, dir, f)
    decreases entries
  {
    if |entries| > 0 {
      var e := entries[0];
      HoldsPdfCons(entries, dir, f);
      WalkUnfold(entries, dir);
      if e.Dir? {
        WalkSound(e.entries, Child(dir, e.name), f);
      }
      if !Throws(e) {
        WalkSound(entries[1..], dir, f);
      }
    }
  }

  lemma {:induction false} WalkComplete(entries: seq<Entry>, dir: string, f: Found)
    ensures FirstFailure(entries).None? && HoldsPdf(entries, dir, f) ==> f in Walk(entries, dir)
    decreases entries
  {
    if |entries| > 0 && FirstFailure(entries).None? {
      var e := entries[0];
      NoFailureCons(entries);
      HoldsPdfCons(entries, dir, f);
      WalkUnfold(entries, dir);
      if e.Dir? {
        WalkComplete(e.entries, Child(dir, e.name), f);
      }
      WalkComplete(entries[1..], dir, f);
    }
  }

  /** A walk that meets no error meets none at its first entry and none in
      the entries after it. */
  lemma NoFailureCons(entries: seq<Entry>)
    requires |entries| > 0 && FirstFailure(entries).None?
    ensures !Throws(entries[0]) && FirstFailure(entries[1..]).None?
    ensures entries[0].Dir? ==> FirstFailure(entries[0].entries).None?
  {
  }

  /** The tree holds a file exactly when its first entry or the entries
      after it hold it. */
  lemma HoldsPdfCons(entries: seq<Entry>, dir: string, f: Found)
    requires |entries| > 0
    ensures HoldsPdf(entries, dir, f) <==> HoldsPdfAt(entries, 0, dir, f) || HoldsPdf(entries[1..], dir, f)
  {
    if HoldsPdf(entries, dir, f) {
      HoldsPdfWitness(entries, dir, f);
      var i :| 0 <= i < |entries| && HoldsPdfAt(entries, i, dir, f);
      if i > 0 {
        assert entries[1..][i - 1] == entries[i];
        assert HoldsPdfAt(entries[1..], i - 1, dir, f);
      }
    }
    if HoldsPdf(entries[1..], dir, f) {
      HoldsPdfWitness(entries[1..], dir, f);
      var i :| 0 <= i < |entries[1..]| && HoldsPdfAt(entries[1..], i, dir, f);
      assert entries[1..][i] == entries[i + 1];
      assert HoldsPdfAt(entries, i + 1, dir, f);
    }
  }

  /** The relative paths of a list of findings. */
  function PathsOf(files: seq<Found>): (ps: set<string>)
    ensures forall p :: p in ps <==> exists i :: 0 <= i < |files| && files[i].rel == p
  {
    set i | 0 <= i < |files| :: files[i].rel
  }

  lemma PathsOfCons(files: seq<Found>)
    requires |files| > 0
    ensures PathsOf(files) == {files[0].rel} + PathsOf(files[1..])
  {
    forall p | p in PathsOf(files)
      ensures p in {files[0].rel} + PathsOf(files[1..])
    {
      var i :| 0 <= i < |files| && files[i].rel == p;
      if i > 0 {
        assert files[1..][i - 1] == files[i];
      }
    }
    forall p | p in PathsOf(files[1..])
      ensures p in PathsOf(files)
    {
      var i :| 0 <= i < |files[1..]| && files[1..][i].rel == p;
      assert files[i + 1] == files[1..][i];
    }
  }

  predicate DistinctPaths(files: seq<Found>) {
    forall i, j :: 0 <= i < j < |files| ==> files[i].rel != files[j].rel
  }

  /** A directory tree as a file system lists it: within each directory the
      entry names are non-empty, free of '/', and pairwise different. */
  predicate WellFormedTree(entries: seq<Entry>)
    decreases entries
  {
    (forall i, j :: 0 <= i < j < |entries| ==> entries[i].name != entries[j].name)
    && (forall i :: 0 <= i < |entries| ==> entries[i].name != "" && '/' !in entries[i].name)
    && (forall i :: 0 <= i < |entries| && entries[i].Dir? ==> WellFormedTree(entries[i].entries))
  }

  lemma WellFormedTail(entries: seq<Entry>)
    requires |entries| > 0 && WellFormedTree(entries)
    ensures WellFormedTree(entries[1..])
  {
    assert forall k :: 0 <= k < |entries[1..]| ==> entries[1..][k] == entries[k + 1];
  }

  /** `p` is the path `q` or a path inside it. */
  predicate Below(p: string, q: string) {
    p == q || StartsWith(p, q + "/")
  }

  /** What precedes an entry name in the relative path of an entry of `dir`. */
  function DirPrefix(dir: string): (r: string)
    ensures forall name :: Child(dir, name) == r + name
  {
    if dir == "" then "" else dir + "/"
  }

  /** Below the entry `name` of `dir`, the first segment after the directory
      prefix is `name`. */
  lemma SegmentAfter(dir: string, name: string, p: string)
    requires '/' !in name && Below(p, Child(dir, name))
    ensures DirPrefix(dir) <= p && Split(p[|DirPrefix(dir)|..], '/')[0] == name
  {
    var pre := DirPrefix(dir);
    if p == pre + name {
      assert p[|pre|..] == name;
      SplitNoSep(name, '/');
    } else {
      var x := p[|pre| + |name| + 1..];
      assert p == pre + name + "/" + x;
      assert p[|pre|..] == name + ['/'] + x;
      SplitPrefix(name, x, '/');
    }
  }

  lemma BelowChildOfChild(dir: string, name: string, inner: string, p: string)
    requires name != "" && Below(p, Child(Child(dir, name), inner))
    ensures Below(p, Child(dir, name))
  {
    var q := Child(dir, name);
    assert Child(q, inner) == q + "/" + inner;
    assert q + "/" <= Child(q, inner);
  }

  /** The PDF files the walk finds at one entry of `dir`. */
  function EntryFinds(e: Entry, dir: string): seq<Found> {
    match e
    case Dir(name, children) => Walk(children, Child(dir, name))
    case File(name, size, mtime) => if IsPdfName(name) then [Found(Child(dir, name), size, mtime)] else []
    case Other(_) => []
    case Unreadable(_, _) => []
  }

  lemma WalkUnfold(entries: seq<Entry>, dir: string)
    requires |entries| > 0
    ensures !Throws(entries[0]) ==> Walk(entries, dir) == EntryFinds(entries[0], dir) + Walk(entries[1..], dir)
    ensures Throws(entries[0]) ==> Walk(entries, dir) == EntryFinds(entries[0], dir)
  {
  }

  /** Every path found at one entry lies inside that entry. */
  lemma EntryBelow(e: Entry, dir: string, f: Found)
    requires e.name != "" && (e.Dir? ==> WellFormedTree(e.entries)) && f in EntryFinds(e, dir)
    ensures Below(f.rel, Child(dir, e.name))
    decreases e, 1
  {
    if e.Dir? {
      WalkBelow(e.entries, Child(dir, e.name), f);
      var j :| 0 <= j < |e.entries| && Below(f.rel, Child(Child(dir, e.name), e.entries[j].name));
      BelowChildOfChild(dir, e.name, e.entries[j].name, f.rel);
    }
  }

  /** Every path the walk finds lies inside one of the listed entries. */
  lemma {:induction false} WalkBelow(entries: seq<Entry>, dir: string, f: Found)
    requires WellFormedTree(entries) && f in Walk(entries, dir)
    ensures exists i :: 0 <= i < |entries| && Below(f.rel, Child(dir, entries[i].name))
    decreases entries, 0
  {
    WalkUnfold(entries, dir);
    if !Throws(entries[0]) && f in Walk(entries[1..], dir) {
      WellFormedTail(entries);
      WalkBelow(entries[1..], dir, f);
      var k :| 0 <= k < |entries[1..]| && Below(f.rel, Child(dir, entries[1..][k].name));
      assert entries[1..][k] == entries[k + 1];
    } else {
      EntryBelow(entries[0], dir, f);
    }
  }

  lemma DistinctAppend(a: seq<Found>, b: seq<Found>)
    requires DistinctPaths(a) && DistinctPaths(b)
    requires forall x, y :: x in a && y in b ==> x.rel != y.rel
    ensures DistinctPaths(a + b)
  {
    forall i, j | 0 <= i < j < |a + b|
      ensures (a + b)[i].rel != (a + b)[j].rel
    {
      if i < |a| && |a| <= j {
        assert (a + b)[i] in a && (a + b)[j] in b;
      }
    }
  }

  /** A real directory tree never yields the same relative path twice. */
  lemma {:induction false} WalkPathsDistinct(entries: seq<Entry>, dir: string)
    requires WellFormedTree(entries)
    ensures DistinctPaths(Walk(entries, dir))
    decreases entries
  {
    if |entries| > 0 {
      var here, rest := EntryFinds(entries[0], dir), Walk(entries[1..], dir);
      WalkUnfold(entries, dir);
      WellFormedTail(entries);
      WalkPathsDistinct(entries[1..], dir);
      var name := entries[0].name;
      if entries[0].Dir? {
        WalkPathsDistinct(entries[0].entries, Child(dir, name));
      }
      forall x, y | x in here && y in rest
        ensures x.rel != y.rel
      {
        EntryBelow(entries[0], dir, x);
        WalkBelow(entries[1..], dir, y);
        var k :| 0 <= k < |entries[1..]| && Below(y.rel, Child(dir, entries[1..][k].name));
        assert entries[1..][k] == entries[k + 1];
        if x.rel == y.rel {
          SegmentAfter(dir, name, x.rel);
          SegmentAfter(dir, entries[k + 1].name, y.rel);
          assert false;
        }
      }
      DistinctAppend(here, rest);
    }
  }


  // ---------------------------------------------------------------------------
  // indexFile

  datatype Change = Unchanged | Added | Updated

  /** The rows the scanner writes describe their own path: the file name is
      the path's base name and the folder its parent ("" at the root). */
  predicate WellShaped(c: Catalog) {
    forall p :: p in c ==> c[p].filename == BaseName(p) && c[p].folder == ParentFolder(p)
  }

  /** The row `indexFile` writes for a file. */
  function RowFor(f: Found, pages: string -> Option<nat>): NewScore {
    NewScore(BaseName(f.rel), f.rel, ParentFolder(f.rel), f.size, f.mtime, pages(f.rel))
  }

  /** `indexFile`: a file whose row already records its modification time
      is left alone; any other file is upserted with a fresh page count and
      counts as added when it had no row and as updated otherwise. */
  function IndexFile(c: Catalog, f: Found, pages: string -> Option<nat>, now: string)
    : (r: Result<(Catalog, Change), DbError>)
    ensures r.Ok? && r.value.1 == Unchanged <==> f.rel in c && c[f.rel].modifiedAt == f.mtime
    ensures r.Ok? && r.value.1 == Unchanged ==> r.value.0 == c
    ensures r.Ok? && r.value.1 == Added ==> f.rel !in c
    ensures r.Ok? && r.value.1 == Updated ==> f.rel in c && c[f.rel].modifiedAt != f.mtime
    ensures r.Ok? ==> f.rel in r.value.0 && r.value.0[f.rel].modifiedAt == f.mtime
    ensures r.Ok? ==> r.value.0.Keys == c.Keys + {f.rel}
    ensures r.Ok? ==> forall q :: q != f.rel && q in c ==> r.value.0[q] == c[q]
    ensures r.Err? ==> f.rel !in c
  {
    if f.rel in c && c[f.rel].modifiedAt == f.mtime then
      Ok((c, Unchanged))
    else
      var u := Upsert(c, RowFor(f, pages), now);
      if u.Err? then Err(u.error)
      else Ok((u.value.0, if f.rel in c then Updated else Added))
  }

  /** Indexing keeps the table invariants and the shape of the rows. */
  lemma IndexFileKeepsInvariants(c: Catalog, f: Found, pages: string -> Option<nat>, now: string)
    requires Valid(c) && WellShaped(c)
    requires IndexFile(c, f, pages, now).Ok?
    ensures Valid(IndexFile(c, f, pages, now).value.0)
    ensures WellShaped(IndexFile(c, f, pages, now).value.0)
  {
    if !(f.rel in c && c[f.rel].modifiedAt == f.mtime) {
      var u := Upsert(c, RowFor(f, pages), now);
      assert IndexFile(c, f, pages, now).value.0 == u.value.0;
      UpsertKeepsValid(c, RowFor(f, pages), now);
      UpsertKeepsShape(c, f, pages, now);
    }
  }

  /** The row an upsert writes for a file derives its name and folder from
      the file's path, as every other row already does. */
  lemma UpsertKeepsShape(c: Catalog, f: Found, pages: string -> Option<nat>, now: string)
    requires WellShaped(c) && Upsert(c, RowFor(f, pages), now).Ok?
    ensures WellShaped(Upsert(c, RowFor(f, pages), now).value.0)
  {
    var c' := Upsert(c, RowFor(f, pages), now).value.0;
    forall q | q in c'
      ensures c'[q].filename == BaseName(q) && c'[q].folder == ParentFolder(q)
    {
      if q != f.rel {
        assert q in c && c'[q] == c[q];
      }
    }
  }

  // ---------------------------------------------------------------------------
  // scanDirectory

  /** How far indexing a list of files got: the catalog, the counters, and
      the store error that stopped it, if one did. */
  datatype Progress = Progress(catalog: Catalog, added: nat, updated: nat, failure: Option<DbError>)

  /** Indexes the files one after the other, stopping at the first store
      error; rows written before the error stay written. */
  function IndexAll(c: Catalog, files: seq<Found>, pages: string -> Option<nat>, now: string): (r: Progress)
    ensures r.added + r.updated <= |files|
    ensures c.Keys <= r.catalog.Keys
    ensures r.failure.None? ==> r.catalog.Keys == c.Keys + PathsOf(files)
    ensures forall q :: q !in PathsOf(files) ==> (q in r.catalog <==> q in c)
    ensures forall q :: q !in PathsOf(files) && q in c ==> r.catalog[q] == c[q]
    decreases |files|
  {
    if |files| == 0 then Progress(c, 0, 0, None)
    else
      match IndexFile(c, files[0], pages, now)
      case Err(e) => Progress(c, 0, 0, Some(e))
      case Ok((c', change)) =>
        var rest := IndexAll(c', files[1..], pages, now);
        IndexStepFrame(c, c', files, rest.catalog, rest.failure.None?);
        Progress(rest.catalog,
                 rest.added + (if change == Added then 1 else 0),
                 rest.updated + (if change == Updated then 1 else 0),
                 rest.failure)
  }

  /** The rows the first file leaves, followed by the rows the rest of the
      pass leaves, give the rows of the whole pass. */
  lemma IndexStepFrame(c: Catalog, c': Catalog, files: seq<Found>, rc: Catalog, completed: bool)
    requires |files| > 0
    requires c'.Keys == c.Keys + {files[0].rel}
    requires forall q :: q != files[0].rel && q in c ==> c'[q] == c[q]
    requires completed ==> rc.Keys == c'.Keys + PathsOf(files[1..])
    requires forall q :: q !in PathsOf(files[1..]) ==> (q in rc <==> q in c')
    requires forall q :: q !in PathsOf(files[1..]) && q in c' ==> rc[q] == c'[q]
    ensures completed ==> rc.Keys == c.Keys + PathsOf(files)
    ensures forall q :: q !in PathsOf(files) ==> (q in rc <==> q in c)
    ensures forall q :: q !in PathsOf(files) && q in c ==> rc[q] == c[q]
  {
    PathsOfCons(files);
  }

  lemma {:induction false} IndexAllKeepsInvariants(c: Catalog, files: seq<Found>, pages: string -> Option<nat>, now: string)
    requires Valid(c) && WellShaped(c)
    ensures Valid(IndexAll(c, files, pages, now).catalog)
    ensures WellShaped(IndexAll(c, files, pages, now).catalog)
    decreases |files|
  {
    if |files| > 0 && IndexFile(c, files[0], pages, now).Ok? {
      IndexFileKeepsInvariants(c, files[0], pages, now);
      IndexAllKeepsInvariants(IndexFile(c, files[0], pages, now).value.0, files[1..], pages, now);
    }
  }

  /** The scan's second phase: the rows whose path was not found go. */
  function RemoveMissing(c: Catalog, found: set<string>): (r: Catalog)
    ensures r.Keys == c.Keys * found
    ensures forall p :: p in r ==> r[p] == c[p]
  {
    map p | p in c && p in found :: c[p]
  }

  datatype ScanStats = ScanStats(scanned: nat, added: nat, updated: nat, removed: nat)

  datatype ScanError =
    | ScanBusy      // "Scan bereits in Bearbeitung"
    | StoreFailed(cause: DbError)
    | ReadFailed(message: string)   // `readdirSync` or `statSync` threw

  /** The message a busy scanner throws with. */
  const BUSY_MESSAGE := "Scan bereits in Bearbeitung"

  /** The result of `scanDirectory`, the catalog afterwards and the value of
      the `isScanning` flag afterwards. */
  datatype ScanResult = ScanResult(outcome: Result<ScanStats, ScanError>, catalog: Catalog, isScanning: bool)

  /** `scanDirectory()` over the tree `root`. The files the walk meets are
      indexed as it meets them, so an error the walk throws comes after all
      of them: a store error among them is thrown first; otherwise the
      walk's error is, with the rows already written kept and nothing
      removed. */
  function ScanDirectory(isScanning: bool, root: seq<Entry>, c: Catalog,
                         pages: string -> Option<nat>, now: string): (r: ScanResult)
    ensures isScanning ==> r == ScanResult(Err(ScanBusy), c, true)
    ensures !isScanning ==> !r.isScanning && r.outcome != Err(ScanBusy)
    ensures r.outcome.Ok? ==> Readable(root)
    ensures r.outcome.Err? ==> c.Keys <= r.catalog.Keys
    ensures r.outcome.Err? && r.outcome.error.ReadFailed? ==> FirstFailure(root) == Some(r.outcome.error.message)
    ensures r.outcome.Ok? ==> r.catalog.Keys == PathsOf(Walk(root, ""))
    ensures r.outcome.Ok? ==> r.outcome.value.scanned == |Walk(root, "")|
    ensures r.outcome.Ok? ==> r.outcome.value.removed == |c.Keys - PathsOf(Walk(root, ""))|
    ensures r.outcome.Ok? ==> r.outcome.value.added + r.outcome.value.updated <= r.outcome.value.scanned
  {
    if isScanning then ScanResult(Err(ScanBusy), c, true)
    else
      var files := Walk(root, "");
      FailsExactlyWhenUnreadable(root);
      Reconcile(c, files, IndexAll(c, files, pages, now), FirstFailure(root))
  }

  /** The end of a scan, once the files the walk met are indexed: a store
      error is rethrown; otherwise the walk's own error, if it met one, is
      rethrown with nothing removed; otherwise the rows of files not found
      are removed and the counters reported. */
  function Reconcile(c: Catalog, files: seq<Found>, progress: Progress, walkError: Option<string>): (r: ScanResult)
    requires progress.added + progress.updated <= |files|
    requires c.Keys <= progress.catalog.Keys
    requires progress.failure.None? ==> progress.catalog.Keys == c.Keys + PathsOf(files)
    ensures !r.isScanning && r.outcome != Err(ScanBusy)
    ensures r.outcome.Ok? ==> walkError.None?
    ensures r.outcome.Err? ==> c.Keys <= r.catalog.Keys
    ensures r.outcome.Err? && r.outcome.error.ReadFailed? ==> walkError == Some(r.outcome.error.message)
    ensures r.outcome.Ok? ==> r.catalog.Keys == PathsOf(files)
    ensures r.outcome.Ok? ==> r.outcome.value.scanned == |files|
    ensures r.outcome.Ok? ==> r.outcome.value.removed == |c.Keys - PathsOf(files)|
    ensures r.outcome.Ok? ==> r.outcome.value.added + r.outcome.value.updated <= r.outcome.value.scanned
  {
    match progress.failure
    case Some(e) => ScanResult(Err(StoreFailed(e)), progress.catalog, false)
    case None =>
      if walkError.Some? then ScanResult(Err(ReadFailed(walkError.value)), progress.catalog, false)
      else Completed(c, files, progress)
  }

  /** After indexing, the catalog holds every path found, and the paths not
      found are those it held before. */
  lemma KeptAndRemoved(before: set<string>, after: set<string>, found: set<string>)
    requires after == before + found
    ensures after - found == before - found
    ensures after * found == found
  {
  }

  /** The end of a scan that met no error: the rows of files not found go,
      and as many are counted as removed as the catalog held before the
      scan. */
  function Completed(c: Catalog, files: seq<Found>, progress: Progress): (r: ScanResult)
    requires progress.added + progress.updated <= |files|
    requires progress.failure.None? && progress.catalog.Keys == c.Keys + PathsOf(files)
    ensures r.outcome.Ok? && !r.isScanning
    ensures r.catalog == RemoveMissing(progress.catalog, PathsOf(files))
    ensures r.catalog.Keys == PathsOf(files)
    ensures r.outcome.value.scanned == |files|
    ensures r.outcome.value.removed == |c.Keys - PathsOf(files)|
    ensures r.outcome.value.added + r.outcome.value.updated <= r.outcome.value.scanned
  {
    var found := PathsOf(files);
    KeptAndRemoved(c.Keys, progress.catalog.Keys, found);
    ScanResult(Ok(ScanStats(|files|, progress.added, progress.updated,
                            |progress.catalog.Keys - found|)),
               RemoveMissing(progress.catalog, found), false)
  }

  /** A scan keeps the table invariants and the shape of the rows, whether it
      completes or stops at a store error. */
  lemma ScanKeepsInvariants(isScanning: bool, root: seq<Entry>, c: Catalog,
                            pages: string -> Option<nat>, now: string)
    requires Valid(c) && WellShaped(c)
    ensures Valid(ScanDirectory(isScanning, root, c, pages, now).catalog)
    ensures WellShaped(ScanDirectory(isScanning, root, c, pages, now).catalog)
  {
    if !isScanning {
      var files := Walk(root, "");
      var progress := IndexAll(c, files, pages, now);
      IndexAllKeepsInvariants(c, files, pages, now);
      ReconcileKeepsInvariants(c, files, progress, FirstFailure(root));
    }
  }

  /** Removing the rows of files not found keeps the invariants. */
  lemma ReconcileKeepsInvariants(c: Catalog, files: seq<Found>, progress: Progress, walkError: Option<string>)
    requires progress.added + progress.updated <= |files|
    requires c.Keys <= progress.catalog.Keys
    requires progress.failure.None? ==> progress.catalog.Keys == c.Keys + PathsOf(files)
    requires Valid(progress.catalog) && WellShaped(progress.catalog)
    ensures Valid(Reconcile(c, files, progress, walkError).catalog)
    ensures WellShaped(Reconcile(c, files, progress, walkError).catalog)
  {
    if progress.failure.None? && walkError.None? {
      SubCatalogKeepsInvariants(progress.catalog, Reconcile(c, files, progress, walkError).catalog);
    }
  }

  /** Dropping rows keeps the invariants of the rows that stay. */
  lemma SubCatalogKeepsInvariants(c: Catalog, d: Catalog)
    requires Valid(c) && WellShaped(c)
    requires d.Keys <= c.Keys && forall p :: p in d ==> d[p] == c[p]
    ensures Valid(d) && WellShaped(d)
  {
  }

  /** After indexing files with distinct paths, each file's row records its
      modification time. */
  lemma {:induction false} IndexAllRecordsTimes(c: Catalog, files: seq<Found>, pages: string -> Option<nat>, now: string)
    requires DistinctPaths(files)
    requires IndexAll(c, files, pages, now).failure.None?
    ensures forall i :: 0 <= i < |files| ==>
              files[i].rel in IndexAll(c, files, pages, now).catalog
              && IndexAll(c, files, pages, now).catalog[files[i].rel].modifiedAt == files[i].mtime
    decreases |files|
  {
    if |files| > 0 {
      assert IndexFile(c, files[0], pages, now).Ok?;
      var c' := IndexFile(c, files[0], pages, now).value.0;
      var after := IndexAll(c', files[1..], pages, now);
      assert IndexAll(c, files, pages, now).catalog == after.catalog && after.failure.None?;
      DistinctPathsTail(files);
      IndexAllRecordsTimes(c', files[1..], pages, now);
      RecordsTimesStep(files, c', after.catalog);
    }
  }

  lemma DistinctPathsTail(files: seq<Found>)
    requires |files| > 0 && DistinctPaths(files)
    ensures DistinctPaths(files[1..]) && files[0].rel !in PathsOf(files[1..])
  {
    forall j | 0 <= j < |files[1..]|
      ensures files[1..][j].rel != files[0].rel
    {
      assert files[1..][j] == files[j + 1];
    }
  }

  /** The first file's row, kept by the rest of the pass, and the rows the
      rest of the pass records give the rows of the whole pass. */
  lemma RecordsTimesStep(files: seq<Found>, c': Catalog, r: Catalog)
    requires |files| > 0 && files[0].rel !in PathsOf(files[1..])
    requires files[0].rel in c' && c'[files[0].rel].modifiedAt == files[0].mtime
    requires forall q :: q !in PathsOf(files[1..]) ==> (q in r <==> q in c')
    requires forall q :: q !in PathsOf(files[1..]) && q in c' ==> r[q] == c'[q]
    requires forall i :: 0 <= i < |files[1..]| ==>
               files[1..][i].rel in r && r[files[1..][i].rel].modifiedAt == files[1..][i].mtime
    ensures forall i :: 0 <= i < |files| ==> files[i].rel in r && r[files[i].rel].modifiedAt == files[i].mtime
  {
    forall i | 0 < i < |files|
      ensures files[i] == files[1..][i - 1]
    {
    }
  }

  /** Indexing files whose rows already record their modification times
      writes nothing and counts nothing. */
  lemma {:induction false} IndexAllCurrent(c: Catalog, files: seq<Found>, pages: string -> Option<nat>, now: string)
    requires forall i :: 0 <= i < |files| ==> files[i].rel in c && c[files[i].rel].modifiedAt == files[i].mtime
    ensures IndexAll(c, files, pages, now) == Progress(c, 0, 0, None)
    decreases |files|
  {
    if |files| > 0 {
      IndexAllCurrent(c, files[1..], pages, now);
    }
  }

  /** Rescanning an unchanged tree finds nothing to add, update or remove and
      leaves the catalog as it was, whatever the clock and the page counter
      say the second time. */
  lemma RescanIsIdempotent(root: seq<Entry>, c: Catalog,
                           pages: string -> Option<nat>, now: string,
                           pages2: string -> Option<nat>, now2: string)
    requires WellFormedTree(root)
    requires ScanDirectory(false, root, c, pages, now).outcome.Ok?
    ensures var first := ScanDirectory(false, root, c, pages, now);
            ScanDirectory(false, root, first.catalog, pages2, now2)
              == ScanResult(Ok(ScanStats(|Walk(root, "")|, 0, 0, 0)), first.catalog, false)
  {
    WalkPathsDistinct(root, "");
    FailsExactlyWhenUnreadable(root);
    ScanRecordsTimes(root, c, pages, now);
    ScanOfCurrentCatalog(root, ScanDirectory(false, root, c, pages, now).catalog, pages2, now2);
  }

  /** A catalog that holds exactly the PDF paths the walk meets, each with
      its current modification time, is a fixed point of scanning: the scan
      changes nothing and reports zero changes, or, when the walk meets an
      error, throws that error. */
  lemma ScanOfCurrentCatalog(root: seq<Entry>, c1: Catalog, pages: string -> Option<nat>, now: string)
    requires c1.Keys == PathsOf(Walk(root, ""))
    requires forall i :: 0 <= i < |Walk(root, "")| ==>
               Walk(root, "")[i].rel in c1 && c1[Walk(root, "")[i].rel].modifiedAt == Walk(root, "")[i].mtime
    ensures ScanDirectory(false, root, c1, pages, now)
              == ScanResult(if FirstFailure(root).Some? then Err(ReadFailed(FirstFailure(root).value))
                            else Ok(ScanStats(|Walk(root, "")|, 0, 0, 0)), c1, false)
  {
    var files := Walk(root, "");
    IndexAllCurrent(c1, files, pages, now);
    if FirstFailure(root).None? {
      ReconcileCurrent(c1, files);
    }
  }

  /** Reconciling a catalog that holds exactly the paths found, after an
      indexing pass that changed nothing, removes nothing. */
  lemma ReconcileCurrent(c: Catalog, files: seq<Found>)
    requires c.Keys == PathsOf(files)
    ensures Reconcile(c, files, Progress(c, 0, 0, None), None) == ScanResult(Ok(ScanStats(|files|, 0, 0, 0)), c, false)
  {
    var found := PathsOf(files);
    assert c.Keys - found == {};
    assert RemoveMissing(c, found) == c;
  }

  /** After a completed scan of a tree with distinct PDF paths, the row of
      each file found records its modification time. */
  lemma ScanRecordsTimes(root: seq<Entry>, c: Catalog, pages: string -> Option<nat>, now: string)
    requires DistinctPaths(Walk(root, ""))
    requires ScanDirectory(false, root, c, pages, now).outcome.Ok?
    ensures var files := Walk(root, ""); var c1 := ScanDirectory(false, root, c, pages, now).catalog;
            forall i :: 0 <= i < |files| ==> files[i].rel in c1 && c1[files[i].rel].modifiedAt == files[i].mtime
  {
    var files := Walk(root, "");
    var progress := IndexAll(c, files, pages, now);
    IndexAllRecordsTimes(c, files, pages, now);
    CompletedScanCatalog(c, files, progress);
    RemoveMissingKeepsFound(progress.catalog, files);
  }

  /** A scan whose indexing completed keeps exactly the rows of the paths
      found. */
  lemma CompletedScanCatalog(c: Catalog, files: seq<Found>, progress: Progress)
    requires progress.added + progress.updated <= |files|
    requires progress.failure.None? && progress.catalog.Keys == c.Keys + PathsOf(files)
    ensures Reconcile(c, files, progress, None).outcome.Ok?
    ensures Reconcile(c, files, progress, None).catalog == RemoveMissing(progress.catalog, PathsOf(files))
  {
  }

  /** Removing the rows of paths not found keeps the rows of the files
      found, times included. */
  lemma RemoveMissingKeepsFound(c: Catalog, files: seq<Found>)
    requires forall i :: 0 <= i < |files| ==> files[i].rel in c && c[files[i].rel].modifiedAt == files[i].mtime
    ensures var c1 := RemoveMissing(c, PathsOf(files));
            forall i :: 0 <= i < |files| ==> files[i].rel in c1 && c1[files[i].rel].modifiedAt == files[i].mtime
  {
    var c1 := RemoveMissing(c, PathsOf(files));
    forall i | 0 <= i < |files|
      ensures files[i].rel in c1 && c1[files[i].rel].modifiedAt == files[i].mtime
    {
      assert files[i].rel in PathsOf(files);
    }
  }

  // ---------------------------------------------------------------------------
  // The watcher's single-file handlers

  /** The handlers test the extension on the absolute path; on the path
      relative to the root the test comes out the same, because ".pdf"
      holds no separator. */
  lemma PdfTestOnRelativePath(root: string, rel: string)
    ensures IsPdfName(root + "/" + rel) <==> IsPdfName(rel)
  {
    var full := root + "/" + rel;
    LowerAppend(root + "/", rel);
    if |rel| < 4 {
      assert full[|full| - |rel| - 1] == '/';
      assert |full| >= 4 ==> Lower(full)[|full| - 4..][3 - |rel|] == '/';
    }
    if |rel| >= 4 {
      assert Lower(full)[|full| - 4..] == Lower(rel)[|rel| - 4..];
    }
  }

  /** `addFile` and `changeFile` (the same code): a non-PDF path is
      ignored; otherwise the file is indexed, and a failure (the file is gone
      before `statSync`, or the store rejects the row) is only logged. The
      modelled path is relative to the root; `stat` is `None` when the file
      can no longer be read. */
  function FileAddedOrChanged(c: Catalog, rel: string, stat: Option<(nat, string)>,
                              pages: string -> Option<nat>, now: string): (r: Catalog)
    ensures !IsPdfName(rel) || stat.None? ==> r == c
    ensures IsPdfName(rel) && stat.Some? ==>
              (rel in r && r[rel].modifiedAt == stat.value.1) || (r == c && rel !in c)
    ensures forall q :: q != rel ==> (q in r <==> q in c) && (q in c ==> r[q] == c[q])
  {
    if !IsPdfName(rel) then c
    else
      match stat
      case None => c
      case Some((size, mtime)) =>
        match IndexFile(c, Found(rel, size, mtime), pages, now)
        case Ok((c', _)) => c'
        case Err(_) => c
  }

  /** `removeFile`: deletes the row of a removed PDF and ignores other paths. */
  function FileRemoved(c: Catalog, rel: string): (r: Catalog)
    ensures IsPdfName(rel) ==> rel !in r
    ensures !IsPdfName(rel) ==> r == c
    ensures forall q :: q != rel ==> (q in r <==> q in c) && (q in c ==> r[q] == c[q])
  {
    if IsPdfName(rel) then Delete(c, rel) else c
  }

  /** A file created and removed again leaves no trace in the catalog. */
  lemma AddThenRemove(c: Catalog, rel: string, stat: Option<(nat, string)>,
                      pages: string -> Option<nat>, now: string)
    ensures FileRemoved(FileAddedOrChanged(c, rel, stat, pages, now), rel) == FileRemoved(c, rel)
  {
    if IsPdfName(rel) {
      RemovedAgree(FileAddedOrChanged(c, rel, stat, pages, now), c, rel);
    }
  }

  /** Two catalogs that differ at most at `rel` agree once `rel` is removed. */
  lemma RemovedAgree(a: Catalog, c: Catalog, rel: string)
    requires IsPdfName(rel)
    requires forall q :: q != rel ==> (q in a <==> q in c) && (q in c ==> a[q] == c[q])
    ensures FileRemoved(a, rel) == FileRemoved(c, rel)
  {
    assert FileRemoved(a, rel).Keys == FileRemoved(c, rel).Keys;
  }
}

=== FILE: text.dfy ===
/** String utilities shared by the server and the client model: ASCII case
    folding, substring and affix tests, splitting on one separator character,
    the lexicographic orders the two runtimes sort strings by, and the UTF-16
    code units JavaScript sees when it indexes a string. */
module Text {
  import opened Results

  /** ASCII-only lower-casing of one character (SQLite's LIKE folds exactly these). */
  function LowerChar(c: char): char {
    if 'A' <= c <= 'Z' then (c as int + 32) as char else c
  }

  function Lower(s: string): (r: string)
    ensures |r| == |s|
    ensures forall i :: 0 <= i < |s| ==> r[i] == LowerChar(s[i])
  {
    seq(|s|, i requires 0 <= i < |s| => LowerChar(s[i]))
  }

  lemma LowerAppend(a: string, b: string)
    ensures Lower(a + b) == Lower(a) + Lower(b)
  {
    assert forall i :: 0 <= i < |a + b| ==> Lower(a + b)[i] == (Lower(a) + Lower(b))[i];
  }

  lemma LowerSlice(s: string, i: int, j: int)
    requires 0 <= i <= j <= |s|
    ensures Lower(s[i..j]) == Lower(s)[i..j]
  {
  }

  /** `t` occurs in `s` starting at position `k`. */
  predicate OccursAt(s: string, t: string, k: int) {
    0 <= k && k + |t| <= |s| && s[k..k + |t|] == t
  }

  /** `t` occurs in `s` as a contiguous block (JavaScript `includes`). */
  predicate Contains(s: string, t: string) {
    exists k :: 0 <= k <= |s| && OccursAt(s, t, k)
  }

  predicate StartsWith(s: string, prefix: string) {
    prefix <= s
  }

  predicate EndsWith(s: string, suffix: string) {
    |suffix| <= |s| && s[|s| - |suffix|..] == suffix
  }

  /** A string that begins with a character absent from `s` cannot occur in `s`. */
  lemma NotContainsByFirstChar(s: string, t: string)
    requires |t| > 0 && t[0] !in s
    ensures !Contains(s, t)
  {
    forall k | 0 <= k <= |s|
      ensures !OccursAt(s, t, k)
    {
      if k + |t| <= |s| {
        assert s[k..k + |t|][0] == s[k];
      }
    }
  }

  lemma ContainsEmpty(s: string)
    ensures Contains(s, "")
  {
    assert OccursAt(s, "", 0);
  }

  /** The first position at or after `from` where `t` occurs in `s`
      (JavaScript `indexOf`). */
  function IndexOf(s: string, t: string, from: nat): (r: Option<nat>)
    ensures r.None? ==> forall k :: from <= k <= |s| ==> !OccursAt(s, t, k)
    ensures r.Some? ==> from <= r.value && OccursAt(s, t, r.value)
                        && forall k :: from <= k < r.value ==> !OccursAt(s, t, k)
    decreases |s| - from
  {
    if from + |t| > |s| then None
    else if s[from..from + |t|] == t then Some(from)
    else IndexOf(s, t, from + 1)
  }

  /** `s.replace(t, "")` with a plain pattern: the first occurrence of `t`
      is cut out. */
  function RemoveFirst(s: string, t: string): (r: string)
    ensures !Contains(s, t) ==> r == s
    ensures Contains(s, t) ==>
              exists k :: OccursAt(s, t, k) && (forall j :: 0 <= j < k ==> !OccursAt(s, t, j))
                          && r == s[..k] + s[k + |t|..]
  {
    match IndexOf(s, t, 0)
    case None => s
    case Some(k) => s[..k] + s[k + |t|..]
  }

  /** Cutting text out adds no character. */
  lemma RemoveFirstKeepsAbsent(s: string, t: string, c: char)
    requires c !in s
    ensures c !in RemoveFirst(s, t)
  {
  }

  /** A block placed between two others is contained in the whole. */
  lemma ContainsInMiddle(a: string, t: string, b: string)
    ensures Contains(a + t + b, t)
  {
    assert (a + t + b)[|a|..|a| + |t|] == t;
    assert OccursAt(a + t + b, t, |a|);
  }

  /** Removing a prefix that is there drops exactly that prefix. */
  lemma RemoveFirstAtStart(t: string, rest: string)
    ensures RemoveFirst(t + rest, t) == rest
  {
    var s := t + rest;
    assert OccursAt(s, t, 0) by { assert s[..|t|] == t; }
    assert IndexOf(s, t, 0) == Some(0);
    assert s[|t|..] == rest;
  }

  /** The position of the last occurrence of `c` in `s`. */
  function LastIndexOf(s: string, c: char): (r: Option<nat>)
    ensures r.None? <==> c !in s
    ensures r.Some? ==> r.value < |s| && s[r.value] == c && c !in s[r.value + 1..]
  {
    if |s| == 0 then None
    else if s[|s| - 1] == c then Some(|s| - 1)
    else
      var r := LastIndexOf(s[..|s| - 1], c);
      assert r.Some? ==> s[r.value + 1..] == s[..|s| - 1][r.value + 1..] + [s[|s| - 1]];
      r
  }

  // ---------------------------------------------------------------------------
  // Splitting and joining on a single separator character

  /** JavaScript `s.split(sep)` for a one-character separator: the pieces
      between separators, empty ones included; never an empty list. */
  function Split(s: string, sep: char): (parts: seq<string>)
    ensures |parts| > 0
    ensures forall i :: 0 <= i < |parts| ==> sep !in parts[i]
  {
    if |s| == 0 then [""]
    else
      var rest := Split(s[1..], sep);
      if s[0] == sep then [""] + rest
      else [[s[0]] + rest[0]] + rest[1..]
  }

  /** JavaScript `parts.join(sep)`. */
  function Join(parts: seq<string>, sep: char): string
    requires |parts| > 0
  {
    if |parts| == 1 then parts[0] else parts[0] + [sep] + Join(parts[1..], sep)
  }

  /** Splitting and re-joining restores the string. */
  lemma {:induction false} JoinSplit(s: string, sep: char)
    ensures Join(Split(s, sep), sep) == s
  {
    if |s| > 0 {
      var rest := Split(s[1..], sep);
      JoinSplit(s[1..], sep);
      if s[0] == sep {
        assert Split(s, sep) == [""] + rest;
        assert ([""] + rest)[1..] == rest;
      } else {
        var parts := Split(s, sep);
        assert parts == [[s[0]] + rest[0]] + rest[1..];
        if |rest| == 1 {
          assert Join(parts, sep) == [s[0]] + rest[0];
        } else {
          assert parts[1..] == rest[1..];
          assert Join(parts, sep) == [s[0]] + rest[0] + [sep] + Join(rest[1..], sep);
        }
      }
    }
  }

  /** Joining pieces that do not contain the separator and splitting again
      gives back the pieces. */
  lemma {:induction false} SplitJoin(parts: seq<string>, sep: char)
    requires |parts| > 0
    requires forall i :: 0 <= i < |parts| ==> sep !in parts[i]
    ensures Split(Join(parts, sep), sep) == parts
  {
    if |parts| == 1 {
      SplitNoSep(parts[0], sep);
    } else {
      SplitJoin(parts[1..], sep);
      SplitPrefix(parts[0], Join(parts[1..], sep), sep);
      assert Join(parts, sep) == parts[0] + ([sep] + Join(parts[1..], sep));
      assert [parts[0]] + parts[1..] == parts;
    }
  }

  lemma {:induction false} SplitNoSep(s: string, sep: char)
    requires sep !in s
    ensures Split(s, sep) == [s]
  {
    if |s| > 0 {
      SplitNoSep(s[1..], sep);
      assert [s[0]] + s[1..] == s;
    }
  }

  /** A separator-free head stays a separate piece in front of the split of the rest. */
  lemma {:induction false} SplitPrefix(a: string, b: string, sep: char)
    requires sep !in a
    ensures Split(a + [sep] + b, sep) == [a] + Split(b, sep)
  {
    if |a| == 0 {
      assert a + [sep] + b == [sep] + b;
      assert ([sep] + b)[1..] == b;
    } else {
      assert (a + [sep] + b)[1..] == a[1..] + [sep] + b;
      SplitPrefix(a[1..], b, sep);
      assert [a[0]] + a[1..] == a;
    }
  }

  // ---------------------------------------------------------------------------
  // Lexicographic order on sequences of code values

  /** `a` sorts before or equal to `b`, comparing element by element, a proper
      prefix first. */
  predicate LexLe(a: seq<int>, b: seq<int>) {
    |a| == 0 || (|b| > 0 && (a[0] < b[0] || (a[0] == b[0] && LexLe(a[1..], b[1..]))))
  }

  lemma {:induction false} LexReflexive(a: seq<int>)
    ensures LexLe(a, a)
  {
    if |a| > 0 {
      LexReflexive(a[1..]);
    }
  }

  lemma {:induction false} LexTotal(a: seq<int>, b: seq<int>)
    ensures LexLe(a, b) || LexLe(b, a)
  {
    if |a| > 0 && |b| > 0 && a[0] == b[0] {
      LexTotal(a[1..], b[1..]);
    }
  }

  lemma {:induction false} LexTransitive(a: seq<int>, b: seq<int>, c: seq<int>)
    requires LexLe(a, b) && LexLe(b, c)
    ensures LexLe(a, c)
  {
    if |a| > 0 && a[0] == b[0] && b[0] == c[0] {
      LexTransitive(a[1..], b[1..], c[1..]);
    }
  }

  lemma {:induction false} LexAntisymmetric(a: seq<int>, b: seq<int>)
    requires LexLe(a, b) && LexLe(b, a)
    ensures a == b
  {
    if |a| > 0 {
      LexAntisymmetric(a[1..], b[1..]);
      assert a == [a[0]] + a[1..];
      assert b == [b[0]] + b[1..];
    }
  }

  /** The code points of a string. Comparing these lexicographically is the
      same as comparing the UTF-8 encodings byte by byte, which is SQLite's
      BINARY collation. */
  function CodePoints(s: string): (r: seq<int>)
    ensures |r| == |s|
    ensures forall i :: 0 <= i < |s| ==> r[i] == s[i] as int
  {
    seq(|s|, i requires 0 <= i < |s| => s[i] as int)
  }

  lemma CodePointsInjective(a: string, b: string)
    requires CodePoints(a) == CodePoints(b)
    ensures a == b
  {
    assert |a| == |b|;
    forall i | 0 <= i < |a|
      ensures a[i] == b[i]
    {
      assert CodePoints(a)[i] == CodePoints(b)[i];
    }
  }

  /** SQLite's BINARY collation on TEXT values. */
  predicate BinaryLe(a: string, b: string) {
    LexLe(CodePoints(a), CodePoints(b))
  }

  lemma BinaryTotal(a: string, b: string)
    ensures BinaryLe(a, b) || BinaryLe(b, a)
  {
    LexTotal(CodePoints(a), CodePoints(b));
  }

  lemma BinaryTransitive(a: string, b: string, c: string)
    requires BinaryLe(a, b) && BinaryLe(b, c)
    ensures BinaryLe(a, c)
  {
    LexTransitive(CodePoints(a), CodePoints(b), CodePoints(c));
  }

  lemma BinaryAntisymmetric(a: string, b: string)
    requires BinaryLe(a, b) && BinaryLe(b, a)
    ensures a == b
  {
    LexAntisymmetric(CodePoints(a), CodePoints(b));
    CodePointsInjective(a, b);
  }

  lemma BinaryReflexive(a: string)
    ensures BinaryLe(a, a)
  {
    LexReflexive(CodePoints(a));
  }

  // ---------------------------------------------------------------------------
  // UTF-16, as JavaScript strings see characters

  /** The UTF-16 code units of one character: itself below U+10000, otherwise
      a surrogate pair. */
  function Utf16(c: char): (units: seq<int>)
    ensures 1 <= |units| <= 2
    ensures forall i :: 0 <= i < |units| ==> 0 <= units[i] < 0x10000
  {
    var v := c as int;
    if v < 0x10000 then [v]
    else [0xD800 + (v - 0x10000) / 0x400, 0xDC00 + (v - 0x10000) % 0x400]
  }

  /** The code units JavaScript's `length`, `charCodeAt` and default `sort`
      work on. */
  function CodeUnits(s: string): (units: seq<int>)
    ensures |s| <= |units| <= 2 * |s|
    ensures forall i :: 0 <= i < |units| ==> 0 <= units[i] < 0x10000
  {
    if |s| == 0 then [] else Utf16(s[0]) + CodeUnits(s[1..])
  }

  lemma {:induction false} CodeUnitsAppend(a: string, b: string)
    ensures CodeUnits(a + b) == CodeUnits(a) + CodeUnits(b)
  {
    if |a| > 0 {
      assert (a + b)[0] == a[0];
      assert (a + b)[1..] == a[1..] + b;
      CodeUnitsAppend(a[1..], b);
      assert CodeUnits(a + b) == Utf16(a[0]) + CodeUnits(a[1..] + b);
    } else {
      assert a + b == b;
    }
  }

  /** JavaScript's default `Array.prototype.sort` order on strings. */
  predicate Utf16Le(a: string, b: string) {
    LexLe(CodeUnits(a), CodeUnits(b))
  }

  lemma Utf16Total(a: string, b: string)
    ensures Utf16Le(a, b) || Utf16Le(b, a)
  {
    LexTotal(CodeUnits(a), CodeUnits(b));
  }

  lemma Utf16Transitive(a: string, b: string, c: string)
    requires Utf16Le(a, b) && Utf16Le(b, c)
    ensures Utf16Le(a, c)
  {
    LexTransitive(CodeUnits(a), CodeUnits(b), CodeUnits(c));
  }
  lemma {:induction false} CodeUnitsInjective(a: string, b: string)
    requires CodeUnits(a) == CodeUnits(b)
    ensures a == b
  {
    if |a| > 0 && |b| > 0 {
      var ua, ub := Utf16(a[0]), Utf16(b[0]);
      var u := CodeUnits(a);
      assert u == ua + CodeUnits(a[1..]) && u == ub + CodeUnits(b[1..]);
      assert ua[0] == u[0] == ub[0];
      assert |ua| == |ub| by {
        var va, vb := a[0] as int, b[0] as int;
        assert va < 0xD800 || 0xE000 <= va;
        assert vb < 0xD800 || 0xE000 <= vb;
      }
      assert ua == u[..|ua|] == ub;
      assert a[0] == b[0];
      assert CodeUnits(a[1..]) == u[|ua|..] == CodeUnits(b[1..]);
      CodeUnitsInjective(a[1..], b[1..]);
      assert a == [a[0]] + a[1..] && b == [b[0]] + b[1..];
    }
  }

  lemma Utf16Antisymmetric(a: string, b: string)
    requires Utf16Le(a, b) && Utf16Le(b, a)
    ensures a == b
  {
    LexAntisymmetric(CodeUnits(a), CodeUnits(b));
    CodeUnitsInjective(a, b);
  }

  lemma Utf16Reflexive(a: string)
    ensures Utf16Le(a, a)
  {
    LexReflexive(CodeUnits(a));
  }
}

=== FILE: viewer.dfy ===
/** The viewer page's input rules: page navigation, the touch zones, what
    Escape does, the key bindings applied to the page, and how a local id
    "local-N" picks a stored path. */
module Viewer {
  import opened Results
  import opened Text
  import opened Numbers
  import opened Paths
  import opened Keyboard

  /** The page state: the current page, the page count once the PDF has
      loaded, and whether the header and controls are shown. */
  datatype Page = Page(currentPage: int, numPages: Option<nat>, showControls: bool)

  const INITIAL := Page(1, None, true)

  datatype Zone = Left | Right | Center

  /** 1 <= currentPage <= max(1, numPages). */
  predicate InRange(v: Page) {
    1 <= v.currentPage && (v.currentPage == 1 || (v.numPages.Some? && v.currentPage <= v.numPages.value))
  }

  /** `goToNextPage`: one page on, only with a known, non-zero count not yet reached. */
  function GoToNextPage(v: Page): (r: Page)
    ensures r.numPages == v.numPages && r.showControls == v.showControls
    ensures r.currentPage == v.currentPage + 1 || r == v
    ensures r != v <==> v.numPages.Some? && v.numPages.value != 0 && v.currentPage < v.numPages.value
  {
    if v.numPages.Some? && v.numPages.value != 0 && v.currentPage < v.numPages.value
    then v.(currentPage := v.currentPage + 1)
    else v
  }

  /** `goToPrevPage`: one page back, never below page 1. */
  function GoToPrevPage(v: Page): (r: Page)
    ensures r.numPages == v.numPages && r.showControls == v.showControls
    ensures r.currentPage == v.currentPage - 1 || r == v
    ensures r != v <==> v.currentPage > 1
  {
    if v.currentPage > 1 then v.(currentPage := v.currentPage - 1) else v
  }

  /** `handleTouchZone`: left goes back, right goes on, the centre toggles
      the controls and leaves the page alone. */
  function TouchZone(v: Page, zone: Zone): (r: Page)
    ensures zone == Left ==> r == GoToPrevPage(v)
    ensures zone == Right ==> r == GoToNextPage(v)
    ensures zone == Center ==> r.currentPage == v.currentPage && r.numPages == v.numPages
                               && r.showControls == !v.showControls
  {
    match zone
    case Left => GoToPrevPage(v)
    case Right => GoToNextPage(v)
    case Center => v.(showControls := !v.showControls)
  }

  /** `onLoadSuccess`: the PDF reports its page count. */
  function Loaded(v: Page, n: nat): (r: Page)
    ensures r.numPages == Some(n) && r.currentPage == v.currentPage
  {
    v.(numPages := Some(n))
  }

  datatype Event = NextPage | PrevPage | Touch(zone: Zone)

  function Apply(v: Page, e: Event): Page {
    match e
    case NextPage => GoToNextPage(v)
    case PrevPage => GoToPrevPage(v)
    case Touch(zone) => TouchZone(v, zone)
  }

  function Run(v: Page, events: seq<Event>): (r: Page)
    ensures r.numPages == v.numPages
    decreases |events|
  {
    if |events| == 0 then v else Run(Apply(v, events[0]), events[1..])
  }

  lemma ApplyKeepsInRange(v: Page, e: Event)
    requires InRange(v)
    ensures InRange(Apply(v, e))
  {
  }

  /** Whatever the input, the page stays between 1 and the page count (or 1
      before the count is known). */
  lemma {:induction false} RunKeepsInRange(v: Page, events: seq<Event>)
    requires InRange(v)
    ensures InRange(Run(v, events))
    decreases |events|
  {
    if |events| > 0 {
      ApplyKeepsInRange(v, events[0]);
      RunKeepsInRange(Apply(v, events[0]), events[1..]);
    }
  }

  /** The page opens on page 1, which is in range before and after the count
      arrives, so every later input keeps it in range. */
  lemma OpenedPageStaysInRange(n: nat, before: seq<Event>, after: seq<Event>)
    ensures InRange(Run(INITIAL, before))
    ensures Run(INITIAL, before).currentPage == 1
    ensures InRange(Run(Loaded(Run(INITIAL, before), n), after))
  {
    NothingMovesBeforeLoad(INITIAL, before);
    RunKeepsInRange(INITIAL, before);
    RunKeepsInRange(Loaded(Run(INITIAL, before), n), after);
  }

  /** Before the page count is known no input changes the page. */
  lemma {:induction false} NothingMovesBeforeLoad(v: Page, events: seq<Event>)
    requires v.numPages.None? && v.currentPage == 1
    ensures Run(v, events).currentPage == 1
    decreases |events|
  {
    if |events| > 0 {
      NothingMovesBeforeLoad(Apply(v, events[0]), events[1..]);
    }
  }

  /** Next then back returns to the same page whenever next moved. */
  lemma NextThenPrev(v: Page)
    requires InRange(v)
    requires GoToNextPage(v) != v
    ensures GoToPrevPage(GoToNextPage(v)) == v
  {
  }

  // ---------------------------------------------------------------------------
  // Keys applied to the page

  datatype EscapeChoice = ToggleFullscreen | Back

  /** Escape leaves fullscreen when in it and otherwise goes back to the library. */
  function EscapeAction(isFullscreen: bool): (r: EscapeChoice)
    ensures r == ToggleFullscreen <==> isFullscreen
  {
    if isFullscreen then ToggleFullscreen else Back
  }

  /** The whole viewer as the keys see it. */
  datatype Screen = Screen(page: Page, isFullscreen: bool, leftViewer: bool)

  /** One key event on the viewer: the page supplies all four callbacks and
      enables the keys unless the score is loading or failed to load. The
      fullscreen toggle is taken to flip the fullscreen flag. */
  function ViewerKeyDown(s: Screen, isLoading: bool, hasError: bool, key: string): (r: Screen)
    ensures isLoading || hasError ==> r == s
    ensures r.page.numPages == s.page.numPages
  {
    var reaction := HandleKeyDown(!isLoading && !hasError, Callbacks(true, true, true, true), key);
    match reaction.fired
    case None => s
    case Some(Next) => s.(page := GoToNextPage(s.page))
    case Some(Prev) => s.(page := GoToPrevPage(s.page))
    case Some(Fullscreen) => s.(isFullscreen := !s.isFullscreen)
    case Some(Escape) =>
      match EscapeAction(s.isFullscreen)
      case ToggleFullscreen => s.(isFullscreen := false)
      case Back => s.(leftViewer := true)
  }

  /** With keys enabled: the bound page keys move the page, F11 and "f"
      toggle fullscreen, and Escape first leaves fullscreen and only then
      leaves the viewer. */
  lemma ViewerKeys(s: Screen, key: string)
    ensures Binding(key) == Some(Next) ==> ViewerKeyDown(s, false, false, key) == s.(page := GoToNextPage(s.page))
    ensures Binding(key) == Some(Prev) ==> ViewerKeyDown(s, false, false, key) == s.(page := GoToPrevPage(s.page))
    ensures Binding(key) == Some(Fullscreen) ==> ViewerKeyDown(s, false, false, key) == s.(isFullscreen := !s.isFullscreen)
    ensures Binding(key) == None ==> ViewerKeyDown(s, false, false, key) == s
    ensures ViewerKeyDown(s, false, false, "Escape") ==
              if s.isFullscreen then s.(isFullscreen := false) else s.(leftViewer := true)
  {
    DispatchFollowsBinding(Callbacks(true, true, true, true), key);
    DispatchFollowsBinding(Callbacks(true, true, true, true), "Escape");
    BindingTable();
  }

  // ---------------------------------------------------------------------------
  // Local files: "local-N"

  datatype LocalFile = LocalFile(filename: string, path: string)

  /** `split('/').pop() || 'Unknown'`. */
  function DisplayName(path: string): (r: string)
    ensures r != "" && '/' !in r
  {
    var pieces := Split(path, '/');
    if pieces[|pieces| - 1] == "" then "Unknown" else pieces[|pieces| - 1]
  }

  /** The local file a viewer id selects from the stored path list: only in
      local mode, only for ids starting with "local-", only with a stored
      list, and only when the number after the first "local-" is an index
      into the list. */
  function LocalFileFor(isLocalMode: bool, id: string, stored: Option<seq<string>>): (r: Option<LocalFile>)
    ensures r.Some? ==> isLocalMode && StartsWith(id, "local-") && stored.Some?
    ensures r.Some? ==> exists n :: 0 <= n < |stored.value|
                         && ParseInt(RemoveFirst(id, "local-"), None) == Int(n)
                         && r.value == LocalFile(DisplayName(stored.value[n]), stored.value[n])
  {
    if isLocalMode && StartsWith(id, "local-") && stored.Some? then
      var paths := stored.value;
      match ParseInt(RemoveFirst(id, "local-"), None)
      case NaN => None
      case Int(index) =>
        if 0 <= index < |paths| then Some(LocalFile(DisplayName(paths[index]), paths[index])) else None
    else None
  }

  /** "local-N" selects the N-th stored path exactly when N is an index of
      the list. */
  lemma LocalIdSelects(n: nat, paths: seq<string>)
    ensures n < |paths| ==> LocalFileFor(true, "local-" + Decimal(n), Some(paths))
                              == Some(LocalFile(DisplayName(paths[n]), paths[n]))
    ensures n >= |paths| ==> LocalFileFor(true, "local-" + Decimal(n), Some(paths)) == None
  {
    RemoveFirstAtStart("local-", Decimal(n));
    DecimalRoundTrip(n);
  }

  /** The text after the last '/', which is what `path.basename` keeps. */
  lemma BaseNameAt(s: string, i: nat)
    requires i < |s| && s[i] == '/' && '/' !in s[i + 1..]
    ensures BaseName(s) == s[i + 1..]
  {
  }

  /** The last piece of a split on '/' is the base name. */
  lemma {:induction false} LastPieceIsBaseName(p: string)
    ensures var pieces := Split(p, '/'); pieces[|pieces| - 1] == BaseName(p)
  {
    if |p| > 0 {
      LastPieceIsBaseName(p[1..]);
      if '/' in p[1..] {
        LastPieceAfterSlash(p);
      } else {
        LastPieceOfLastName(p);
      }
    }
  }

  /** With a '/' after the first character, the first character changes
      neither the last piece nor the base name. */
  lemma LastPieceAfterSlash(p: string)
    requires |p| > 0 && '/' in p[1..]
    requires var tail := Split(p[1..], '/'); tail[|tail| - 1] == BaseName(p[1..])
    ensures var pieces := Split(p, '/'); pieces[|pieces| - 1] == BaseName(p)
  {
    SplitHasTwo(p[1..], '/');
    LastOfLongSplit(p, '/');
    BaseNameSkipsFirst(p);
  }

  lemma SplitHasTwo(s: string, sep: char)
    requires sep in s
    ensures |Split(s, sep)| > 1
  {
    JoinSplit(s, sep);
    if |Split(s, sep)| == 1 {
      assert false;
    }
  }

  lemma LastOfLongSplit(p: string, sep: char)
    requires |p| > 0 && |Split(p[1..], sep)| > 1
    ensures var pieces := Split(p, sep); var tail := Split(p[1..], sep);
            pieces[|pieces| - 1] == tail[|tail| - 1]
  {
  }

  lemma BaseNameSkipsFirst(p: string)
    requires |p| > 0 && '/' in p[1..]
    ensures BaseName(p) == BaseName(p[1..])
  {
    var rest := p[1..];
    var i := LastIndexOf(rest, '/').value;
    assert p[i + 1] == '/' && p[i + 2..] == rest[i + 1..];
    BaseNameAt(p, i + 1);
    BaseNameAt(rest, i);
  }

  /** Without a '/' after the first character, the last piece is the whole
      path or, after a leading '/', the rest of it. */
  lemma LastPieceOfLastName(p: string)
    requires |p| > 0 && '/' !in p[1..]
    ensures var pieces := Split(p, '/'); pieces[|pieces| - 1] == BaseName(p)
  {
    var rest := p[1..];
    SplitNoSep(rest, '/');
    if p[0] == '/' {
      BaseNameAt(p, 0);
    } else {
      assert '/' !in p by { assert p == [p[0]] + rest; }
      SplitNoSep(p, '/');
    }
  }

  /** The displayed name of a local file is its base name, or "Unknown" for a
      path ending in '/'. */
  lemma DisplayNameIsBaseName(path: string)
    ensures DisplayName(path) == if BaseName(path) == "" then "Unknown" else BaseName(path)
    ensures '/' !in DisplayName(path)
  {
    LastPieceIsBaseName(path);
  }
}
